=== FILE: README.md ===
# USDT-perpetual market data: a Dafny model of the adapter core

`market_data_fetch` is a Python client library. It fetches USDT-margined perpetual
futures market data from Binance, Bybit, Bitget and OKX behind one interface:
klines, funding rates, mark/index prices, open interest and instruments.

This project models the part of that library that does not talk to the network:
- the query value objects (symbols, intervals, historical and funding-rate windows);
- each adapter's pure logic:
  - interval tables, limit enforcement, symbol to wire-id mapping and time-window parameters;
  - envelope extraction, response classification into the error taxonomy, and row parsing;
- the exchange-to-factory registry;
- the client's per-exchange source cache.

Everything is pure. Every operation takes the outcome of its HTTP GET as a `Reply` parameter:
- the call failed, or
- a status code and a body that did or did not decode as JSON.

Every operation that needs the clock takes `now`. It returns a `Result`: either a value, or the
exception the Python code would raise (library errors and the built-in ones that can escape,
such as `KeyError` or `InvalidOperation`).

Layout, one module per file:

| file | module | what it holds |
|---|---|---|
| errors.dfy | Errors | `Option`, the exception taxonomy `Error`, `Result`, `MapAll` (a list comprehension that stops at the first exception) |
| numbers.dfy | Numbers | `str(int)` / `int(str)`, and decimal literals: a `Decimal` is the text it was parsed from |
| json.dfy | Json | decoded JSON and the Python operations applied to it: `get`, truthiness, `or`, `str`, `int`, `_to_decimal`, iteration, indexing |
| shared.dfy | Shared | `Exchange`, `Interval` (with its string values and lengths), `Symbol` |
| queries.dfy | Queries | `HistoricalWindow`, `FundingRateWindow` and their construction checks |
| http.dfy | Http | the `Reply` of a GET, query parameters |
| records.dfy | Records | klines and the snapshot tuples, plus a row encoder used by the round-trip lemmas |
| okx.dfy, bitget.dfy, bybit.dfy, binance.dfy | Okx, Bitget, Bybit, Binance | one adapter each |
| registry.dfy | Registry | register / create / snapshot |
| coordinator.dfy | Coordinator | client construction and `_get_source` memoisation |

Time values are epoch milliseconds. A `datetime` is always truthy, so `if query.start_time:` is
modelled as "the bound is present".

## Behaviour worth knowing

- An empty payload is not always an error. Binance's historical klines and funding history
  return an empty list for `[]` (`Binance.EmptyKlinesAccepted`), and so does Bitget's funding
  history (`Bitget.EmptyFundingHistoryAccepted`). The latest-value operations reject it
  (`Binance.EmptyLatestRejected`).
- Binance classifies a body carrying a non-zero `code` before it looks at the HTTP status. So a
  429 whose body has an ordinary error code is a generic error, not a transient one
  (`Binance.CodeBeforeStatus`).
- OKX treats only 429/500/502/503/504 as transient. It does not inspect other 4xx statuses: their
  body's `code` decides the outcome.
- OKX and Bitget funding history send no time bounds; the window's bounds are ignored.
- Bitget has no instrument listing and no combined latest ticker. Binance and Bybit have no
  combined latest ticker either. Only OKX implements `get_latest_ticker`.
- Snapshot tuples are not uniform:
  - Bitget's latest price and index price, and Binance's latest price, are `(price, time)`;
  - the others are `(time, value)`;
  - Binance's latest index and premium operations return a whole kline.

## Model

| member | source | states |
|---|---|---|
| Errors.MapAll | market_data_fetch/exchanges/binance/usdt_perp.py:77 | a list comprehension succeeds iff every element converts; values are element-wise, and a failure is the first failing element's exception |
| Numbers.IntToStringRoundTrip | market_data_fetch/exchanges/okx/usdt_perp.py:364-367 | `int(str(t)) == t` for every integer, so a timestamp sent as text reads back unchanged |
| Numbers.IntToStringInjective | market_data_fetch/exchanges/okx/usdt_perp.py:364-367 | distinct timestamps are sent as distinct texts |
| Numbers.DecimalOf | market_data_fetch/exchanges/okx/usdt_perp.py:429 | `Decimal(text)` succeeds exactly on decimal literals, keeps the text, and otherwise raises InvalidOperation |
| Numbers.IntTextIsDecimal | market_data_fetch/exchanges/binance/usdt_perp.py:253-257 | the text of any integer is a decimal literal, so `Decimal(str(i))` never raises |
| Json.ToInt | market_data_fetch/exchanges/okx/usdt_perp.py:296 | `int(v)` keeps integers, reads booleans as 1 and 0, parses strings, and raises TypeError for None, lists and dicts |
| Json.ToDecimal | market_data_fetch/exchanges/okx/usdt_perp.py:426-429 | `None` and `""` become 0; a non-empty string converts iff it is a decimal literal, to that text; an integer converts to its text; booleans, lists and dicts raise InvalidOperation |
| Json.DecimalFieldRoundTrip | market_data_fetch/exchanges/bybit/usdt_perp.py:313-316 | a decimal sent as its text converts back to the same decimal |
| Json.Subscript | market_data_fetch/exchanges/binance/usdt_perp.py:261 | `v[key]` on a dict gives the value or KeyError, and on anything else TypeError |
| Json.DecimalOfValue | market_data_fetch/exchanges/binance/usdt_perp.py:261 | `Decimal(v)` on the decoded value: a string is parsed, an integer or boolean is exact, a list of any length but three raises ValueError, and `None` or a dict raises TypeError |
| Shared.ParseInterval | market_data_fetch/models/shared.py:23-39 | lookup by value returns the member with that string value; an unknown text raises ValueError and matches no member |
| Shared.IntervalTextInjective | market_data_fetch/models/shared.py:23-39 | distinct intervals have distinct string values |
| Shared.ParseIntervalRoundTrip | market_data_fetch/models/shared.py:23-39 | every interval is found again from its string value |
| Shared.IntervalsClosed | market_data_fetch/models/shared.py:23-39 | exactly fourteen intervals, with distinct values, and every interval is one of them |
| Shared.NewSymbol | market_data_fetch/models/shared.py:45-55 | construction succeeds iff base and quote are non-empty; the contract type defaults to perpetual |
| Shared.PairShape | market_data_fetch/models/shared.py:57-61 | the pair is the base followed by the quote |
| Shared.PairDeterminesParts | market_data_fetch/models/shared.py:57-61 | given where the base ends, the pair determines base and quote |
| Queries.CheckBounds | market_data_fetch/core/queries.py:23-27 | passes iff the limit is positive and present bounds are ordered; the limit is checked first, each failure with its own message |
| Queries.NewHistoricalWindow | market_data_fetch/core/queries.py:13-27 | construction succeeds iff the bounds are valid, and the window then satisfies its invariant |
| Queries.NewFundingRateWindow | market_data_fetch/core/queries.py:30-43 | the same for funding-rate windows |
| Queries.DefaultWindows | market_data_fetch/core/queries.py:10-21 | a window built from the required arguments alone has limit 500 and no bounds |
| Queries.NonPositiveLimitRejected | market_data_fetch/core/queries.py:24-25 | a non-positive limit is rejected whatever the bounds |
| Queries.BoundsRejected | market_data_fetch/core/queries.py:26-27 | with a positive limit, rejection happens exactly when both bounds are present and start >= end |
| Queries.OneSidedWindowsAccepted | market_data_fetch/core/queries.py:39-43 | one bound or none never fails construction |
| Http.WithTimeBounds | market_data_fetch/exchanges/bybit/usdt_perp.py:227-230 | each present bound is added under its key and nothing else changes |
| Okx.MapInterval | market_data_fetch/exchanges/okx/usdt_perp.py:52-67 | OKX supports every interval |
| Okx.MapIntervalIsUnitUpper | market_data_fetch/exchanges/okx/usdt_perp.py:52-67 | each OKX bar is the canonical value with an hour/day/week unit upper-cased (minutes and month unchanged) |
| Okx.MapIntervalInjective | market_data_fetch/exchanges/okx/usdt_perp.py:52-67 | distinct intervals map to distinct bars |
| Okx.EnforceLimit | market_data_fetch/exchanges/okx/usdt_perp.py:369-374 | a limit within the cap is kept; the default 500 above the cap is clamped to the cap; any other over-cap limit raises; the result never exceeds the cap or the request |
| Okx.ApplyTimeFilters | market_data_fetch/exchanges/okx/usdt_perp.py:345-367 | the window start goes to `before` and the end to `after` (OKX's inverted pagination); absent bounds leave their keys alone; other keys unchanged |
| Okx.CandleFiltersInverted | market_data_fetch/exchanges/okx/usdt_perp.py:228-234 | the `before`/`after` texts read back as the window's start and end |
| Okx.ContractInstId | market_data_fetch/exchanges/okx/usdt_perp.py:404-407 | the contract id is the index id plus `-SWAP` |
| Okx.SplitUnderlying | market_data_fetch/exchanges/okx/usdt_perp.py:419-424 | without a hyphen the text is the base and the quote is empty; with one, the first two hyphen-free segments |
| Okx.SplitJoin | market_data_fetch/exchanges/okx/usdt_perp.py:419-424 | splitting `a-b` gives back `(a, b)` for hyphen-free parts |
| Okx.SplitIndexInstId | market_data_fetch/exchanges/okx/usdt_perp.py:409-424 | splitting the index id of a symbol gives back its upper-cased base and quote |
| Okx.ParseKline | market_data_fetch/exchanges/okx/usdt_perp.py:293-307 | at least five columns; volume is zero when asked, else column 6 when non-empty, else column 5, else 0; a row whose first five columns convert parses when the volume is zeroed or absent |
| Okx.ParseKlineRoundTrip | market_data_fetch/exchanges/okx/usdt_perp.py:293-307 | a row of known fields parses back to them, with zeroed volume when asked |
| Okx.ParseFullRowRoundTrip | market_data_fetch/exchanges/okx/usdt_perp.py:296-306 | a six-column row keeps its own volume column |
| Okx.ParseZeroVolumeRowRoundTrip | market_data_fetch/exchanges/okx/usdt_perp.py:301-302 | with zero volume requested, the row's volume column is ignored |
| Okx.ParseKlineEntry | market_data_fetch/exchanges/okx/usdt_perp.py:100 | a list row is parsed as above; a dict row raises the structure error when it has fewer than five keys and KeyError 0 otherwise; any other non-string raises TypeError |
| Okx.BuildFlatKline | market_data_fetch/exchanges/okx/usdt_perp.py:309-312 | a premium record becomes a kline whose four prices are the premium and whose volume is 0 |
| Okx.ParseFundingPoint | market_data_fetch/exchanges/okx/usdt_perp.py:314-317 | the time is `fundingTime`, else `ts`, else 0, and the rate is `fundingRate`; a dict parses exactly when the first truthy of `fundingTime`, `ts`, 0 converts to an integer and the rate converts |
| Okx.ParseInstrument | market_data_fetch/exchanges/okx/usdt_perp.py:319-337 | base and quote from the underlying, quote defaulting to USDT, symbol their concatenation; tick, step and min sizes from tickSz/lotSz/minSz; max from maxLmtSz, else maxMktSz, else 0; status from state |
| Okx.ParseFundingPointRoundTrip | market_data_fetch/exchanges/okx/usdt_perp.py:314-317 | a funding record built from a point parses back to that point |
| Okx.FundingEntriesRoundTrip | market_data_fetch/exchanges/okx/usdt_perp.py:145 | a list of such records parses back to the points, in order |
| Okx.ParseInstrumentRoundTrip | market_data_fetch/exchanges/okx/usdt_perp.py:319-337 | an instrument record built from a well-shaped instrument parses back to it |
| Okx.ExtractSequence | market_data_fetch/exchanges/okx/usdt_perp.py:339-343 | succeeds iff `data` is a non-empty sequence, which is returned; otherwise the empty-payload error |
| Okx.Request | market_data_fetch/exchanges/okx/usdt_perp.py:382-402 | network failure and 429/5xx are transient; rate-limit codes are transient; 51001 is symbol-not-supported; other non-success codes are generic; success returns the body |
| Okx.RequestCodeForms | market_data_fetch/exchanges/okx/usdt_perp.py:394-402 | a missing code and integer 0 are success; integer 51001 is symbol-not-supported |
| Okx.CandlesTransient | market_data_fetch/exchanges/okx/usdt_perp.py:386-389 | a network failure or HTTP 429 on a candle request is retryable |
| Okx.InsertByOpenTime | market_data_fetch/exchanges/okx/usdt_perp.py:216-217 | inserting keeps the sequence sorted and adds exactly the new kline |
| Okx.SortKlines | market_data_fetch/exchanges/okx/usdt_perp.py:216-217 | the result is sorted by open time and is a permutation of the input |
| Okx.SortKlinesIdempotent | market_data_fetch/exchanges/okx/usdt_perp.py:216-217 | an already sorted sequence is returned unchanged |
| Okx.CandleParams | market_data_fetch/exchanges/okx/usdt_perp.py:219-234 | exactly instId, bar, limit and the present bounds; the limit is the enforced one, as text |
| Okx.PremiumHistoryParams | market_data_fetch/exchanges/okx/usdt_perp.py:238-247 | limit errors as for candles; otherwise exactly instId (the contract id) and the limit as text, plus `before`/`after` from the window start and end when present |
| Okx.FundingHistoryParams | market_data_fetch/exchanges/okx/usdt_perp.py:133-142 | limit errors as for candles; otherwise only the contract id and the enforced limit as text: the window's time bounds are dropped |
| Okx.PriceLimitPolicy | market_data_fetch/exchanges/okx/usdt_perp.py:369-374 | the default limit asks for 300 price candles; 301 is rejected |
| Okx.FetchCandles | market_data_fetch/exchanges/okx/usdt_perp.py:219-236 | a parameter error comes before any request error; once both pass, the result is what the envelope's `data` extraction gives, and success is a non-empty row sequence |
| Okx.ParseKlineEntries | market_data_fetch/exchanges/okx/usdt_perp.py:100 | every row parses, element-wise, or the call fails |
| Okx.CandleSeries | market_data_fetch/exchanges/okx/usdt_perp.py:100-101 | the parsed rows, sorted by open time, as a permutation of the parse |
| Okx.PriceKlines | market_data_fetch/exchanges/okx/usdt_perp.py:92-101 | for every reply: a parameter or fetch error is the result, otherwise the fetched rows parsed and sorted; success is non-empty and sorted |
| Okx.IndexPriceKlines | market_data_fetch/exchanges/okx/usdt_perp.py:103-112 | for every reply: a parameter or fetch error of the index-id request is the result, otherwise the rows parsed with zero volume and sorted; every volume is zero |
| Okx.MarkPriceKlines | market_data_fetch/exchanges/okx/usdt_perp.py:114-123 | for every reply: a parameter or fetch error of the contract-id request is the result, otherwise the rows parsed with zero volume and sorted; every volume is zero |
| Okx.FetchPremiumHistory | market_data_fetch/exchanges/okx/usdt_perp.py:238-249 | limit errors first, then request errors; once both pass, the result is what the envelope's `data` extraction gives, and success is non-empty |
| Okx.PremiumIndexKlines | market_data_fetch/exchanges/okx/usdt_perp.py:125-131 | for every reply: a fetch error, then the first record that fails to convert, is the result; otherwise the flat klines (four equal prices, zero volume) sorted by open time, a permutation of the converted records |
| Okx.CandleSeriesRoundTrip | market_data_fetch/exchanges/okx/usdt_perp.py:100-101 | the rows of well-formed klines parse back to those klines (volume zeroed on the index and mark feeds), sorted by open time |
| Okx.PriceKlinesRoundTrip | market_data_fetch/exchanges/okx/usdt_perp.py:92-101 | a successful candle reply listing well-formed klines yields them sorted by open time, and unchanged when already in order, for any accepted window |
| Okx.IndexPriceKlinesRoundTrip | market_data_fetch/exchanges/okx/usdt_perp.py:103-112 | a successful index-candle reply yields its klines with zero volume, sorted; sorted zero-volume klines come back unchanged |
| Okx.MarkPriceKlinesRoundTrip | market_data_fetch/exchanges/okx/usdt_perp.py:114-123 | a successful mark-candle reply yields its klines with zero volume, sorted; sorted zero-volume klines come back unchanged |
| Okx.BuildFlatKlineRoundTrip | market_data_fetch/exchanges/okx/usdt_perp.py:309-312 | a premium record built from a point becomes the flat kline of that point |
| Okx.PremiumIndexKlinesRoundTrip | market_data_fetch/exchanges/okx/usdt_perp.py:125-131 | a successful premium-history reply listing points yields their flat klines sorted by open time, unchanged when already in order, for any accepted window |
| Okx.FundingRateHistory | market_data_fetch/exchanges/okx/usdt_perp.py:133-145 | limit errors first, then request and empty-payload errors; success is every entry of `data` parsed in order |
| Okx.FindByInstId | market_data_fetch/exchanges/okx/usdt_perp.py:256 | the first entry whose instId matches, with no match before it; none when every entry is a dict without a match; a non-dict entry before any match raises AttributeError |
| Okx.FetchTicker | market_data_fetch/exchanges/okx/usdt_perp.py:251-259 | request and empty-payload errors propagate; the first entry carrying the contract id, or the payload-missing error when there is none |
| Okx.FetchIndexTicker | market_data_fetch/exchanges/okx/usdt_perp.py:261-269 | request and empty-payload errors propagate; the first entry carrying the index id, or the payload-missing error when there is none |
| Okx.FetchMarkSnapshot | market_data_fetch/exchanges/okx/usdt_perp.py:271-276 | the first entry carrying the contract id when there is one, else the first entry |
| Okx.TickerTimestamp | market_data_fetch/exchanges/okx/usdt_perp.py:153 | the ticker's ts, else the index ticker's, else the mark entry's, else 0 |
| Okx.LatestTicker | market_data_fetch/exchanges/okx/usdt_perp.py:149-159 | last price from the ticker, index price from the index ticker, mark price from the mark snapshot, and the timestamp chain of `TickerTimestamp`; each fetch error propagates in call order, and the call succeeds exactly when the timestamp and the three prices convert |
| Okx.LatestMarkPrice | market_data_fetch/exchanges/okx/usdt_perp.py:161-165 | `(int(ts or 0), markPx)` of the mark snapshot; snapshot errors propagate |
| Okx.LatestIndexPrice | market_data_fetch/exchanges/okx/usdt_perp.py:167-171 | `(int(ts or 0), idxPx)` of the index ticker; the fetch error, then the price error, then the timestamp error is the result, and otherwise the pair is returned |
| Okx.LatestPremiumIndex | market_data_fetch/exchanges/okx/usdt_perp.py:173-181 | open time and close of the first flat kline of a one-row premium request; the history fetch error, then the flat-kline error, is the result, and otherwise the pair is returned |
| Okx.LatestFundingRate | market_data_fetch/exchanges/okx/usdt_perp.py:183-187 | the rate is `fundingRate or nextFundingRate`, and the time `fundingTime or nextFundingTime or ts or 0`, of the first entry; the request and empty-payload errors propagate, a non-dict entry raises AttributeError, and the rate error comes before the time error |
| Okx.OpenInterest | market_data_fetch/exchanges/okx/usdt_perp.py:189-196 | `(int(ts or 0), oiUsd or oi)` of the first entry |
| Okx.UsdtInstruments | market_data_fetch/exchanges/okx/usdt_perp.py:201-206 | a successful loop saw only dicts and equals parsing exactly the USDT-settled entries, in order |
| Okx.Instruments | market_data_fetch/exchanges/okx/usdt_perp.py:198-208 | exactly the USDT-settled entries parsed in order; no such entry is an error |
| Okx.SuccessReplyAccepted | market_data_fetch/exchanges/okx/usdt_perp.py:382-402 | a 200 reply with code "0" and a non-empty `data` list passes the request and the empty-payload check unchanged |
| Okx.FundingRateHistoryRoundTrip | market_data_fetch/exchanges/okx/usdt_perp.py:133-145 | a successful reply listing a non-empty series of funding points yields that series, for any accepted window |
| Okx.OpenInterestRoundTrip | market_data_fetch/exchanges/okx/usdt_perp.py:189-196 | a reply whose first entry carries a point's time and `oiUsd` yields that point |
| Okx.LatestMarkPriceRoundTrip | market_data_fetch/exchanges/okx/usdt_perp.py:271-276 | the mark snapshot matching the contract id is used even when it is not first, and its time and mark price come back |
| Okx.FindOnlyRecord | market_data_fetch/exchanges/okx/usdt_perp.py:255-256 | a one-entry list whose entry carries the wanted id finds that entry |
| Okx.LatestIndexPriceRoundTrip | market_data_fetch/exchanges/okx/usdt_perp.py:167-171 | an index-ticker reply carrying a point's time and index price yields that point |
| Okx.TickerRecordsFetched | market_data_fetch/exchanges/okx/usdt_perp.py:150-152 | replies built from a ticker make each of the three fetches return its own record |
| Okx.LatestTickerRoundTrip | market_data_fetch/exchanges/okx/usdt_perp.py:149-159 | ticker, index-ticker and mark replies built from a ticker yield that ticker |
| Okx.LatestPremiumIndexRoundTrip | market_data_fetch/exchanges/okx/usdt_perp.py:173-181 | a premium-history reply carrying a point's time and premium yields that point |
| Okx.LatestFundingRateRoundTrip | market_data_fetch/exchanges/okx/usdt_perp.py:183-187 | a latest-funding reply carrying a forecast's rate and time yields that forecast |
| Okx.UsdtInstrumentsKeepsAll | market_data_fetch/exchanges/okx/usdt_perp.py:201-206 | when every entry is USDT-settled, every entry is parsed and none is dropped |
| Okx.InstrumentEntriesParse | market_data_fetch/exchanges/okx/usdt_perp.py:319-337 | each encoded instrument parses back to itself |
| Okx.InstrumentsRoundTrip | market_data_fetch/exchanges/okx/usdt_perp.py:198-208 | a reply listing encoded USDT instruments yields exactly those instruments, in order |
| Bitget.MapInterval | market_data_fetch/exchanges/bitget/usdt_perp.py:267-271 | Bitget supports every interval |
| Bitget.MapIntervalMatchesOkx | market_data_fetch/exchanges/bitget/usdt_perp.py:39-54 | Bitget's granularity table equals OKX's bar table |
| Bitget.IntervalMillisecondsAgree | market_data_fetch/exchanges/bitget/usdt_perp.py:56-71 | each millisecond entry is the interval's minutes times 60 000, so every interval is present |
| Bitget.EnforceLimit | market_data_fetch/exchanges/bitget/usdt_perp.py:273-276 | within the cap the request is kept; above it, ValueError (no clamp) |
| Bitget.SymbolId | market_data_fetch/exchanges/bitget/usdt_perp.py:305-306 | the pair followed by `_UMCBL` |
| Bitget.SymbolIdDeterminesPair | market_data_fetch/exchanges/bitget/usdt_perp.py:305-306 | two symbols share an id iff they share a pair |
| Bitget.DeriveTimeRange | market_data_fetch/exchanges/bitget/usdt_perp.py:257-265 | end is the window end or now; start is the window start or `limit` candles earlier; an unordered start is replaced by `limit` candles before the end, floored at 0; the range is non-empty for a positive limit and end |
| Bitget.OpenWindowRange | market_data_fetch/exchanges/bitget/usdt_perp.py:261-262 | an unbounded window covers the `limit` candles ending now |
| Bitget.KlineLimit | market_data_fetch/exchanges/bitget/usdt_perp.py:209 | a non-zero override wins; otherwise the enforced limit |
| Bitget.HistoricalParams | market_data_fetch/exchanges/bitget/usdt_perp.py:199-220 | exactly symbol, granularity, both bounds and limit, plus kLineType only when non-empty; bounds from the given range or the derived one |
| Bitget.CandleRangeNonEmpty | market_data_fetch/exchanges/bitget/usdt_perp.py:257-265 | for a valid window the sent range is non-empty when the end is positive |
| Bitget.FundingParams | market_data_fetch/exchanges/bitget/usdt_perp.py:222-228 | only symbol id and pageSize: the time bounds are dropped |
| Bitget.DefaultFundingWindowRejected | market_data_fetch/exchanges/bitget/usdt_perp.py:273-276 | a default funding window (limit 500) is rejected against the cap of 100 |
| Bitget.ExtractMessage | market_data_fetch/exchanges/bitget/usdt_perp.py:350-355 | the body's `msg` when it is a non-empty string |
| Bitget.RequestJson | market_data_fetch/exchanges/bitget/usdt_perp.py:326-348 | network failure, 403 and 5xx are transient and are the only retryable outcomes; a non-JSON body and other 4xx are generic errors |
| Bitget.RequestWrapped | market_data_fetch/exchanges/bitget/usdt_perp.py:316-324 | the body must be a dict whose code is missing or "00000" |
| Bitget.ParseKline | market_data_fetch/exchanges/bitget/usdt_perp.py:278-287 | at least six columns, each field converted; it succeeds whenever they convert |
| Bitget.ParseKlineRoundTrip | market_data_fetch/exchanges/bitget/usdt_perp.py:278-287 | a row of known fields, followed by any columns, parses back to them |
| Bitget.ParseColumns | market_data_fetch/exchanges/bitget/usdt_perp.py:281-287 | the kline exists exactly when the time converts through `int()` and the five other columns through `Decimal`, and each field is that conversion |
| Bitget.ColumnsRoundTrip | market_data_fetch/exchanges/bitget/usdt_perp.py:281-287 | the columns written from a kline convert back to it |
| Bitget.ParseKlineEntry | market_data_fetch/exchanges/bitget/usdt_perp.py:96 | a list row is parsed as above; a dict row raises the structure error when it has fewer than six keys and KeyError 0 otherwise; any other non-string raises TypeError |
| Bitget.ParseSnapshotFromKline | market_data_fetch/exchanges/bitget/usdt_perp.py:289-296 | `(close, open time)` of a row of at least five columns; a shorter list or dict raises the structure error, and a dict with five or more keys raises KeyError 4 because the close is read first |
| Bitget.SnapshotOfKlineRow | market_data_fetch/exchanges/bitget/usdt_perp.py:289-296 | the snapshot of an encoded kline is its close and open time |
| Bitget.ParseFundingPoint | market_data_fetch/exchanges/bitget/usdt_perp.py:298-303 | a non-dict entry is malformed; the time is `settleTime`, else `fundingTime`, else 0 |
| Bitget.InferTimestamp | market_data_fetch/exchanges/bitget/usdt_perp.py:308-314 | the ticker's timestamp, else a non-zero server time, else now |
| Bitget.FetchKlineSeries | market_data_fetch/exchanges/bitget/usdt_perp.py:178-197 | parameter errors first; the body must be a non-empty list |
| Bitget.Klines | market_data_fetch/exchanges/bitget/usdt_perp.py:93-111 | every row parsed in the order received |
| Bitget.FundingEntries | market_data_fetch/exchanges/bitget/usdt_perp.py:116-119 | a list is parsed element-wise; an empty string or dict gives no points; a scalar is a malformed payload |
| Bitget.FundingRateHistory | market_data_fetch/exchanges/bitget/usdt_perp.py:113-119 | limit errors first, then envelope errors, then the entries of `data` |
| Bitget.EmptyFundingHistoryAccepted | market_data_fetch/exchanges/bitget/usdt_perp.py:113-119 | an empty `data` list is an empty history, not an error |
| Bitget.DataObject | market_data_fetch/exchanges/bitget/usdt_perp.py:233-235 | `data` must be a dict |
| Bitget.FetchTicker | market_data_fetch/exchanges/bitget/usdt_perp.py:230-237 | the ticker, and the server time `requestTime or timestamp or 0` |
| Bitget.FetchMarkPrice | market_data_fetch/exchanges/bitget/usdt_perp.py:239-247 | the mark price of `data` and the time `int(data.timestamp or requestTime or 0)`; a non-dict `data` and a failing conversion fail the call |
| Bitget.FetchNextFundingTime | market_data_fetch/exchanges/bitget/usdt_perp.py:249-255 | `fundingTime or requestTime or 0` |
| Bitget.LatestPrice | market_data_fetch/exchanges/bitget/usdt_perp.py:123-127 | `(last, inferred time)`, price first; the ticker error, then the price error, then the time error is the result, and otherwise the pair is returned |
| Bitget.LatestMarkPrice | market_data_fetch/exchanges/bitget/usdt_perp.py:129-135 | mark from the mark endpoint, index and rate from the ticker, time from the funding-time endpoint; the three fetch errors and the index and rate conversion errors propagate in call order, and otherwise the snapshot is returned |
| Bitget.LatestIndexPrice | market_data_fetch/exchanges/bitget/usdt_perp.py:137-141 | `(indexPrice, inferred time)`; the ticker error, then the price error, then the time error is the result, and otherwise the pair is returned |
| Bitget.LatestPremiumIndex | market_data_fetch/exchanges/bitget/usdt_perp.py:143-153 | the snapshot of the first row of a one-row premium request |
| Bitget.LatestPremiumParams | market_data_fetch/exchanges/bitget/usdt_perp.py:144-150 | that request asks for one premium candle covering the last minute |
| Bitget.LatestFundingRate | market_data_fetch/exchanges/bitget/usdt_perp.py:155-160 | the first point of a one-entry history; an empty history is an error |
| Bitget.OpenInterest | market_data_fetch/exchanges/bitget/usdt_perp.py:162-170 | `(timestamp or requestTime or 0, amount)` |
| Bitget.ParseFundingPointRoundTrip | market_data_fetch/exchanges/bitget/usdt_perp.py:298-303 | a funding record built from a point parses back to that point |
| Bitget.FundingRateHistoryRoundTrip | market_data_fetch/exchanges/bitget/usdt_perp.py:113-119 | a successful reply listing a series of funding points yields that series, for any accepted window |
| Bitget.OpenInterestRoundTrip | market_data_fetch/exchanges/bitget/usdt_perp.py:162-170 | a reply whose `data` carries a point's time and amount yields that point, whatever the request time |
| Bitget.SuccessReplyAccepted | market_data_fetch/exchanges/bitget/usdt_perp.py:316-324 | a 200 reply with code "00000" passes the wrapped request unchanged, exposing its `data` and `requestTime` |
| Bitget.TickerFieldRoundTrip | market_data_fetch/exchanges/bitget/usdt_perp.py:230-237 | a ticker reply carrying a price field and a timestamp converts that field back and infers that timestamp |
| Bitget.LatestPriceRoundTrip | market_data_fetch/exchanges/bitget/usdt_perp.py:123-127 | a ticker reply carrying a price and time as `last` yields that pair |
| Bitget.LatestIndexPriceRoundTrip | market_data_fetch/exchanges/bitget/usdt_perp.py:137-141 | a ticker reply carrying a price and time as `indexPrice` yields that pair |
| Bitget.MarkPartsFetched | market_data_fetch/exchanges/bitget/usdt_perp.py:129-135 | replies built from a mark snapshot make the mark-price, ticker and funding-time fetches return their parts |
| Bitget.LatestMarkPriceRoundTrip | market_data_fetch/exchanges/bitget/usdt_perp.py:129-135 | mark-price, ticker and funding-time replies built from a snapshot yield that snapshot |
| Bybit.MapInterval | market_data_fetch/exchanges/bybit/usdt_perp.py:251-255 | only the three-day interval is unsupported, and it raises with its value in the message |
| Bybit.MapIntervalCoverage | market_data_fetch/exchanges/bybit/usdt_perp.py:45-59 | exactly the three-day interval is unsupported, and the codes are distinct |
| Bybit.IntradayCodesAreMinutes | market_data_fetch/exchanges/bybit/usdt_perp.py:46-55 | below a day the code is the interval's length in minutes |
| Bybit.EnforceLimit | market_data_fetch/exchanges/bybit/usdt_perp.py:246-249 | within the cap the request is kept; above it, ValueError (no clamp) |
| Bybit.HistoricalParams | market_data_fetch/exchanges/bybit/usdt_perp.py:212-231 | the interval is checked before the limit; exactly category, symbol, interval, limit and the present bounds |
| Bybit.FundingParams | market_data_fetch/exchanges/bybit/usdt_perp.py:233-244 | category, symbol, limit and the present bounds |
| Bybit.ExtractMessage | market_data_fetch/exchanges/bybit/usdt_perp.py:350-354 | `retMsg or retExtInfo` when a non-empty string |
| Bybit.Request | market_data_fetch/exchanges/bybit/usdt_perp.py:318-348 | network failure, 403 and 5xx are transient and the only retryable outcomes; a non-dict body is an error; a retCode other than 0/None is an error carrying retMsg |
| Bybit.ExtractList | market_data_fetch/exchanges/bybit/usdt_perp.py:257-264 | `result` must be a dict and its `list` truthy |
| Bybit.ExtractedListNonEmpty | market_data_fetch/exchanges/bybit/usdt_perp.py:262-264 | an extracted list is non-empty, so indexing its first entry succeeds |
| Bybit.ParseKline | market_data_fetch/exchanges/bybit/usdt_perp.py:266-276 | at least five columns; volume is column 5 when present, else 0 |
| Bybit.ParseKlineRoundTrip | market_data_fetch/exchanges/bybit/usdt_perp.py:266-276 | a full row parses back to its fields |
| Bybit.ParseShortKlineRoundTrip | market_data_fetch/exchanges/bybit/usdt_perp.py:274-275 | a row without its volume column parses with zero volume |
| Bybit.ParseColumns | market_data_fetch/exchanges/bybit/usdt_perp.py:269-275 | the kline exists exactly when the time converts through `int()` and the five prices and volume through `Decimal`, and each field is that conversion |
| Bybit.ColumnsRoundTrip | market_data_fetch/exchanges/bybit/usdt_perp.py:269-275 | the columns written from a kline convert back to it |
| Bybit.ParseFiveColumns | market_data_fetch/exchanges/bybit/usdt_perp.py:274-275 | five columns written from a kline parse to it with the volume read from the default `"0"` |
| Bybit.ParseKlineEntry | market_data_fetch/exchanges/bybit/usdt_perp.py:88 | a list row is parsed as above; a dict row raises the structure error when it has fewer than five keys and KeyError 0 otherwise; any other non-string raises TypeError |
| Bybit.ParseFundingPoint | market_data_fetch/exchanges/bybit/usdt_perp.py:278-281 | time `fundingRateTimestamp or timestamp or 0`, and the rate |
| Bybit.Filter | market_data_fetch/exchanges/bybit/usdt_perp.py:288-289 | a missing filter reads as an empty dict |
| Bybit.ParseInstrument | market_data_fetch/exchanges/bybit/usdt_perp.py:283-303 | strings default to ""; tick size from priceFilter, step, min and max from lotSizeFilter, each 0 when missing; a truthy non-dict filter raises AttributeError |
| Bybit.EmptyInstrumentParses | market_data_fetch/exchanges/bybit/usdt_perp.py:283-303 | an entry with no fields parses to empty strings and zero sizes |
| Bybit.InferTimestamp | market_data_fetch/exchanges/bybit/usdt_perp.py:305-311 | `timestamp`, else `ts`, else a non-zero server time, else now |
| Bybit.FetchKlineSeries | market_data_fetch/exchanges/bybit/usdt_perp.py:192-202 | parameter errors, then request errors, then the envelope's list |
| Bybit.Klines | market_data_fetch/exchanges/bybit/usdt_perp.py:81-115 | the three-day interval is refused; rows parsed in the order received; never empty |
| Bybit.FundingRateHistory | market_data_fetch/exchanges/bybit/usdt_perp.py:117-123 | limit errors first, then request and list errors; success is every entry of the list parsed in order |
| Bybit.FetchTicker | market_data_fetch/exchanges/bybit/usdt_perp.py:204-210 | the first list entry and `time or 0` |
| Bybit.LatestPrice | market_data_fetch/exchanges/bybit/usdt_perp.py:127-131 | `(inferred time, lastPrice)`; the ticker error propagates, a non-dict ticker raises AttributeError, the price error comes before the time error, and otherwise the pair is returned |
| Bybit.LatestMarkPrice | market_data_fetch/exchanges/bybit/usdt_perp.py:133-139 | mark, index and rate from one ticker; next funding time defaults to 0 |
| Bybit.LatestIndexPrice | market_data_fetch/exchanges/bybit/usdt_perp.py:141-145 | `(inferred time, indexPrice)`; the ticker error propagates, a non-dict ticker raises AttributeError, the price error comes before the time error, and otherwise the pair is returned |
| Bybit.LatestPremiumIndex | market_data_fetch/exchanges/bybit/usdt_perp.py:147-161 | open time and close of the first row of a one-row premium kline request; the series fetch error, then the first-row error, then the row-parse error is the result, and otherwise the pair is returned |
| Bybit.LatestFundingRate | market_data_fetch/exchanges/bybit/usdt_perp.py:163-168 | the first point of a one-entry history |
| Bybit.OpenInterest | market_data_fetch/exchanges/bybit/usdt_perp.py:170-179 | inferred time; `openInterestValue` when truthy, else `openInterest`; the ticker error propagates, a non-dict ticker raises AttributeError, the time error comes before the amount error, and otherwise the pair is returned |
| Bybit.Instruments | market_data_fetch/exchanges/bybit/usdt_perp.py:181-184 | every listed entry parsed in order; never empty |
| Bybit.ParseFundingPointRoundTrip | market_data_fetch/exchanges/bybit/usdt_perp.py:278-281 | a funding record built from a point parses back to that point |
| Bybit.ParseInstrumentRoundTrip | market_data_fetch/exchanges/bybit/usdt_perp.py:283-303 | an instrument record with both filters parses back to the instrument |
| Bybit.SuccessReplyAccepted | market_data_fetch/exchanges/bybit/usdt_perp.py:318-348 | a 200 reply with retCode 0 and a non-empty `result.list` passes the request and list extraction unchanged |
| Bybit.FetchTickerOfReply | market_data_fetch/exchanges/bybit/usdt_perp.py:204-210 | the ticker read from such a reply is its first entry, with the server time |
| Bybit.LatestMarkPriceRoundTrip | market_data_fetch/exchanges/bybit/usdt_perp.py:133-139 | a ticker built from a mark snapshot yields that snapshot |
| Bybit.FundingRateHistoryRoundTrip | market_data_fetch/exchanges/bybit/usdt_perp.py:117-123 | a successful reply listing a non-empty series of funding points yields that series, for any accepted window |
| Bybit.InstrumentsRoundTrip | market_data_fetch/exchanges/bybit/usdt_perp.py:181-184 | a reply listing encoded instruments yields exactly those instruments, in order |
| Bybit.TimedTickerFields | market_data_fetch/exchanges/bybit/usdt_perp.py:204-210 | a ticker reply carrying a timestamp and a price field is fetched back with that timestamp inferred and that price converted |
| Bybit.LatestPriceRoundTrip | market_data_fetch/exchanges/bybit/usdt_perp.py:127-131 | a ticker reply carrying a point's time and `lastPrice` yields that point |
| Bybit.LatestIndexPriceRoundTrip | market_data_fetch/exchanges/bybit/usdt_perp.py:141-145 | a ticker reply carrying a point's time and `indexPrice` yields that point |
| Bybit.OpenInterestRoundTrip | market_data_fetch/exchanges/bybit/usdt_perp.py:170-179 | an open-interest reply carrying a point's time and `openInterestValue` yields that point |
| Bybit.LatestPremiumIndexRoundTrip | market_data_fetch/exchanges/bybit/usdt_perp.py:147-161 | a premium kline reply whose only row encodes a kline yields its open time and close |
| Bybit.PremiumRowFetched | market_data_fetch/exchanges/bybit/usdt_perp.py:151-157 | the one-row premium request on a one-row success reply yields that row as the whole list |
| Binance.EnforceLimit | market_data_fetch/exchanges/binance/usdt_perp.py:208-213 | within the cap the request is kept; above it, ValueError (no clamp) |
| Binance.SymbolKey | market_data_fetch/exchanges/binance/usdt_perp.py:67-89 | `pair` exactly for index klines, `symbol` otherwise |
| Binance.HistoricalParams | market_data_fetch/exchanges/binance/usdt_perp.py:188-206 | exactly the feed's key, the canonical interval string, limit and the present bounds |
| Binance.IntervalCodesCanonical | market_data_fetch/exchanges/binance/usdt_perp.py:199 | every interval is accepted locally and distinct intervals are sent as distinct codes |
| Binance.FundingParams | market_data_fetch/exchanges/binance/usdt_perp.py:116-128 | symbol, limit and the present bounds, capped at 1000 |
| Binance.ExtractMessage | market_data_fetch/exchanges/binance/usdt_perp.py:263-268 | `msg or message` when it is a string |
| Binance.ApiError | market_data_fetch/exchanges/binance/usdt_perp.py:241-247 | -1121 is symbol-not-supported, -1120 interval-not-supported, anything else generic; none is retryable |
| Binance.HttpError | market_data_fetch/exchanges/binance/usdt_perp.py:235-239 | 418/429/451 and 5xx are transient, other statuses generic; the message falls back to `HTTP <status>` |
| Binance.Request | market_data_fetch/exchanges/binance/usdt_perp.py:215-233 | a body with a non-zero code is classified by that code before the status; then 4xx/5xx; otherwise the body |
| Binance.CodeBeforeStatus | market_data_fetch/exchanges/binance/usdt_perp.py:222-226 | a -1121 body is symbol-not-supported whatever the status; a 429 without a code is retryable |
| Binance.ParseKline | market_data_fetch/exchanges/binance/usdt_perp.py:249-258 | at least six columns, each read through `Decimal(str(x))`; it succeeds whenever those six convert |
| Binance.ParseKlineIgnoresExtra | market_data_fetch/exchanges/binance/usdt_perp.py:249-258 | columns after the sixth never affect the result |
| Binance.ParseKlineRoundTrip | market_data_fetch/exchanges/binance/usdt_perp.py:249-258 | a row of known fields, followed by any columns, parses back to them |
| Binance.EightColumnKlineExample | market_data_fetch/exchanges/binance/usdt_perp.py:249-258 | an eight-column row yields its first six values exactly |
| Binance.ParseKlineEntry | market_data_fetch/exchanges/binance/usdt_perp.py:77 | a list row is parsed as above; a dict row raises the structure error when it has fewer than six keys and KeyError 0 otherwise; any other non-string raises TypeError |
| Binance.ParseFundingPoint | market_data_fetch/exchanges/binance/usdt_perp.py:260-261 | `fundingTime` and `fundingRate` are required keys |
| Binance.Klines | market_data_fetch/exchanges/binance/usdt_perp.py:67-113 | limit errors, then request errors, then every row parsed in order |
| Binance.EmptyKlinesAccepted | market_data_fetch/exchanges/binance/usdt_perp.py:77 | an empty list is an empty series |
| Binance.FundingRateHistory | market_data_fetch/exchanges/binance/usdt_perp.py:115-130 | limit errors, then request errors, then every entry parsed in order |
| Binance.LatestPrice | market_data_fetch/exchanges/binance/usdt_perp.py:134-136 | `(lastPrice, closeTime)`, price first; a non-dict payload raises TypeError, a missing `lastPrice` KeyError, and the call succeeds exactly when both keys are present and convert |
| Binance.LatestMarkPrice | market_data_fetch/exchanges/binance/usdt_perp.py:138-145 | mark, index, last funding rate and next funding time of the premium-index snapshot; a non-dict payload raises TypeError, a missing `markPrice` KeyError, and the call succeeds exactly when all four keys are present and convert |
| Binance.LatestCandleParams | market_data_fetch/exchanges/binance/usdt_perp.py:148-152 | exactly the instrument key set to the pair, interval `1m` and limit 1 |
| Binance.FirstKline | market_data_fetch/exchanges/binance/usdt_perp.py:154-156 | a falsy payload is an error; otherwise its first row parsed |
| Binance.LatestIndexPrice | market_data_fetch/exchanges/binance/usdt_perp.py:147-156 | the first row of a one-minute index request; an empty answer is an error |
| Binance.LatestPremiumIndex | market_data_fetch/exchanges/binance/usdt_perp.py:158-167 | the first row of a one-minute premium request; an empty answer is an error |
| Binance.LatestFundingRate | market_data_fetch/exchanges/binance/usdt_perp.py:169-176 | the first funding entry; an empty answer is an error |
| Binance.EmptyLatestRejected | market_data_fetch/exchanges/binance/usdt_perp.py:154-176 | unlike the histories, the latest-value operations reject an empty list |
| Binance.OpenInterest | market_data_fetch/exchanges/binance/usdt_perp.py:178-180 | `(time, openInterest)`; a non-dict payload raises TypeError, a missing `time` KeyError, and the call succeeds exactly when both keys are present and convert |
| Binance.ParseFundingPointRoundTrip | market_data_fetch/exchanges/binance/usdt_perp.py:260-261 | a funding record built from a point parses back to that point |
| Binance.FundingRateHistoryRoundTrip | market_data_fetch/exchanges/binance/usdt_perp.py:115-130 | a successful reply listing a series of funding points yields that series, for any accepted window |
| Binance.OpenInterestRoundTrip | market_data_fetch/exchanges/binance/usdt_perp.py:178-180 | a reply carrying a point's time and open interest yields that point |
| Binance.LatestPriceRoundTrip | market_data_fetch/exchanges/binance/usdt_perp.py:134-136 | a 24-hour ticker carrying a price and close time yields that pair |
| Binance.LatestMarkPriceRoundTrip | market_data_fetch/exchanges/binance/usdt_perp.py:138-145 | a premium-index snapshot built from a mark snapshot yields that snapshot |
| Binance.PremiumIndexFields | market_data_fetch/exchanges/binance/usdt_perp.py:139-145 | the snapshot reply passes the request and holds each part under the key the operation reads |
| Registry.Empty | market_data_fetch/core/registry.py:17-18 | a new registry has no factories |
| Registry.Register | market_data_fetch/core/registry.py:20-25 | refused iff the exchange is registered and replace is off; otherwise sets exactly that entry and keeps the others |
| Registry.Create | market_data_fetch/core/registry.py:27-34 | an unregistered exchange raises ValueError; otherwise the registered factory's product |
| Registry.Snapshot | market_data_fetch/core/registry.py:36-39 | the same keys and factories as the registry |
| Registry.RefusedRegisterKeepsEntries | market_data_fetch/core/registry.py:23-25 | re-registering without replace is refused; with replace, only that entry changes |
| Registry.RegisterThenCreate | market_data_fetch/core/registry.py:25-34 | after registering, create runs the new factory, and other exchanges are unaffected |
| Registry.RegisterTwiceRefused | market_data_fetch/core/registry.py:23-25 | a second registration of the same exchange needs replace |
| Coordinator.NewClient | market_data_fetch/core/coordinator.py:29-38 | the overrides are in the cache from construction |
| Coordinator.GetSource | market_data_fetch/core/coordinator.py:106-112 | a hit returns the cached source unchanged; a miss asks the resolver, caches only a success under that key, and never replaces or removes other entries |
| Coordinator.HitIgnoresResolver | market_data_fetch/core/coordinator.py:107-108 | a hit does not depend on the resolver |
| Coordinator.LookupMemoised | market_data_fetch/core/coordinator.py:109-112 | after a successful miss, a second lookup is a hit returning the same source |
| Coordinator.OverridesServed | market_data_fetch/core/coordinator.py:36-38 | an override is served even when the resolver would fail |
| Coordinator.DefaultResolverFailure | market_data_fetch/core/coordinator.py:109-111 | with the registry resolver, an unregistered exchange raises the registry's error and nothing is cached |

## Left out

- HTTP I/O is not modelled: the session, `close()`, timeouts, base URLs and URL composition. Every
  operation receives the outcome of its GET as a parameter, and requests beyond the first are
  extra parameters. Only some parameter dicts are built and specified: the historical-window,
  funding-history and premium-history dicts of every adapter (the latest-premium requests of
  OKX, Bybit and Bitget reuse them), and Binance's latest-candle dict (`Binance.LatestCandleParams`, which no operation sends). The
  single-symbol dicts of the ticker, mark-price, funding-time, open-interest, latest-funding and
  instrument requests are not built. No operation links the parameters it sent to the reply it got.
- `datetime` conversion (`_to_milliseconds`, `_datetime_to_ms`) and the clock (`_now_ms`,
  `datetime.now`) are left out. Times are epoch-millisecond integers and `now` is a parameter.
- JSON numbers with a fraction or exponent (Python floats) are left out. Every exchange sends
  prices as strings.
- Decimal text with surrounding whitespace or `_` digit separators is left out. Python's
  `Decimal` accepts both; the model rejects them. Decimal equality is textual ("1.0" and "1.00"
  are different values), which is enough because the adapters never do arithmetic on prices.
- `str()` of a list or dict is a fixed placeholder (`[...]` or `{...}`), not Python's `repr`
  text such as `['BTC']`. Like Python's text it is never decimal text, never a success code and
  never empty, so decimal conversions and code checks agree with Python. The text itself
  differs, and reaches these members:
  - `Okx.ParseInstrument`, when `uly` or `state` is a truthy list or dict: it is split on `-`
    into the base and quote (Python's text may contain a `-` where the placeholder has none),
    or becomes the status;
  - `Bybit.ParseInstrument`, through `Bybit.TextField`: the symbol, base, quote and status;
  - the error-message text of `Okx.Request` (through `Okx.ResponseCode` and `Okx.ErrorMessage`),
    `Bybit.Request`, `Bitget.RequestWrapped` and `Binance.ApiError`, when the vendor's code or
    message is a list or dict.
- `str.upper()` is modelled for ASCII letters only.
- Iterating a non-empty JSON object (Python yields its keys) is treated as a TypeError, except in
  Bitget's funding history, where the outcome is exact. A dict used as a kline row is exact:
  the length guard counts its keys, and a dict that passes it raises KeyError on the first
  positional read.
- OKX's `_fetch_recent_funding` is left out because nothing calls it.
- Bybit's unused `PREMIUM_INDEX_ENDPOINT` and `OPEN_INTEREST_INTERVAL` constants are left out.
- The module-level `register()` functions, their import-time side effect and the global
  `_registry` singleton are left out. `Registry` models the class; the singleton is one value of it.
- The client's forwarding methods (`get_price_klines` … `get_instruments` on `MarketDataClient`)
  are left out. Each one only calls `_get_source` and then the adapter operation, and both are modelled.
- `models/usdt_perp.py` defines frozen dataclasses (`USDTPerpKline`, `USDTPerpFundingRatePoint`,
  `USDTPerpMarkPrice`, `USDTPerpOpenInterest`) carrying a `Symbol` and `datetime` fields, and a
  `to_dict` serialiser. The adapters never build them: despite the annotations they return plain
  tuples and dicts. The `Records` datatypes model those tuples and dicts; the dataclasses are left out.
- Okx.SortKlines: the contract states sortedness, permutation and idempotence, not that Python's
  sort is stable (klines with equal open times keep their input order).
- Json.ToInt: Python's `int()` also strips surrounding whitespace and accepts single `_`
  separators between digits; the model rejects both. The exchanges send timestamps without either.
- Json.DecimalOfValue: Python reads a three-element list as a `(sign, digits, exponent)` tuple,
  and a well-formed one builds a Decimal. The model reports ValueError for every list, so its
  contract promises ValueError only for lists whose length is not three. No exchange sends a
  list where a number belongs.

=== FILE: binance.dfy ===
/** The Binance adapter (market_data_fetch/exchanges/binance/usdt_perp.py). Binance
    answers with bare JSON values rather than envelopes; an error is a JSON object
    carrying a non-zero `code`, which is classified before the HTTP status. */
module Binance {
  import opened Errors
  import opened Numbers
  import opened Json
  import opened Shared
  import opened Queries
  import opened Http
  import opened Records

  const PRICE_KLINES_ENDPOINT: string := "/fapi/v1/klines"
  const INDEX_KLINES_ENDPOINT: string := "/fapi/v1/indexPriceKlines"
  const MARK_PRICE_KLINES_ENDPOINT: string := "/fapi/v1/markPriceKlines"
  const PREMIUM_KLINES_ENDPOINT: string := "/fapi/v1/premiumIndexKlines"
  const FUNDING_HISTORY_ENDPOINT: string := "/fapi/v1/fundingRate"
  const PREMIUM_INDEX_ENDPOINT: string := "/fapi/v1/premiumIndex"
  const TICKER_24H_ENDPOINT: string := "/fapi/v1/ticker/24hr"
  const OPEN_INTEREST_ENDPOINT: string := "/fapi/v1/openInterest"
  const PRICE_KLINES_MAX_LIMIT: int := 1500
  const INDEX_PRICE_KLINES_MAX_LIMIT: int := 1500
  const MARK_PRICE_KLINES_MAX_LIMIT: int := 1500
  const PREMIUM_INDEX_KLINES_MAX_LIMIT: int := 1500
  const FUNDING_RATE_MAX_LIMIT: int := 1000

  /** The vendor codes with a typed error of their own. */
  const INVALID_SYMBOL_CODE: int := -1121
  const INVALID_INTERVAL_CODE: int := -1120

  /** HTTP statuses below 500 that Binance uses for throttling and bans. */
  const TRANSIENT_STATUSES: set<int> := {418, 429, 451}

  // ------------------------------------------------------------------
  // Limits and parameters

  /** `_enforce_limit`: any request above the cap is rejected; there is no clamp. */
  function EnforceLimit(requested: int, maxLimit: int, endpointName: string): (r: Result<int>)
    ensures r.Ok? <==> requested <= maxLimit
    ensures r.Ok? ==> r.value == requested
    ensures r.Err? ==> r.error == ValueError("Binance " + endpointName + " limit cannot exceed "
                                             + IntToString(maxLimit) + " entries")
  {
    if requested > maxLimit then
      Err(ValueError("Binance " + endpointName + " limit cannot exceed " + IntToString(maxLimit) + " entries"))
    else Ok(requested)
  }

  /** The index-kline endpoint names the instrument `pair`; the others `symbol`. */
  function SymbolKey(feed: KlineFeed): (r: string)
    ensures r == "pair" <==> feed == IndexFeed
    ensures r != "pair" ==> r == "symbol"
  {
    if feed == IndexFeed then "pair" else "symbol"
  }

  function FeedEndpoint(feed: KlineFeed): string {
    match feed
    case PriceFeed => PRICE_KLINES_ENDPOINT
    case IndexFeed => INDEX_KLINES_ENDPOINT
    case MarkFeed => MARK_PRICE_KLINES_ENDPOINT
    case PremiumFeed => PREMIUM_KLINES_ENDPOINT
  }

  function FeedMaxLimit(feed: KlineFeed): int {
    match feed
    case PriceFeed => PRICE_KLINES_MAX_LIMIT
    case IndexFeed => INDEX_PRICE_KLINES_MAX_LIMIT
    case MarkFeed => MARK_PRICE_KLINES_MAX_LIMIT
    case PremiumFeed => PREMIUM_INDEX_KLINES_MAX_LIMIT
  }

  function FeedEndpointName(feed: KlineFeed): string {
    match feed
    case PriceFeed => "price klines"
    case IndexFeed => "index price klines"
    case MarkFeed => "mark price klines"
    case PremiumFeed => "premium index klines"
  }

  /** `_historical_params`: the pair under the feed's key, the canonical interval
      string unchanged, the limit, and each time bound only when given. */
  function HistoricalParams(q: HistoricalWindow, feed: KlineFeed): (r: Result<Params>)
    ensures r.Ok? <==> q.limit <= FeedMaxLimit(feed)
    ensures r.Err? ==> r.error.ValueError?
    ensures r.Ok? ==> r.value.Keys == {SymbolKey(feed), "interval", "limit"}
                                      + (if q.startTime.Some? then {"startTime"} else {})
                                      + (if q.endTime.Some? then {"endTime"} else {})
    ensures r.Ok? ==> r.value[SymbolKey(feed)] == PStr(q.symbol.Pair())
                      && r.value["interval"] == PStr(q.interval.Text()) && r.value["limit"] == PInt(q.limit)
    ensures r.Ok? && q.startTime.Some? ==> r.value["startTime"] == PInt(q.startTime.value)
    ensures r.Ok? && q.endTime.Some? ==> r.value["endTime"] == PInt(q.endTime.value)
  {
    var limit :- EnforceLimit(q.limit, FeedMaxLimit(feed), FeedEndpointName(feed));
    var params := map[SymbolKey(feed) := PStr(q.symbol.Pair()), "interval" := PStr(q.interval.Text()),
                      "limit" := PInt(limit)];
    Ok(WithTimeBounds(params, "startTime", "endTime", q.startTime, q.endTime))
  }

  /** Binance's interval codes are the canonical strings, so distinct intervals are
      sent as distinct codes and every interval is accepted locally. */
  lemma IntervalCodesCanonical(q: HistoricalWindow, p: HistoricalWindow, feed: KlineFeed)
    requires q.limit <= FeedMaxLimit(feed) && p.limit <= FeedMaxLimit(feed)
    requires q.interval != p.interval
    ensures HistoricalParams(q, feed).Ok? && HistoricalParams(p, feed).Ok?
    ensures HistoricalParams(q, feed).value["interval"] != HistoricalParams(p, feed).value["interval"]
  {
    IntervalTextInjective(q.interval, p.interval);
  }

  /** The funding-history parameters of `get_funding_rate_history`. */
  function FundingParams(q: FundingRateWindow): (r: Result<Params>)
    ensures r.Ok? <==> q.limit <= FUNDING_RATE_MAX_LIMIT
    ensures r.Err? ==> r.error == ValueError("Binance " + "funding rate history" + " limit cannot exceed "
                                             + IntToString(FUNDING_RATE_MAX_LIMIT) + " entries")
    ensures r.Ok? ==> r.value.Keys == {"symbol", "limit"}
                                      + (if q.startTime.Some? then {"startTime"} else {})
                                      + (if q.endTime.Some? then {"endTime"} else {})
    ensures r.Ok? ==> r.value["symbol"] == PStr(q.symbol.Pair()) && r.value["limit"] == PInt(q.limit)
    ensures r.Ok? && q.startTime.Some? ==> r.value["startTime"] == PInt(q.startTime.value)
    ensures r.Ok? && q.endTime.Some? ==> r.value["endTime"] == PInt(q.endTime.value)
  {
    var limit :- EnforceLimit(q.limit, FUNDING_RATE_MAX_LIMIT, "funding rate history");
    Ok(WithTimeBounds(map["symbol" := PStr(q.symbol.Pair()), "limit" := PInt(limit)],
                      "startTime", "endTime", q.startTime, q.endTime))
  }

  // ------------------------------------------------------------------
  // Classification

  /** `code not in (0, None)` uses equality, so a `false` code counts as success. */
  predicate CodeOk(code: Json) {
    code == JNull || code == JInt(0) || code == JBool(false)
  }

  /** `_extract_message`: `msg`, else `message`, when that is a string (possibly empty). */
  function ExtractMessage(payload: Json): (r: Option<string>)
    ensures r.Some? <==> payload.JObject? && Or(Get(payload.fields, "msg"), Get(payload.fields, "message")).JStr?
    ensures r.Some? ==> JStr(r.value) == Or(Get(payload.fields, "msg"), Get(payload.fields, "message"))
  {
    if !payload.JObject? then None
    else
      var msg := Or(Get(payload.fields, "msg"), Get(payload.fields, "message"));
      if msg.JStr? then Some(msg.s) else None
  }

  /** `_raise_api_error`: the vendor's message (else a generic one) under the typed
      error its code selects. */
  function ApiError(code: int, message: Json): (r: Error)
    ensures r.SymbolNotSupported? <==> code == INVALID_SYMBOL_CODE
    ensures r.IntervalNotSupported? <==> code == INVALID_INTERVAL_CODE
    ensures code != INVALID_SYMBOL_CODE && code != INVALID_INTERVAL_CODE ==> r.MarketDataError?
    ensures Truthy(message) ==> r.message == PyStr(message)
    ensures !Truthy(message) ==> r.message == "Binance error code " + IntToString(code)
    ensures IsMarketDataError(r) && !IsRetryable(r)
  {
    var msg := PyStr(Or(message, JStr("Binance error code " + IntToString(code))));
    if code == INVALID_SYMBOL_CODE then SymbolNotSupported(msg)
    else if code == INVALID_INTERVAL_CODE then IntervalNotSupported(msg)
    else MarketDataError(msg)
  }

  /** `_raise_http_error`: throttling, bans and server errors are transient. */
  function HttpError(status: int, payload: Json): (r: Error)
    ensures r.ExchangeTransient? <==> status in TRANSIENT_STATUSES || status >= 500
    ensures !r.ExchangeTransient? ==> r.MarketDataError?
    ensures ExtractMessage(payload).Some? && ExtractMessage(payload).value != "" ==>
              r.message == ExtractMessage(payload).value
    ensures ExtractMessage(payload).None? || ExtractMessage(payload).value == "" ==>
              r.message == "HTTP " + IntToString(status)
  {
    var found := ExtractMessage(payload);
    var message := if found.Some? && found.value != "" then found.value else "HTTP " + IntToString(status);
    if status in TRANSIENT_STATUSES || status >= 500 then ExchangeTransient(message)
    else MarketDataError(message)
  }

  /** The vendor code of a decoded body, when it signals an error. */
  predicate HasErrorCode(payload: Json) {
    payload.JObject? && !CodeOk(Get(payload.fields, "code"))
  }

  /** `_request` after the GET: the body is decoded, an error code is classified
      first, then a 4xx/5xx status; otherwise the decoded body is returned. */
  function Request(path: string, reply: Reply): (r: Result<Json>)
    ensures reply.NetworkFailure? ==>
              r == Err(ExchangeTransient("Failed to call Binance endpoint " + path + ": " + reply.detail))
    ensures reply.Response? && reply.body.None? ==> r == Err(MarketDataError("Binance returned a non-JSON payload"))
    ensures reply.Response? && reply.body.Some? && HasErrorCode(reply.body.value) ==>
              var code := ToInt(Get(reply.body.value.fields, "code"));
              && (code.Err? ==> r == Err(code.error))
              && (code.Ok? ==> r == Err(ApiError(code.value, Get(reply.body.value.fields, "msg"))))
    ensures reply.Response? && reply.body.Some? && !HasErrorCode(reply.body.value) ==>
              (reply.status >= 400 ==> r == Err(HttpError(reply.status, reply.body.value)))
              && (reply.status < 400 ==> r == Ok(reply.body.value))
  {
    match reply
    case NetworkFailure(detail) => Err(ExchangeTransient("Failed to call Binance endpoint " + path + ": " + detail))
    case Response(status, body) =>
      if body.None? then Err(MarketDataError("Binance returned a non-JSON payload"))
      else
        var payload := body.value;
        if HasErrorCode(payload) then
          var code :- ToInt(Get(payload.fields, "code"));
          Err(ApiError(code, Get(payload.fields, "msg")))
        else if status >= 400 then Err(HttpError(status, payload))
        else Ok(payload)
  }

  /** A bad-symbol code wins over the HTTP status it arrives with, and an ordinary
      error body with status 429 is still retryable. */
  lemma CodeBeforeStatus(path: string, status: int, msg: string, other: Object)
    requires "code" !in other
    ensures Request(path, Response(status, Some(JObject(map["code" := JInt(-1121), "msg" := JStr(msg)]))))
            .Err?
    ensures var r := Request(path, Response(status, Some(JObject(map["code" := JInt(-1121), "msg" := JStr(msg)]))));
            r.error.SymbolNotSupported? && !IsRetryable(r.error)
    ensures var r := Request(path, Response(429, Some(JObject(other))));
            r.Err? && IsRetryable(r.error)
  {
    var body := JObject(map["code" := JInt(-1121), "msg" := JStr(msg)]);
    assert Get(body.fields, "code") == JInt(-1121);
    assert Get(other, "code") == JNull;
  }

  // ------------------------------------------------------------------
  // Row parsing

  /** `_parse_kline`: at least six columns, each price read from its string form;
      later columns are ignored. */
  function ParseKline(raw: seq<Json>): (r: Result<Kline>)
    ensures |raw| < 6 ==> r == Err(MarketDataError("Unexpected Binance kline payload structure"))
    ensures r.Ok? ==> |raw| >= 6 && ToInt(raw[0]) == Ok(r.value.openTime)
                      && DecimalOf(PyStr(raw[1])) == Ok(r.value.open) && DecimalOf(PyStr(raw[2])) == Ok(r.value.high)
                      && DecimalOf(PyStr(raw[3])) == Ok(r.value.low) && DecimalOf(PyStr(raw[4])) == Ok(r.value.close)
                      && DecimalOf(PyStr(raw[5])) == Ok(r.value.volume)
    ensures |raw| >= 6 && ToInt(raw[0]).Ok? && (forall i :: 1 <= i <= 5 ==> DecimalOf(PyStr(raw[i])).Ok?) ==> r.Ok?
  {
    if |raw| < 6 then Err(MarketDataError("Unexpected Binance kline payload structure"))
    else ParseColumns(raw[0], raw[1], raw[2], raw[3], raw[4], raw[5])
  }

  /** The conversions `_parse_kline` applies to the first six columns, in order. */
  function ParseColumns(time: Json, open: Json, high: Json, low: Json, close: Json, volume: Json): (r: Result<Kline>)
    ensures r.Ok? <==> ToInt(time).Ok? && DecimalOf(PyStr(open)).Ok? && DecimalOf(PyStr(high)).Ok?
                       && DecimalOf(PyStr(low)).Ok? && DecimalOf(PyStr(close)).Ok? && DecimalOf(PyStr(volume)).Ok?
    ensures r.Ok? ==> ToInt(time) == Ok(r.value.openTime)
                      && DecimalOf(PyStr(open)) == Ok(r.value.open) && DecimalOf(PyStr(high)) == Ok(r.value.high)
                      && DecimalOf(PyStr(low)) == Ok(r.value.low) && DecimalOf(PyStr(close)) == Ok(r.value.close)
                      && DecimalOf(PyStr(volume)) == Ok(r.value.volume)
  {
    var t :- ToInt(time);
    var o :- DecimalOf(PyStr(open));
    var h :- DecimalOf(PyStr(high));
    var l :- DecimalOf(PyStr(low));
    var c :- DecimalOf(PyStr(close));
    var v :- DecimalOf(PyStr(volume));
    Ok(Kline(t, o, h, l, c, v))
  }

  /** The six columns of a known kline convert back to its fields. */
  lemma ColumnsRoundTrip(k: Kline)
    requires k.WellFormed()
    ensures ParseColumns(JInt(k.openTime), JStr(k.open.text), JStr(k.high.text), JStr(k.low.text),
                         JStr(k.close.text), JStr(k.volume.text)) == Ok(k)
  {
    ToIntOfTimestamp(k.openTime);
  }

  /** A six-column row of known fields parses back to them. */
  lemma ParseKlineRowRoundTrip(k: Kline)
    requires k.WellFormed()
    ensures ParseKline(KlineRow(k)) == Ok(k)
  {
    KlineRowColumns(k);
    ColumnsRoundTrip(k);
  }

  /** Columns after the sixth (close time, quote volume, trade count, …) never
      affect the parse. */
  lemma ParseKlineIgnoresExtra(raw: seq<Json>)
    requires |raw| >= 6
    ensures ParseKline(raw) == ParseKline(raw[..6])
  {
    var head := raw[..6];
    assert head[0] == raw[0] && head[1] == raw[1] && head[2] == raw[2];
    assert head[3] == raw[3] && head[4] == raw[4] && head[5] == raw[5];
  }

  /** A row of known fields, followed by any extra columns, parses back to them. */
  lemma ParseKlineRoundTrip(k: Kline, extra: seq<Json>)
    requires k.WellFormed()
    ensures ParseKline(KlineRow(k) + extra) == Ok(k)
  {
    assert (KlineRow(k) + extra)[..6] == KlineRow(k);
    ParseKlineIgnoresExtra(KlineRow(k) + extra);
    ParseKlineRowRoundTrip(k);
  }

  /** An eight-column price kline keeps its first six values exactly. */
  lemma EightColumnKlineExample()
    ensures ParseKline([JInt(1700000000000), JStr("10"), JStr("11"), JStr("9"), JStr("10.5"), JStr("100"),
                        JInt(1700000060000), JStr("200")])
            == Ok(Kline(1700000000000, Decimal("10"), Decimal("11"), Decimal("9"), Decimal("10.5"), Decimal("100")))
  {
    var k := Kline(1700000000000, Decimal("10"), Decimal("11"), Decimal("9"), Decimal("10.5"), Decimal("100"));
    DigitsAreDecimal("10");
    DigitsAreDecimal("11");
    DigitsAreDecimal("9");
    DigitsAreDecimal("100");
    FractionIsDecimal("10", "5");
    assert "10" + "." + "5" == "10.5";
    assert k.WellFormed();
    assert KlineRow(k) + [JInt(1700000060000), JStr("200")]
           == [JInt(1700000000000), JStr("10"), JStr("11"), JStr("9"), JStr("10.5"), JStr("100"),
               JInt(1700000060000), JStr("200")];
    ParseKlineRoundTrip(k, [JInt(1700000060000), JStr("200")]);
  }

  /** A candle row as `_parse_kline` receives it: a list, or the characters of a
      string; a dict has a length but no key `0`. */
  function ParseKlineEntry(entry: Json): (r: Result<Kline>)
    ensures entry.JArray? ==> r == ParseKline(entry.items)
    ensures entry.JObject? && |entry.fields| < 6 ==> r == Err(MarketDataError("Unexpected Binance kline payload structure"))
    ensures entry.JObject? && |entry.fields| >= 6 ==> r == Err(KeyError("0"))
    ensures !entry.JArray? && !entry.JStr? && !entry.JObject? ==> r.Err? && r.error.TypeError?
  {
    if entry.JObject? then
      if |entry.fields| < 6 then Err(MarketDataError("Unexpected Binance kline payload structure")) else Err(KeyError("0"))
    else
      var row :- AsRow(entry);
      ParseKline(row)
  }

  /** `_parse_funding_point`: `fundingTime` and `fundingRate` are required keys, and
      the rate is read from the decoded value itself. */
  function ParseFundingPoint(raw: Json): (r: Result<Point>)
    ensures raw.JObject? && "fundingTime" !in raw.fields ==> r == Err(KeyError("fundingTime"))
    ensures !raw.JObject? ==> r.Err? && r.error.TypeError?
    ensures r.Ok? ==> raw.JObject? && "fundingTime" in raw.fields && "fundingRate" in raw.fields
                      && ToInt(raw.fields["fundingTime"]) == Ok(r.value.timestamp)
                      && DecimalOfValue(raw.fields["fundingRate"]) == Ok(r.value.value)
  {
    var timeField :- Subscript(raw, "fundingTime");
    var t :- ToInt(timeField);
    var rateField :- Subscript(raw, "fundingRate");
    var rate :- DecimalOfValue(rateField);
    Ok(Point(t, rate))
  }

  // ------------------------------------------------------------------
  // Operations

  /** The four candle feeds: one request, every row parsed in the order received. */
  function Klines(q: HistoricalWindow, feed: KlineFeed, reply: Reply): (r: Result<seq<Kline>>)
    ensures HistoricalParams(q, feed).Err? ==> r == Err(HistoricalParams(q, feed).error)
    ensures HistoricalParams(q, feed).Ok? && Request(FeedEndpoint(feed), reply).Err? ==>
              r == Err(Request(FeedEndpoint(feed), reply).error)
    ensures HistoricalParams(q, feed).Ok? && Request(FeedEndpoint(feed), reply).Ok?
            && Request(FeedEndpoint(feed), reply).value.JArray? ==>
              r == MapAll(Request(FeedEndpoint(feed), reply).value.items, ParseKlineEntry)
  {
    var _ :- HistoricalParams(q, feed);
    var payload :- Request(FeedEndpoint(feed), reply);
    var items :- Elements(payload);
    MapAll(items, ParseKlineEntry)
  }

  /** An empty candle list is a valid, empty answer for the historical feeds. */
  lemma EmptyKlinesAccepted(q: HistoricalWindow, feed: KlineFeed, status: int)
    requires q.limit <= FeedMaxLimit(feed) && status < 400
    ensures Klines(q, feed, Response(status, Some(JArray([])))) == Ok([])
  {
  }

  /** `get_funding_rate_history`. */
  function FundingRateHistory(q: FundingRateWindow, reply: Reply): (r: Result<seq<Point>>)
    ensures FundingParams(q).Err? ==> r == Err(FundingParams(q).error)
    ensures FundingParams(q).Ok? && Request(FUNDING_HISTORY_ENDPOINT, reply).Err? ==>
              r == Err(Request(FUNDING_HISTORY_ENDPOINT, reply).error)
    ensures FundingParams(q).Ok? && Request(FUNDING_HISTORY_ENDPOINT, reply).Ok?
            && Request(FUNDING_HISTORY_ENDPOINT, reply).value.JArray? ==>
              r == MapAll(Request(FUNDING_HISTORY_ENDPOINT, reply).value.items, ParseFundingPoint)
  {
    var _ :- FundingParams(q);
    var payload :- Request(FUNDING_HISTORY_ENDPOINT, reply);
    var items :- Elements(payload);
    MapAll(items, ParseFundingPoint)
  }

  /** `get_latest_price`: `(price, close_time)` from the 24-hour ticker. */
  function LatestPrice(s: Symbol, reply: Reply): (r: Result<PriceFirst>)
    ensures Request(TICKER_24H_ENDPOINT, reply).Err? ==> r == Err(Request(TICKER_24H_ENDPOINT, reply).error)
    ensures r.Ok? ==> Request(TICKER_24H_ENDPOINT, reply).Ok?
                      && var p := Request(TICKER_24H_ENDPOINT, reply).value;
                      p.JObject? && "lastPrice" in p.fields && "closeTime" in p.fields
                      && DecimalOfValue(p.fields["lastPrice"]) == Ok(r.value.value)
                      && ToInt(p.fields["closeTime"]) == Ok(r.value.timestamp)
    ensures Request(TICKER_24H_ENDPOINT, reply).Ok? ==>
              var p := Request(TICKER_24H_ENDPOINT, reply).value;
              (!p.JObject? ==> r.Err? && r.error.TypeError?)
              && (p.JObject? && "lastPrice" !in p.fields ==> r == Err(KeyError("lastPrice")))
              && (r.Ok? <==> p.JObject? && "lastPrice" in p.fields && "closeTime" in p.fields
                             && DecimalOfValue(p.fields["lastPrice"]).Ok? && ToInt(p.fields["closeTime"]).Ok?)
  {
    var payload :- Request(TICKER_24H_ENDPOINT, reply);
    var priceField :- Subscript(payload, "lastPrice");
    var price :- DecimalOfValue(priceField);
    var timeField :- Subscript(payload, "closeTime");
    var t :- ToInt(timeField);
    Ok(PriceFirst(price, t))
  }

  /** `get_latest_mark_price`: the premium-index snapshot; the funding rate is the
      last settled one. */
  function LatestMarkPrice(s: Symbol, reply: Reply): (r: Result<MarkSnapshot>)
    ensures Request(PREMIUM_INDEX_ENDPOINT, reply).Err? ==> r == Err(Request(PREMIUM_INDEX_ENDPOINT, reply).error)
    ensures r.Ok? ==> Request(PREMIUM_INDEX_ENDPOINT, reply).Ok?
                      && var p := Request(PREMIUM_INDEX_ENDPOINT, reply).value;
                      p.JObject? && "markPrice" in p.fields && "indexPrice" in p.fields
                      && "lastFundingRate" in p.fields && "nextFundingTime" in p.fields
                      && DecimalOfValue(p.fields["markPrice"]) == Ok(r.value.markPrice)
                      && DecimalOfValue(p.fields["indexPrice"]) == Ok(r.value.indexPrice)
                      && DecimalOfValue(p.fields["lastFundingRate"]) == Ok(r.value.fundingRate)
                      && ToInt(p.fields["nextFundingTime"]) == Ok(r.value.nextFundingTime)
    ensures Request(PREMIUM_INDEX_ENDPOINT, reply).Ok? ==>
              var p := Request(PREMIUM_INDEX_ENDPOINT, reply).value;
              (!p.JObject? ==> r.Err? && r.error.TypeError?)
              && (p.JObject? && "markPrice" !in p.fields ==> r == Err(KeyError("markPrice")))
              && (r.Ok? <==> p.JObject? && "markPrice" in p.fields && "indexPrice" in p.fields
                             && "lastFundingRate" in p.fields && "nextFundingTime" in p.fields
                             && DecimalOfValue(p.fields["markPrice"]).Ok?
                             && DecimalOfValue(p.fields["indexPrice"]).Ok?
                             && DecimalOfValue(p.fields["lastFundingRate"]).Ok?
                             && ToInt(p.fields["nextFundingTime"]).Ok?)
  {
    var payload :- Request(PREMIUM_INDEX_ENDPOINT, reply);
    var markField :- Subscript(payload, "markPrice");
    var mark :- DecimalOfValue(markField);
    var indexField :- Subscript(payload, "indexPrice");
    var index :- DecimalOfValue(indexField);
    var rateField :- Subscript(payload, "lastFundingRate");
    var rate :- DecimalOfValue(rateField);
    var nextField :- Subscript(payload, "nextFundingTime");
    var next :- ToInt(nextField);
    Ok(MarkSnapshot(mark, index, rate, next))
  }

  /** The one-minute, one-row parameters the latest-candle operations send. */
  function LatestCandleParams(s: Symbol, key: string): (r: Params)
    ensures r.Keys == {key, "interval", "limit"}
    ensures key != "interval" && key != "limit" ==>
              r[key] == PStr(s.Pair()) && r["interval"] == PStr("1m") && r["limit"] == PInt(1)
  {
    map[key := PStr(s.Pair()), "interval" := PStr(Minute1.Text()), "limit" := PInt(1)]
  }

  /** The first row of a latest-candle answer; an empty (falsy) answer is an error
      carrying `emptyMessage`. */
  function FirstKline(payload: Json, emptyMessage: string): (r: Result<Kline>)
    ensures !Truthy(payload) ==> r == Err(MarketDataError(emptyMessage))
    ensures payload.JArray? && |payload.items| > 0 ==> r == ParseKlineEntry(payload.items[0])
  {
    if !Truthy(payload) then Err(MarketDataError(emptyMessage))
    else
      var first :- First(payload);
      ParseKlineEntry(first)
  }

  /** `get_latest_index_price`: the latest one-minute index candle. */
  function LatestIndexPrice(s: Symbol, reply: Reply): (r: Result<Kline>)
    ensures Request(INDEX_KLINES_ENDPOINT, reply).Err? ==> r == Err(Request(INDEX_KLINES_ENDPOINT, reply).error)
    ensures Request(INDEX_KLINES_ENDPOINT, reply) == Ok(JArray([])) ==>
              r == Err(MarketDataError("Binance returned empty index kline payload"))
    ensures Request(INDEX_KLINES_ENDPOINT, reply).Ok? ==>
              r == FirstKline(Request(INDEX_KLINES_ENDPOINT, reply).value, "Binance returned empty index kline payload")
  {
    var payload :- Request(INDEX_KLINES_ENDPOINT, reply);
    FirstKline(payload, "Binance returned empty index kline payload")
  }

  /** `get_latest_premium_index`: the latest one-minute premium-index candle. */
  function LatestPremiumIndex(s: Symbol, reply: Reply): (r: Result<Kline>)
    ensures Request(PREMIUM_KLINES_ENDPOINT, reply).Err? ==> r == Err(Request(PREMIUM_KLINES_ENDPOINT, reply).error)
    ensures Request(PREMIUM_KLINES_ENDPOINT, reply) == Ok(JArray([])) ==>
              r == Err(MarketDataError("Binance returned empty premium index payload"))
    ensures Request(PREMIUM_KLINES_ENDPOINT, reply).Ok? ==>
              r == FirstKline(Request(PREMIUM_KLINES_ENDPOINT, reply).value, "Binance returned empty premium index payload")
  {
    var payload :- Request(PREMIUM_KLINES_ENDPOINT, reply);
    FirstKline(payload, "Binance returned empty premium index payload")
  }

  /** `get_latest_funding_rate`: the first entry of a one-entry history; an empty
      answer is an error. */
  function LatestFundingRate(s: Symbol, reply: Reply): (r: Result<Point>)
    ensures Request(FUNDING_HISTORY_ENDPOINT, reply).Err? ==> r == Err(Request(FUNDING_HISTORY_ENDPOINT, reply).error)
    ensures Request(FUNDING_HISTORY_ENDPOINT, reply).Ok? && !Truthy(Request(FUNDING_HISTORY_ENDPOINT, reply).value) ==>
              r == Err(MarketDataError("Binance returned empty funding rate payload"))
    ensures Request(FUNDING_HISTORY_ENDPOINT, reply).Ok? && Request(FUNDING_HISTORY_ENDPOINT, reply).value.JArray?
            && |Request(FUNDING_HISTORY_ENDPOINT, reply).value.items| > 0 ==>
              r == ParseFundingPoint(Request(FUNDING_HISTORY_ENDPOINT, reply).value.items[0])
  {
    var payload :- Request(FUNDING_HISTORY_ENDPOINT, reply);
    if !Truthy(payload) then Err(MarketDataError("Binance returned empty funding rate payload"))
    else
      var first :- First(payload);
      ParseFundingPoint(first)
  }

  /** Unlike the history operations, the latest-value operations never answer an
      empty list with an empty result. */
  lemma EmptyLatestRejected(s: Symbol, status: int)
    requires status < 400
    ensures LatestIndexPrice(s, Response(status, Some(JArray([])))).Err?
    ensures LatestPremiumIndex(s, Response(status, Some(JArray([])))).Err?
    ensures LatestFundingRate(s, Response(status, Some(JArray([]))))
            == Err(MarketDataError("Binance returned empty funding rate payload"))
  {
  }

  /** `get_open_interest`: `(time, open_interest)`. */
  function OpenInterest(s: Symbol, reply: Reply): (r: Result<Point>)
    ensures Request(OPEN_INTEREST_ENDPOINT, reply).Err? ==> r == Err(Request(OPEN_INTEREST_ENDPOINT, reply).error)
    ensures r.Ok? ==> Request(OPEN_INTEREST_ENDPOINT, reply).Ok?
                      && var p := Request(OPEN_INTEREST_ENDPOINT, reply).value;
                      p.JObject? && "time" in p.fields && "openInterest" in p.fields
                      && ToInt(p.fields["time"]) == Ok(r.value.timestamp)
                      && DecimalOfValue(p.fields["openInterest"]) == Ok(r.value.value)
    ensures Request(OPEN_INTEREST_ENDPOINT, reply).Ok? ==>
              var p := Request(OPEN_INTEREST_ENDPOINT, reply).value;
              (!p.JObject? ==> r.Err? && r.error.TypeError?)
              && (p.JObject? && "time" !in p.fields ==> r == Err(KeyError("time")))
              && (r.Ok? <==> p.JObject? && "time" in p.fields && "openInterest" in p.fields
                             && ToInt(p.fields["time"]).Ok? && DecimalOfValue(p.fields["openInterest"]).Ok?)
  {
    var payload :- Request(OPEN_INTEREST_ENDPOINT, reply);
    var timeField :- Subscript(payload, "time");
    var t :- ToInt(timeField);
    var valueField :- Subscript(payload, "openInterest");
    var value :- DecimalOfValue(valueField);
    Ok(Point(t, value))
  }

  // ------------------------------------------------------------------
  // Round trips

  /** A funding-history record as Binance sends it. */
  function FundingEntry(p: Point): Json {
    JObject(map["fundingTime" := JInt(p.timestamp), "fundingRate" := JStr(p.value.text)])
  }

  /** A funding record built from a point parses back to that point. */
  lemma ParseFundingPointRoundTrip(p: Point)
    requires IsDecimalText(p.value.text)
    ensures ParseFundingPoint(FundingEntry(p)) == Ok(p)
  {
  }

  /** The funding records of a series of points, in order. */
  function FundingRecords(ps: seq<Point>): (r: seq<Json>)
    ensures |r| == |ps| && forall i :: 0 <= i < |ps| ==> r[i] == FundingEntry(ps[i])
  {
    seq(|ps|, i requires 0 <= i < |ps| => FundingEntry(ps[i]))
  }

  /** A successful funding-history reply listing a series of points yields that
      series, in the order sent, whenever the window is accepted. */
  lemma FundingRateHistoryRoundTrip(q: FundingRateWindow, ps: seq<Point>)
    requires forall i :: 0 <= i < |ps| ==> IsDecimalText(ps[i].value.text)
    requires FundingParams(q).Ok?
    ensures FundingRateHistory(q, Response(200, Some(JArray(FundingRecords(ps))))) == Ok(ps)
  {
    forall i | 0 <= i < |ps| ensures ParseFundingPoint(FundingRecords(ps)[i]) == Ok(ps[i]) {
      ParseFundingPointRoundTrip(ps[i]);
    }
    MapAllOk(FundingRecords(ps), ParseFundingPoint, ps);
  }

  /** An open-interest reply carrying a point's time and amount yields exactly that
      point. */
  lemma OpenInterestRoundTrip(s: Symbol, p: Point)
    requires IsDecimalText(p.value.text)
    ensures OpenInterest(s, Response(200, Some(JObject(map["symbol" := JStr(s.Pair()), "time" := JInt(p.timestamp),
                                                           "openInterest" := JStr(p.value.text)]))))
            == Ok(p)
  {
  }

  /** A 24-hour ticker carrying a price and close time yields exactly that pair. */
  lemma LatestPriceRoundTrip(s: Symbol, p: PriceFirst)
    requires IsDecimalText(p.value.text)
    ensures LatestPrice(s, Response(200, Some(JObject(map["symbol" := JStr(s.Pair()), "lastPrice" := JStr(p.value.text),
                                                          "closeTime" := JInt(p.timestamp)]))))
            == Ok(p)
  {
  }

  /** The premium-index snapshot as Binance sends it. */
  function PremiumIndexRecord(s: Symbol, m: MarkSnapshot): Json {
    JObject(map["symbol" := JStr(s.Pair()), "markPrice" := JStr(m.markPrice.text),
                "indexPrice" := JStr(m.indexPrice.text), "lastFundingRate" := JStr(m.fundingRate.text),
                "nextFundingTime" := JInt(m.nextFundingTime)])
  }

  /** The premium-index reply built from a mark snapshot passes the request, and each
      of its keys holds the snapshot's part as Binance writes it. */
  lemma PremiumIndexFields(s: Symbol, m: MarkSnapshot)
    ensures Request(PREMIUM_INDEX_ENDPOINT, Response(200, Some(PremiumIndexRecord(s, m)))) == Ok(PremiumIndexRecord(s, m))
    ensures Subscript(PremiumIndexRecord(s, m), "markPrice") == Ok(JStr(m.markPrice.text))
    ensures Subscript(PremiumIndexRecord(s, m), "indexPrice") == Ok(JStr(m.indexPrice.text))
    ensures Subscript(PremiumIndexRecord(s, m), "lastFundingRate") == Ok(JStr(m.fundingRate.text))
    ensures Subscript(PremiumIndexRecord(s, m), "nextFundingTime") == Ok(JInt(m.nextFundingTime))
  {
    assert !HasErrorCode(PremiumIndexRecord(s, m));
  }

  /** A premium-index snapshot built from a mark snapshot yields exactly that snapshot. */
  lemma LatestMarkPriceRoundTrip(s: Symbol, m: MarkSnapshot)
    requires IsDecimalText(m.markPrice.text) && IsDecimalText(m.indexPrice.text) && IsDecimalText(m.fundingRate.text)
    ensures LatestMarkPrice(s, Response(200, Some(PremiumIndexRecord(s, m)))) == Ok(m)
  {
    PremiumIndexFields(s, m);
    assert DecimalOfValue(JStr(m.markPrice.text)) == Ok(m.markPrice);
    assert DecimalOfValue(JStr(m.indexPrice.text)) == Ok(m.indexPrice);
    assert DecimalOfValue(JStr(m.fundingRate.text)) == Ok(m.fundingRate);
  }
}

=== FILE: bitget.dfy ===
/** The Bitget adapter (market_data_fetch/exchanges/bitget/usdt_perp.py). Candles
    need an explicit `[startTime, endTime]`, which the adapter derives from the
    interval length and the limit when the window leaves it open. The wall clock
    (`_now_ms`) is the parameter `now`. */
module Bitget {
  import opened Errors
  import opened Numbers
  import opened Json
  import opened Shared
  import opened Queries
  import opened Http
  import opened Records
  import Okx

  const CANDLES_ENDPOINT: string := "/api/mix/v1/market/candles"
  const FUNDING_HISTORY_ENDPOINT: string := "/api/mix/v1/market/history-fundRate"
  const TICKER_ENDPOINT: string := "/api/mix/v1/market/ticker"
  const MARK_PRICE_ENDPOINT: string := "/api/mix/v1/market/mark-price"
  const FUNDING_TIME_ENDPOINT: string := "/api/mix/v1/market/funding-time"
  const OPEN_INTEREST_ENDPOINT: string := "/api/mix/v1/market/open-interest"
  const PRODUCT_SUFFIX: string := "_UMCBL"
  const KLINE_MAX_LIMIT: int := 1000
  const FUNDING_MAX_LIMIT: int := 100
  const PREMIUM_KLINE_TYPE: string := "premium"

  // ------------------------------------------------------------------
  // Intervals

  /** `_map_interval` over Bitget's granularity table, which covers every interval. */
  function MapInterval(i: Interval): (r: Result<string>)
    ensures r.Ok?
  {
    match i
    case Minute1 => Ok("1m")
    case Minute3 => Ok("3m")
    case Minute5 => Ok("5m")
    case Minute15 => Ok("15m")
    case Minute30 => Ok("30m")
    case Hour1 => Ok("1H")
    case Hour2 => Ok("2H")
    case Hour4 => Ok("4H")
    case Hour6 => Ok("6H")
    case Hour12 => Ok("12H")
    case Day1 => Ok("1D")
    case Day3 => Ok("3D")
    case Week1 => Ok("1W")
    case Month1 => Ok("1M")
  }

  /** Bitget's granularity codes are OKX's bar codes. */
  lemma MapIntervalMatchesOkx(i: Interval)
    ensures MapInterval(i) == Okx.MapInterval(i)
  {
  }

  /** `INTERVAL_MILLISECONDS`: the candle length in milliseconds, written out per
      interval in the source. */
  function IntervalMilliseconds(i: Interval): int {
    match i
    case Minute1 => 60_000
    case Minute3 => 180_000
    case Minute5 => 300_000
    case Minute15 => 900_000
    case Minute30 => 1_800_000
    case Hour1 => 3_600_000
    case Hour2 => 7_200_000
    case Hour4 => 14_400_000
    case Hour6 => 21_600_000
    case Hour12 => 43_200_000
    case Day1 => 86_400_000
    case Day3 => 259_200_000
    case Week1 => 604_800_000
    case Month1 => 2_592_000_000
  }

  /** Every entry of the millisecond table is the interval's length in minutes times
      60 000, so both tables are keyed by all fourteen intervals. */
  lemma IntervalMillisecondsAgree(i: Interval)
    ensures IntervalMilliseconds(i) == i.Minutes() * 60_000
    ensures IntervalMilliseconds(i) > 0 && MapInterval(i).Ok?
  {
  }

  // ------------------------------------------------------------------
  // Limits, symbols and the derived time range

  /** `_enforce_limit`: any request above the cap is rejected; there is no clamp. */
  function EnforceLimit(requested: int, maxLimit: int, endpointName: string): (r: Result<int>)
    ensures r.Ok? <==> requested <= maxLimit
    ensures r.Ok? ==> r.value == requested
    ensures r.Err? ==> r.error == ValueError("Bitget " + endpointName + " limit cannot exceed "
                                             + IntToString(maxLimit) + " entries")
  {
    if requested > maxLimit then
      Err(ValueError("Bitget " + endpointName + " limit cannot exceed " + IntToString(maxLimit) + " entries"))
    else Ok(requested)
  }

  /** `_symbol_id`: the pair followed by the product suffix. */
  function SymbolId(s: Symbol): (r: string)
    ensures |r| == |s.Pair()| + 6
    ensures r[..|s.Pair()|] == s.Pair() && r[|s.Pair()|..] == PRODUCT_SUFFIX
  {
    s.Pair() + PRODUCT_SUFFIX
  }

  /** Two symbols share a Bitget id exactly when they share a pair. */
  lemma SymbolIdDeterminesPair(a: Symbol, b: Symbol)
    ensures SymbolId(a) == SymbolId(b) <==> a.Pair() == b.Pair()
  {
    if SymbolId(a) == SymbolId(b) {
      assert |a.Pair()| == |b.Pair()|;
      assert a.Pair() == SymbolId(a)[..|a.Pair()|];
    }
  }

  function Max(a: int, b: int): int {
    if a >= b then a else b
  }

  /** `_derive_time_range`: the end is the window's end or `now`; the start is the
      window's start or `limit` candles before the end; a start not before the end is
      replaced by `limit` candles before the end, floored at 0. */
  function DeriveTimeRange(q: HistoricalWindow, limit: int, now: int): (r: (int, int))
    ensures r.1 == (if q.endTime.Some? then q.endTime.value else now)
    ensures q.startTime.Some? && q.startTime.value < r.1 ==> r.0 == q.startTime.value
    ensures q.startTime.None? && limit > 0 ==> r.0 == r.1 - IntervalMilliseconds(q.interval) * limit
    ensures q.startTime.Some? && q.startTime.value >= r.1 ==>
              r.0 == Max(r.1 - IntervalMilliseconds(q.interval) * limit, 0)
    ensures limit > 0 && r.1 > 0 ==> r.0 < r.1
    ensures limit >= 0 && r.1 >= 0 ==> r.0 <= r.1
  {
    var intervalMs := IntervalMilliseconds(q.interval);
    var endMs := if q.endTime.Some? then q.endTime.value else now;
    var startMs := if q.startTime.Some? then q.startTime.value else endMs - intervalMs * limit;
    if startMs >= endMs then (Max(endMs - intervalMs * limit, 0), endMs) else (startMs, endMs)
  }

  /** A window without bounds asks for exactly `limit` candles ending now. */
  lemma OpenWindowRange(q: HistoricalWindow, limit: int, now: int)
    requires q.startTime.None? && q.endTime.None? && limit > 0
    ensures DeriveTimeRange(q, limit, now) == (now - q.interval.Minutes() * 60_000 * limit, now)
  {
    IntervalMillisecondsAgree(q.interval);
  }

  // ------------------------------------------------------------------
  // Request parameters

  /** `limit_override or self._enforce_limit(...)`: a non-zero override bypasses the
      cap check entirely. */
  function KlineLimit(q: HistoricalWindow, endpointName: string, limitOverride: Option<int>): (r: Result<int>)
    ensures limitOverride.Some? && limitOverride.value != 0 ==> r == Ok(limitOverride.value)
    ensures !(limitOverride.Some? && limitOverride.value != 0) ==> r == EnforceLimit(q.limit, KLINE_MAX_LIMIT, endpointName)
  {
    if limitOverride.Some? && limitOverride.value != 0 then Ok(limitOverride.value)
    else EnforceLimit(q.limit, KLINE_MAX_LIMIT, endpointName)
  }

  /** `_historical_params`. */
  function HistoricalParams(q: HistoricalWindow, endpointName: string, klineType: Option<string>,
                            limitOverride: Option<int>, timeRange: Option<(int, int)>, now: int)
    : (r: Result<Params>)
    ensures r.Ok? <==> KlineLimit(q, endpointName, limitOverride).Ok?
    ensures r.Err? ==> r.error == KlineLimit(q, endpointName, limitOverride).error
    ensures r.Ok? ==> r.value.Keys == {"symbol", "granularity", "startTime", "endTime", "limit"}
                                      + (if klineType.Some? && klineType.value != "" then {"kLineType"} else {})
    ensures r.Ok? ==> r.value["symbol"] == PStr(SymbolId(q.symbol))
                      && r.value["granularity"] == PStr(MapInterval(q.interval).value)
                      && r.value["limit"] == PInt(KlineLimit(q, endpointName, limitOverride).value)
    ensures r.Ok? && klineType.Some? && klineType.value != "" ==> r.value["kLineType"] == PStr(klineType.value)
    ensures r.Ok? && timeRange.Some? ==>
              r.value["startTime"] == PInt(timeRange.value.0) && r.value["endTime"] == PInt(timeRange.value.1)
    ensures r.Ok? && timeRange.None? ==>
              var range := DeriveTimeRange(q, KlineLimit(q, endpointName, limitOverride).value, now);
              r.value["startTime"] == PInt(range.0) && r.value["endTime"] == PInt(range.1)
  {
    var interval := MapInterval(q.interval).value;
    var limit :- KlineLimit(q, endpointName, limitOverride);
    var range := if timeRange.Some? then timeRange.value else DeriveTimeRange(q, limit, now);
    var params := map["symbol" := PStr(SymbolId(q.symbol)), "granularity" := PStr(interval),
                      "startTime" := PInt(range.0), "endTime" := PInt(range.1), "limit" := PInt(limit)];
    if klineType.Some? && klineType.value != "" then Ok(params["kLineType" := PStr(klineType.value)]) else Ok(params)
  }

  /** A valid window's candle request always spans a non-empty time range when the
      end is after the epoch, whichever limit is in force. */
  lemma CandleRangeNonEmpty(q: HistoricalWindow, endpointName: string, klineType: Option<string>,
                            limitOverride: Option<int>, now: int)
    requires q.Valid()
    requires limitOverride.None? || limitOverride.value > 0
    requires HistoricalParams(q, endpointName, klineType, limitOverride, None, now).Ok?
    ensures var p := HistoricalParams(q, endpointName, klineType, limitOverride, None, now).value;
            p["endTime"].i > 0 ==> p["startTime"].i < p["endTime"].i
  {
  }

  /** `_funding_params`: the symbol and the checked page size; no time bounds. */
  function FundingParams(q: FundingRateWindow): (r: Result<Params>)
    ensures r.Ok? <==> q.limit <= FUNDING_MAX_LIMIT
    ensures r.Ok? ==> r.value == map["symbol" := PStr(SymbolId(q.symbol)), "pageSize" := PInt(q.limit)]
  {
    var limit :- EnforceLimit(q.limit, FUNDING_MAX_LIMIT, "funding history");
    Ok(map["symbol" := PStr(SymbolId(q.symbol)), "pageSize" := PInt(limit)])
  }

  /** The default funding window (limit 500) is rejected against the cap of 100. */
  lemma DefaultFundingWindowRejected(s: Symbol)
    ensures FundingParams(FundingRateWindow(s, None, None, DEFAULT_LIMIT))
            == Err(ValueError("Bitget " + "funding history" + " limit cannot exceed " + "100" + " entries"))
  {
    assert NatToString(100) == "100" by {
      assert NatToString(10) == "10";
    }
  }

  // ------------------------------------------------------------------
  // Classification

  /** `_extract_message`: a non-empty string `msg` of a JSON object. */
  function ExtractMessage(payload: Json): (r: Option<string>)
    ensures r.Some? <==> payload.JObject? && Get(payload.fields, "msg").JStr? && Get(payload.fields, "msg").s != ""
    ensures r.Some? ==> Get(payload.fields, "msg") == JStr(r.value)
  {
    if payload.JObject? && Get(payload.fields, "msg").JStr? && Get(payload.fields, "msg").s != "" then
      Some(Get(payload.fields, "msg").s)
    else None
  }

  /** `_request_json` after the GET: 403 and 5xx are transient before the body is
      looked at; a non-JSON body is an error; another 4xx is an error carrying the
      body's message. */
  function RequestJson(path: string, reply: Reply): (r: Result<Json>)
    ensures reply.NetworkFailure? ==>
              r == Err(ExchangeTransient("Failed to call Bitget endpoint " + path + ": " + reply.detail))
    ensures reply.Response? && reply.status == 403 ==> r == Err(ExchangeTransient("Bitget denied the request with HTTP 403"))
    ensures reply.Response? && reply.status >= 500 ==>
              r == Err(ExchangeTransient("Bitget endpoint " + path + " unavailable (HTTP " + IntToString(reply.status) + ")"))
    ensures reply.Response? && reply.status != 403 && reply.status < 500 && reply.body.None? ==>
              r == Err(MarketDataError("Bitget returned a non-JSON payload"))
    ensures reply.Response? && reply.status != 403 && 400 <= reply.status < 500 && reply.body.Some? ==>
              r.Err? && r.error.MarketDataError?
              && (ExtractMessage(reply.body.value).Some? ==> r.error.message == ExtractMessage(reply.body.value).value)
    ensures r.Ok? <==> reply.Response? && reply.status < 400 && reply.body.Some?
    ensures r.Ok? ==> r.value == reply.body.value
    ensures r.Err? && IsRetryable(r.error) <==> reply.NetworkFailure? || reply.status == 403 || reply.status >= 500
  {
    match reply
    case NetworkFailure(detail) => Err(ExchangeTransient("Failed to call Bitget endpoint " + path + ": " + detail))
    case Response(status, body) =>
      if status == 403 then Err(ExchangeTransient("Bitget denied the request with HTTP 403"))
      else if status >= 500 then
        Err(ExchangeTransient("Bitget endpoint " + path + " unavailable (HTTP " + IntToString(status) + ")"))
      else if body.None? then Err(MarketDataError("Bitget returned a non-JSON payload"))
      else if status >= 400 then
        var message := ExtractMessage(body.value);
        Err(MarketDataError(if message.Some? then message.value
                            else "Bitget endpoint " + path + " returned HTTP " + IntToString(status)))
      else Ok(body.value)
  }

  /** `_request_wrapped`: the envelope must be a JSON object whose `code` is absent,
      null or "00000". */
  function RequestWrapped(path: string, reply: Reply): (r: Result<Object>)
    ensures RequestJson(path, reply).Err? ==> r == Err(RequestJson(path, reply).error)
    ensures RequestJson(path, reply).Ok? && !RequestJson(path, reply).value.JObject? ==>
              r == Err(MarketDataError("Bitget returned an unexpected payload"))
    ensures RequestJson(path, reply).Ok? && RequestJson(path, reply).value.JObject? ==>
              var p := RequestJson(path, reply).value.fields;
              (r.Ok? <==> Get(p, "code") == JNull || Get(p, "code") == JStr("00000"))
              && (r.Ok? ==> r.value == p)
              && (r.Err? ==> r.error.MarketDataError?)
  {
    var payload :- RequestJson(path, reply);
    if !payload.JObject? then Err(MarketDataError("Bitget returned an unexpected payload"))
    else
      var code := Get(payload.fields, "code");
      if code != JNull && code != JStr("00000") then
        Err(MarketDataError(PyStr(Or(Get(payload.fields, "msg"),
                                     JStr("Bitget endpoint " + path + " returned error code " + PyStr(code))))))
      else Ok(payload.fields)
  }

  // ------------------------------------------------------------------
  // Row parsing

  /** `_parse_kline`: at least six columns, volume in column 5. */
  function ParseKline(raw: seq<Json>): (r: Result<Kline>)
    ensures |raw| < 6 ==> r == Err(MarketDataError("Unexpected Bitget kline payload structure"))
    ensures r.Ok? ==> |raw| >= 6 && ToInt(raw[0]) == Ok(r.value.openTime)
                      && ToDecimal(raw[1]) == Ok(r.value.open) && ToDecimal(raw[2]) == Ok(r.value.high)
                      && ToDecimal(raw[3]) == Ok(r.value.low) && ToDecimal(raw[4]) == Ok(r.value.close)
                      && ToDecimal(raw[5]) == Ok(r.value.volume)
    ensures |raw| >= 6 && ToInt(raw[0]).Ok? && (forall i :: 1 <= i <= 5 ==> ToDecimal(raw[i]).Ok?) ==> r.Ok?
  {
    if |raw| < 6 then Err(MarketDataError("Unexpected Bitget kline payload structure"))
    else ParseColumns(raw[0], raw[1], raw[2], raw[3], raw[4], raw[5])
  }

  /** The conversions `_parse_kline` applies to the first six columns, in order. */
  function ParseColumns(time: Json, open: Json, high: Json, low: Json, close: Json, volume: Json): (r: Result<Kline>)
    ensures r.Ok? <==> ToInt(time).Ok? && ToDecimal(open).Ok? && ToDecimal(high).Ok?
                       && ToDecimal(low).Ok? && ToDecimal(close).Ok? && ToDecimal(volume).Ok?
    ensures r.Ok? ==> ToInt(time) == Ok(r.value.openTime)
                      && ToDecimal(open) == Ok(r.value.open) && ToDecimal(high) == Ok(r.value.high)
                      && ToDecimal(low) == Ok(r.value.low) && ToDecimal(close) == Ok(r.value.close)
                      && ToDecimal(volume) == Ok(r.value.volume)
  {
    var t :- ToInt(time);
    var o :- ToDecimal(open);
    var h :- ToDecimal(high);
    var l :- ToDecimal(low);
    var c :- ToDecimal(close);
    var v :- ToDecimal(volume);
    Ok(Kline(t, o, h, l, c, v))
  }

  /** The six columns of a known kline convert back to its fields. */
  lemma ColumnsRoundTrip(k: Kline)
    requires k.WellFormed()
    ensures ParseColumns(JInt(k.openTime), JStr(k.open.text), JStr(k.high.text), JStr(k.low.text),
                         JStr(k.close.text), JStr(k.volume.text)) == Ok(k)
  {
    ToIntOfTimestamp(k.openTime);
    DecimalFieldRoundTrip(k.open);
    DecimalFieldRoundTrip(k.high);
    DecimalFieldRoundTrip(k.low);
    DecimalFieldRoundTrip(k.close);
    DecimalFieldRoundTrip(k.volume);
  }

  /** A six-column row of known fields parses back to exactly those fields, and any
      extra columns are ignored. */
  lemma ParseKlineRoundTrip(k: Kline, extra: seq<Json>)
    requires k.WellFormed()
    ensures ParseKline(KlineRow(k) + extra) == Ok(k)
  {
    var row := KlineRow(k) + extra;
    assert row[0] == JInt(k.openTime) && row[1] == JStr(k.open.text) && row[2] == JStr(k.high.text);
    assert row[3] == JStr(k.low.text) && row[4] == JStr(k.close.text) && row[5] == JStr(k.volume.text);
    assert ParseKline(row) == ParseColumns(row[0], row[1], row[2], row[3], row[4], row[5]);
    ColumnsRoundTrip(k);
  }

  /** A candle row as `_parse_kline` receives it: a list, or the characters of a
      string; a dict has a length but no key `0`. */
  function ParseKlineEntry(entry: Json): (r: Result<Kline>)
    ensures entry.JArray? ==> r == ParseKline(entry.items)
    ensures entry.JObject? && |entry.fields| < 6 ==> r == Err(MarketDataError("Unexpected Bitget kline payload structure"))
    ensures entry.JObject? && |entry.fields| >= 6 ==> r == Err(KeyError("0"))
    ensures !entry.JArray? && !entry.JStr? && !entry.JObject? ==> r.Err? && r.error.TypeError?
  {
    if entry.JObject? then
      if |entry.fields| < 6 then Err(MarketDataError("Unexpected Bitget kline payload structure")) else Err(KeyError("0"))
    else
      var row :- AsRow(entry);
      ParseKline(row)
  }

  /** `_parse_snapshot_from_kline`: `(close, open_time)` of a row of at least five
      columns. The close is read first, so a dict long enough to pass the length
      guard fails on key `4`. */
  function ParseSnapshotFromKline(raw: Json, endpointName: string): (r: Result<PriceFirst>)
    ensures raw.JArray? && |raw.items| < 5 ==>
              r == Err(MarketDataError("Unexpected Bitget " + endpointName + " kline payload structure"))
    ensures raw.JObject? && |raw.fields| < 5 ==>
              r == Err(MarketDataError("Unexpected Bitget " + endpointName + " kline payload structure"))
    ensures raw.JObject? && |raw.fields| >= 5 ==> r == Err(KeyError("4"))
    ensures r.Ok? ==> AsRow(raw).Ok? && |AsRow(raw).value| >= 5
                      && ToDecimal(AsRow(raw).value[4]) == Ok(r.value.value)
                      && ToInt(AsRow(raw).value[0]) == Ok(r.value.timestamp)
  {
    if raw.JObject? then
      if |raw.fields| < 5 then Err(MarketDataError("Unexpected Bitget " + endpointName + " kline payload structure"))
      else Err(KeyError("4"))
    else
      var row :- AsRow(raw);
      if |row| < 5 then Err(MarketDataError("Unexpected Bitget " + endpointName + " kline payload structure"))
      else
        var close :- ToDecimal(row[4]);
        var ts :- ToInt(row[0]);
        Ok(PriceFirst(close, ts))
  }

  /** The snapshot of a full kline row is its close and its open time. */
  lemma SnapshotOfKlineRow(k: Kline, endpointName: string)
    requires k.WellFormed()
    ensures ParseSnapshotFromKline(JArray(KlineRow(k)), endpointName) == Ok(PriceFirst(k.close, k.openTime))
  {
    KlineRowColumns(k);
    ToIntOfTimestamp(k.openTime);
    DecimalFieldRoundTrip(k.close);
  }

  /** The messages for a funding entry that is not a dict and for a `data` that is
      not iterable. */
  const MALFORMED_FUNDING_ENTRY := "Bitget returned malformed funding rate entry"
  const MALFORMED_FUNDING_PAYLOAD := "Bitget returned malformed funding rate history payload"

  /** `_parse_funding_point`: the settle time (else the funding time, else 0) and
      the rate. */
  function ParseFundingPoint(raw: Json): (r: Result<Point>)
    ensures !raw.JObject? ==> r == Err(MarketDataError(MALFORMED_FUNDING_ENTRY))
    ensures r.Ok? ==> ToDecimal(Get(raw.fields, "fundingRate")) == Ok(r.value.value)
    ensures r.Ok? && Truthy(Get(raw.fields, "settleTime")) ==> ToInt(Get(raw.fields, "settleTime")) == Ok(r.value.timestamp)
    ensures r.Ok? && !Truthy(Get(raw.fields, "settleTime")) && Truthy(Get(raw.fields, "fundingTime")) ==>
              ToInt(Get(raw.fields, "fundingTime")) == Ok(r.value.timestamp)
    ensures r.Ok? && !Truthy(Get(raw.fields, "settleTime")) && !Truthy(Get(raw.fields, "fundingTime")) ==>
              r.value.timestamp == 0
  {
    if !raw.JObject? then Err(MarketDataError(MALFORMED_FUNDING_ENTRY))
    else
      var t :- ToInt(Or(Or(Get(raw.fields, "settleTime"), Get(raw.fields, "fundingTime")), JInt(0)));
      var rate :- ToDecimal(Get(raw.fields, "fundingRate"));
      Ok(Point(t, rate))
  }

  /** `_infer_timestamp`: the ticker's own truthy `timestamp`, else a non-zero server
      time, else the clock. */
  function InferTimestamp(ticker: Object, serverTime: int, now: int): (r: Result<int>)
    ensures Truthy(Get(ticker, "timestamp")) ==> r == ToInt(Get(ticker, "timestamp"))
    ensures !Truthy(Get(ticker, "timestamp")) && serverTime != 0 ==> r == Ok(serverTime)
    ensures !Truthy(Get(ticker, "timestamp")) && serverTime == 0 ==> r == Ok(now)
  {
    var candidate := Get(ticker, "timestamp");
    if Truthy(candidate) then ToInt(candidate)
    else if serverTime != 0 then Ok(serverTime)
    else Ok(now)
  }

  // ------------------------------------------------------------------
  // Historical series

  function FeedEndpointName(feed: KlineFeed): string {
    match feed
    case PriceFeed => "price klines"
    case IndexFeed => "index price klines"
    case MarkFeed => "mark price klines"
    case PremiumFeed => "premium index klines"
  }

  /** The `kline_type` each feed passes; the traded-price feed passes none. */
  function FeedKlineType(feed: KlineFeed): Option<string> {
    match feed
    case PriceFeed => None
    case IndexFeed => Some("index")
    case MarkFeed => Some("mark")
    case PremiumFeed => Some(PREMIUM_KLINE_TYPE)
  }

  /** `_fetch_kline_series`: parameters first, then the raw request; the body must
      be a non-empty JSON list. */
  function FetchKlineSeries(q: HistoricalWindow, endpointName: string, klineType: Option<string>,
                            limitOverride: Option<int>, now: int, reply: Reply): (r: Result<seq<Json>>)
    ensures HistoricalParams(q, endpointName, klineType, limitOverride, None, now).Err? ==>
              r == Err(HistoricalParams(q, endpointName, klineType, limitOverride, None, now).error)
    ensures HistoricalParams(q, endpointName, klineType, limitOverride, None, now).Ok? && RequestJson(CANDLES_ENDPOINT, reply).Err? ==>
              r == Err(RequestJson(CANDLES_ENDPOINT, reply).error)
    ensures HistoricalParams(q, endpointName, klineType, limitOverride, None, now).Ok? && RequestJson(CANDLES_ENDPOINT, reply).Ok? ==>
              var payload := RequestJson(CANDLES_ENDPOINT, reply).value;
              if payload.JArray? && |payload.items| > 0 then r == Ok(payload.items)
              else r == Err(MarketDataError("Bitget returned empty " + endpointName))
  {
    var _ :- HistoricalParams(q, endpointName, klineType, limitOverride, None, now);
    var payload :- RequestJson(CANDLES_ENDPOINT, reply);
    if payload.JArray? && |payload.items| > 0 then Ok(payload.items)
    else Err(MarketDataError("Bitget returned empty " + endpointName))
  }

  /** `get_price_klines`, `get_index_price_klines`, `get_mark_price_klines` and
      `get_premium_index_klines`: every row parsed, in the order Bitget sends them. */
  function Klines(q: HistoricalWindow, feed: KlineFeed, now: int, reply: Reply): (r: Result<seq<Kline>>)
    ensures var rows := FetchKlineSeries(q, FeedEndpointName(feed), FeedKlineType(feed), None, now, reply);
            && (rows.Err? ==> r == Err(rows.error))
            && (rows.Ok? ==> (r.Ok? <==> forall i :: 0 <= i < |rows.value| ==> ParseKlineEntry(rows.value[i]).Ok?))
            && (r.Ok? ==> rows.Ok? && |r.value| == |rows.value| > 0
                          && forall i :: 0 <= i < |r.value| ==> ParseKlineEntry(rows.value[i]) == Ok(r.value[i]))
  {
    var entries :- FetchKlineSeries(q, FeedEndpointName(feed), FeedKlineType(feed), None, now, reply);
    MapAll(entries, ParseKlineEntry)
  }

  /** The funding entries of `data`: anything iterable is accepted; a list's items
      are parsed; a non-empty string or dict yields non-dict items (characters or
      keys), so the first one fails as a malformed entry. */
  function FundingEntries(data: Json): (r: Result<seq<Point>>)
    ensures data.JArray? ==> r == MapAll(data.items, ParseFundingPoint)
    ensures data.JNull? || data.JBool? || data.JInt? ==>
              r == Err(MarketDataError(MALFORMED_FUNDING_PAYLOAD))
    ensures (data.JStr? && data.s == "") || (data.JObject? && data.fields == map[]) ==> r == Ok([])
    ensures (data.JStr? && data.s != "") || (data.JObject? && data.fields != map[]) ==>
              r == Err(MarketDataError(MALFORMED_FUNDING_ENTRY))
  {
    if data.JArray? then MapAll(data.items, ParseFundingPoint)
    else if data == JStr("") || data == JObject(map[]) then Ok([])
    else if data.JStr? || data.JObject? then Err(MarketDataError(MALFORMED_FUNDING_ENTRY))
    else Err(MarketDataError(MALFORMED_FUNDING_PAYLOAD))
  }

  /** `get_funding_rate_history`: an empty list is a valid answer. */
  function FundingRateHistory(q: FundingRateWindow, reply: Reply): (r: Result<seq<Point>>)
    ensures FundingParams(q).Err? ==> r == Err(FundingParams(q).error)
    ensures FundingParams(q).Ok? ==>
              var env := RequestWrapped(FUNDING_HISTORY_ENDPOINT, reply);
              (env.Err? ==> r == Err(env.error)) && (env.Ok? ==> r == FundingEntries(Get(env.value, "data")))
  {
    var _ :- FundingParams(q);
    var payload :- RequestWrapped(FUNDING_HISTORY_ENDPOINT, reply);
    FundingEntries(Get(payload, "data"))
  }

  /** An envelope whose `data` is an empty list gives an empty history, not an error. */
  lemma EmptyFundingHistoryAccepted(q: FundingRateWindow, reply: Reply)
    requires q.limit <= FUNDING_MAX_LIMIT
    requires reply == Response(200, Some(JObject(map["code" := JStr("00000"), "data" := JArray([])])))
    ensures FundingRateHistory(q, reply) == Ok([])
  {
  }

  // ------------------------------------------------------------------
  // Latest snapshots

  /** A wrapped envelope's `data` as a JSON object, or the named malformed error. */
  function DataObject(payload: Object, what: string): (r: Result<Object>)
    ensures Get(payload, "data").JObject? <==> r.Ok?
    ensures r.Ok? ==> r.value == Get(payload, "data").fields
    ensures r.Err? ==> r.error == MarketDataError("Bitget returned malformed " + what + " payload")
  {
    match Get(payload, "data")
    case JObject(m) => Ok(m)
    case _ => Err(MarketDataError("Bitget returned malformed " + what + " payload"))
  }

  /** `_fetch_ticker`: the ticker and the server time (`requestTime`, else the
      ticker's `timestamp`, else 0). */
  function FetchTicker(s: Symbol, reply: Reply): (r: Result<(Object, int)>)
    ensures RequestWrapped(TICKER_ENDPOINT, reply).Err? ==> r == Err(RequestWrapped(TICKER_ENDPOINT, reply).error)
    ensures r.Ok? ==> RequestWrapped(TICKER_ENDPOINT, reply).Ok?
                      && var p := RequestWrapped(TICKER_ENDPOINT, reply).value;
                      Get(p, "data") == JObject(r.value.0)
                      && ToInt(Or(Or(Get(p, "requestTime"), Get(r.value.0, "timestamp")), JInt(0))) == Ok(r.value.1)
  {
    var payload :- RequestWrapped(TICKER_ENDPOINT, reply);
    var data :- DataObject(payload, "ticker");
    var serverTime :- ToInt(Or(Or(Get(payload, "requestTime"), Get(data, "timestamp")), JInt(0)));
    Ok((data, serverTime))
  }

  /** `_fetch_mark_price`: the mark price and its time; the time is parsed (and can
      fail) even where the caller discards it. */
  function FetchMarkPrice(s: Symbol, reply: Reply): (r: Result<(Decimal, int)>)
    ensures RequestWrapped(MARK_PRICE_ENDPOINT, reply).Err? ==> r == Err(RequestWrapped(MARK_PRICE_ENDPOINT, reply).error)
    ensures r.Ok? ==> RequestWrapped(MARK_PRICE_ENDPOINT, reply).Ok?
                      && var p := RequestWrapped(MARK_PRICE_ENDPOINT, reply).value;
                      Get(p, "data").JObject?
                      && ToDecimal(Get(Get(p, "data").fields, "markPrice")) == Ok(r.value.0)
                      && ToInt(Or(Or(Get(Get(p, "data").fields, "timestamp"), Get(p, "requestTime")), JInt(0)))
                         == Ok(r.value.1)
    ensures RequestWrapped(MARK_PRICE_ENDPOINT, reply).Ok? ==>
              var p := RequestWrapped(MARK_PRICE_ENDPOINT, reply).value;
              (!Get(p, "data").JObject? ==> r == Err(MarketDataError("Bitget returned malformed mark price payload")))
              && (Get(p, "data").JObject? && ToDecimal(Get(Get(p, "data").fields, "markPrice")).Ok? ==>
                    var t := ToInt(Or(Or(Get(Get(p, "data").fields, "timestamp"), Get(p, "requestTime")), JInt(0)));
                    t.Err? ==> r == Err(t.error))
  {
    var payload :- RequestWrapped(MARK_PRICE_ENDPOINT, reply);
    var data :- DataObject(payload, "mark price");
    var price :- ToDecimal(Get(data, "markPrice"));
    var timestamp :- ToInt(Or(Or(Get(data, "timestamp"), Get(payload, "requestTime")), JInt(0)));
    Ok((price, timestamp))
  }

  /** `_fetch_next_funding_time`. */
  function FetchNextFundingTime(s: Symbol, reply: Reply): (r: Result<int>)
    ensures RequestWrapped(FUNDING_TIME_ENDPOINT, reply).Err? ==> r == Err(RequestWrapped(FUNDING_TIME_ENDPOINT, reply).error)
    ensures r.Ok? ==> RequestWrapped(FUNDING_TIME_ENDPOINT, reply).Ok?
                      && var p := RequestWrapped(FUNDING_TIME_ENDPOINT, reply).value;
                      Get(p, "data").JObject?
                      && ToInt(Or(Or(Get(Get(p, "data").fields, "fundingTime"), Get(p, "requestTime")), JInt(0))) == r
  {
    var payload :- RequestWrapped(FUNDING_TIME_ENDPOINT, reply);
    var data :- DataObject(payload, "funding time");
    ToInt(Or(Or(Get(data, "fundingTime"), Get(payload, "requestTime")), JInt(0)))
  }

  /** `get_latest_price`: `(price, timestamp)`, price first. */
  function LatestPrice(s: Symbol, now: int, reply: Reply): (r: Result<PriceFirst>)
    ensures FetchTicker(s, reply).Err? ==> r == Err(FetchTicker(s, reply).error)
    ensures r.Ok? ==> FetchTicker(s, reply).Ok?
                      && var t := FetchTicker(s, reply).value;
                      ToDecimal(Get(t.0, "last")) == Ok(r.value.value)
                      && InferTimestamp(t.0, t.1, now) == Ok(r.value.timestamp)
    ensures FetchTicker(s, reply).Ok? ==>
              var t := FetchTicker(s, reply).value;
              var price := ToDecimal(Get(t.0, "last"));
              var time := InferTimestamp(t.0, t.1, now);
              (price.Err? ==> r == Err(price.error))
              && (price.Ok? && time.Err? ==> r == Err(time.error))
              && (price.Ok? && time.Ok? ==> r == Ok(PriceFirst(price.value, time.value)))
  {
    var ticker :- FetchTicker(s, reply);
    var price :- ToDecimal(Get(ticker.0, "last"));
    var timestamp :- InferTimestamp(ticker.0, ticker.1, now);
    Ok(PriceFirst(price, timestamp))
  }

  /** `get_latest_mark_price`: three requests, in the order mark price, ticker,
      funding time. */
  function LatestMarkPrice(s: Symbol, markReply: Reply, tickerReply: Reply, fundingTimeReply: Reply)
    : (r: Result<MarkSnapshot>)
    ensures FetchMarkPrice(s, markReply).Err? ==> r == Err(FetchMarkPrice(s, markReply).error)
    ensures r.Ok? ==> FetchMarkPrice(s, markReply).Ok? && FetchTicker(s, tickerReply).Ok?
                      && FetchNextFundingTime(s, fundingTimeReply).Ok?
                      && r.value.markPrice == FetchMarkPrice(s, markReply).value.0
                      && ToDecimal(Get(FetchTicker(s, tickerReply).value.0, "indexPrice")) == Ok(r.value.indexPrice)
                      && ToDecimal(Get(FetchTicker(s, tickerReply).value.0, "fundingRate")) == Ok(r.value.fundingRate)
                      && r.value.nextFundingTime == FetchNextFundingTime(s, fundingTimeReply).value
    ensures FetchMarkPrice(s, markReply).Ok? && FetchTicker(s, tickerReply).Err? ==> r == Err(FetchTicker(s, tickerReply).error)
    ensures FetchMarkPrice(s, markReply).Ok? && FetchTicker(s, tickerReply).Ok? ==>
              var t := FetchTicker(s, tickerReply).value.0;
              var index := ToDecimal(Get(t, "indexPrice"));
              var rate := ToDecimal(Get(t, "fundingRate"));
              var next := FetchNextFundingTime(s, fundingTimeReply);
              (index.Err? ==> r == Err(index.error))
              && (index.Ok? && rate.Err? ==> r == Err(rate.error))
              && (index.Ok? && rate.Ok? && next.Err? ==> r == Err(next.error))
              && (index.Ok? && rate.Ok? && next.Ok? ==>
                    r == Ok(MarkSnapshot(FetchMarkPrice(s, markReply).value.0, index.value, rate.value, next.value)))
  {
    var mark :- FetchMarkPrice(s, markReply);
    var ticker :- FetchTicker(s, tickerReply);
    var indexPrice :- ToDecimal(Get(ticker.0, "indexPrice"));
    var fundingRate :- ToDecimal(Get(ticker.0, "fundingRate"));
    var nextFunding :- FetchNextFundingTime(s, fundingTimeReply);
    Ok(MarkSnapshot(mark.0, indexPrice, fundingRate, nextFunding))
  }

  /** `get_latest_index_price`: `(index_price, timestamp)`, price first. */
  function LatestIndexPrice(s: Symbol, now: int, reply: Reply): (r: Result<PriceFirst>)
    ensures FetchTicker(s, reply).Err? ==> r == Err(FetchTicker(s, reply).error)
    ensures r.Ok? ==> FetchTicker(s, reply).Ok?
                      && var t := FetchTicker(s, reply).value;
                      ToDecimal(Get(t.0, "indexPrice")) == Ok(r.value.value)
                      && InferTimestamp(t.0, t.1, now) == Ok(r.value.timestamp)
    ensures FetchTicker(s, reply).Ok? ==>
              var t := FetchTicker(s, reply).value;
              var price := ToDecimal(Get(t.0, "indexPrice"));
              var time := InferTimestamp(t.0, t.1, now);
              (price.Err? ==> r == Err(price.error))
              && (price.Ok? && time.Err? ==> r == Err(time.error))
              && (price.Ok? && time.Ok? ==> r == Ok(PriceFirst(price.value, time.value)))
  {
    var ticker :- FetchTicker(s, reply);
    var indexPrice :- ToDecimal(Get(ticker.0, "indexPrice"));
    var timestamp :- InferTimestamp(ticker.0, ticker.1, now);
    Ok(PriceFirst(indexPrice, timestamp))
  }

  /** `get_latest_premium_index`: a one-candle premium request whose limit override
      of 1 bypasses the cap; the first row's close and open time. */
  function LatestPremiumIndex(s: Symbol, now: int, reply: Reply): (r: Result<PriceFirst>)
    ensures var window := HistoricalWindow(s, Minute1, None, None, 1);
            var rows := FetchKlineSeries(window, "premium index klines", Some(PREMIUM_KLINE_TYPE), Some(1), now, reply);
            && (rows.Err? ==> r == Err(rows.error))
            && (rows.Ok? ==> r == ParseSnapshotFromKline(rows.value[0], "premium index"))
  {
    // A one-row window without bounds always passes the window checks.
    var window := HistoricalWindow(s, Minute1, None, None, 1);
    var entries :- FetchKlineSeries(window, "premium index klines", Some(PREMIUM_KLINE_TYPE), Some(1), now, reply);
    ParseSnapshotFromKline(entries[0], "premium index")
  }

  /** The premium request for the latest value asks for exactly one premium candle
      of one minute ending now. */
  lemma LatestPremiumParams(s: Symbol, now: int)
    ensures var p := HistoricalParams(HistoricalWindow(s, Minute1, None, None, 1), "premium index klines",
                                      Some(PREMIUM_KLINE_TYPE), Some(1), None, now);
            p.Ok? && p.value["limit"] == PInt(1) && p.value["kLineType"] == PStr("premium")
            && p.value["startTime"] == PInt(now - 60_000) && p.value["endTime"] == PInt(now)
  {
  }

  /** `get_latest_funding_rate`: the first point of a one-entry history; an empty
      history is an error here. */
  function LatestFundingRate(s: Symbol, reply: Reply): (r: Result<Point>)
    ensures var h := FundingRateHistory(FundingRateWindow(s, None, None, 1), reply);
            && (h.Err? ==> r == Err(h.error))
            && (h.Ok? && |h.value| == 0 ==> r == Err(MarketDataError("Bitget returned empty funding rate history")))
            && (h.Ok? && |h.value| > 0 ==> r == Ok(h.value[0]))
  {
    var history :- FundingRateHistory(FundingRateWindow(s, None, None, 1), reply);
    if |history| == 0 then Err(MarketDataError("Bitget returned empty funding rate history"))
    else Ok(history[0])
  }

  /** `get_open_interest`: `(timestamp, amount)`, the time being the data's
      `timestamp`, else the envelope's `requestTime`, else 0. */
  function OpenInterest(s: Symbol, reply: Reply): (r: Result<Point>)
    ensures RequestWrapped(OPEN_INTEREST_ENDPOINT, reply).Err? ==> r == Err(RequestWrapped(OPEN_INTEREST_ENDPOINT, reply).error)
    ensures r.Ok? ==> RequestWrapped(OPEN_INTEREST_ENDPOINT, reply).Ok?
                      && var p := RequestWrapped(OPEN_INTEREST_ENDPOINT, reply).value;
                      Get(p, "data").JObject?
                      && ToDecimal(Get(Get(p, "data").fields, "amount")) == Ok(r.value.value)
                      && ToInt(Or(Or(Get(Get(p, "data").fields, "timestamp"), Get(p, "requestTime")), JInt(0)))
                         == Ok(r.value.timestamp)
  {
    var payload :- RequestWrapped(OPEN_INTEREST_ENDPOINT, reply);
    var data :- DataObject(payload, "open interest");
    var timestamp :- ToInt(Or(Or(Get(data, "timestamp"), Get(payload, "requestTime")), JInt(0)));
    var amount :- ToDecimal(Get(data, "amount"));
    Ok(Point(timestamp, amount))
  }

  // ------------------------------------------------------------------
  // Round trips

  /** A funding-history record as Bitget sends it. */
  function FundingEntry(p: Point): Json {
    JObject(map["settleTime" := JStr(IntToString(p.timestamp)), "fundingRate" := JStr(p.value.text)])
  }

  /** A funding record built from a point parses back to that point. */
  lemma ParseFundingPointRoundTrip(p: Point)
    requires IsDecimalText(p.value.text)
    ensures ParseFundingPoint(FundingEntry(p)) == Ok(p)
  {
    ToIntOfTimestamp(p.timestamp);
    DecimalFieldRoundTrip(p.value);
    assert Get(FundingEntry(p).fields, "settleTime") == JStr(IntToString(p.timestamp));
  }

  /** The funding records of a series of points, in order. */
  function FundingRecords(ps: seq<Point>): (r: seq<Json>)
    ensures |r| == |ps| && forall i :: 0 <= i < |ps| ==> r[i] == FundingEntry(ps[i])
  {
    seq(|ps|, i requires 0 <= i < |ps| => FundingEntry(ps[i]))
  }

  /** A success envelope carrying `data` with the given request time. */
  function SuccessBody(data: Json, requestTime: int): Object {
    map["code" := JStr("00000"), "msg" := JStr("success"), "requestTime" := JInt(requestTime), "data" := data]
  }

  /** A 200 reply carrying `data` in a success envelope with the given request time. */
  function SuccessReply(data: Json, requestTime: int): Reply {
    Response(200, Some(JObject(SuccessBody(data, requestTime))))
  }

  /** A success envelope passes `_request_wrapped` unchanged. */
  lemma SuccessReplyAccepted(path: string, data: Json, requestTime: int)
    ensures RequestWrapped(path, SuccessReply(data, requestTime)) == Ok(SuccessBody(data, requestTime))
    ensures Get(SuccessBody(data, requestTime), "data") == data
    ensures Get(SuccessBody(data, requestTime), "requestTime") == JInt(requestTime)
  {
    assert Get(SuccessBody(data, requestTime), "code") == JStr("00000");
  }

  /** A funding-history reply listing a series of points yields that series, in the
      order sent, whenever the window is accepted. */
  lemma FundingRateHistoryRoundTrip(q: FundingRateWindow, ps: seq<Point>, requestTime: int)
    requires forall i :: 0 <= i < |ps| ==> IsDecimalText(ps[i].value.text)
    requires FundingParams(q).Ok?
    ensures FundingRateHistory(q, SuccessReply(JArray(FundingRecords(ps)), requestTime)) == Ok(ps)
  {
    SuccessReplyAccepted(FUNDING_HISTORY_ENDPOINT, JArray(FundingRecords(ps)), requestTime);
    forall i | 0 <= i < |ps| ensures ParseFundingPoint(FundingRecords(ps)[i]) == Ok(ps[i]) {
      ParseFundingPointRoundTrip(ps[i]);
    }
    MapAllOk(FundingRecords(ps), ParseFundingPoint, ps);
  }

  /** An open-interest reply whose data carries a point's time and amount yields
      exactly that point, whatever the request time. */
  lemma OpenInterestRoundTrip(s: Symbol, p: Point, requestTime: int)
    requires IsDecimalText(p.value.text)
    ensures var data := JObject(map["timestamp" := JStr(IntToString(p.timestamp)), "amount" := JStr(p.value.text)]);
            OpenInterest(s, SuccessReply(data, requestTime)) == Ok(p)
  {
    var data := JObject(map["timestamp" := JStr(IntToString(p.timestamp)), "amount" := JStr(p.value.text)]);
    SuccessReplyAccepted(OPEN_INTEREST_ENDPOINT, data, requestTime);
    ToIntOfTimestamp(p.timestamp);
    DecimalFieldRoundTrip(p.value);
    assert Get(data.fields, "timestamp") == JStr(IntToString(p.timestamp)) && Get(data.fields, "amount") == JStr(p.value.text);
  }

  /** A ticker reply whose data carries a price under `field` and its time yields
      exactly that price and time, whatever the request time and the clock. */
  lemma TickerFieldRoundTrip(s: Symbol, field: string, p: PriceFirst, requestTime: int, now: int)
    requires IsDecimalText(p.value.text) && field != "timestamp"
    ensures var data := JObject(map["timestamp" := JStr(IntToString(p.timestamp)), field := JStr(p.value.text)]);
            FetchTicker(s, SuccessReply(data, requestTime)).Ok?
            && var t := FetchTicker(s, SuccessReply(data, requestTime)).value;
            ToDecimal(Get(t.0, field)) == Ok(p.value) && InferTimestamp(t.0, t.1, now) == Ok(p.timestamp)
  {
    var data := JObject(map["timestamp" := JStr(IntToString(p.timestamp)), field := JStr(p.value.text)]);
    SuccessReplyAccepted(TICKER_ENDPOINT, data, requestTime);
    ToIntOfTimestamp(p.timestamp);
    DecimalFieldRoundTrip(p.value);
    assert Get(data.fields, "timestamp") == JStr(IntToString(p.timestamp)) && Get(data.fields, field) == JStr(p.value.text);
  }

  /** A ticker reply carrying a last price and its time yields exactly them. */
  lemma LatestPriceRoundTrip(s: Symbol, p: PriceFirst, requestTime: int, now: int)
    requires IsDecimalText(p.value.text)
    ensures var data := JObject(map["timestamp" := JStr(IntToString(p.timestamp)), "last" := JStr(p.value.text)]);
            LatestPrice(s, now, SuccessReply(data, requestTime)) == Ok(p)
  {
    TickerFieldRoundTrip(s, "last", p, requestTime, now);
  }

  /** A ticker reply carrying an index price and its time yields exactly them. */
  lemma LatestIndexPriceRoundTrip(s: Symbol, p: PriceFirst, requestTime: int, now: int)
    requires IsDecimalText(p.value.text)
    ensures var data := JObject(map["timestamp" := JStr(IntToString(p.timestamp)), "indexPrice" := JStr(p.value.text)]);
            LatestIndexPrice(s, now, SuccessReply(data, requestTime)) == Ok(p)
  {
    TickerFieldRoundTrip(s, "indexPrice", p, requestTime, now);
  }

  /** The `data` of the mark-price, ticker and funding-time replies that describe a
      mark snapshot. */
  function MarkData(m: MarkSnapshot): Json {
    JObject(map["markPrice" := JStr(m.markPrice.text)])
  }

  function MarkTickerData(m: MarkSnapshot): Json {
    JObject(map["indexPrice" := JStr(m.indexPrice.text), "fundingRate" := JStr(m.fundingRate.text)])
  }

  function FundingTimeData(m: MarkSnapshot): Json {
    JObject(map["fundingTime" := JStr(IntToString(m.nextFundingTime))])
  }

  /** The mark-price, ticker and funding-time replies, each carrying its part of a
      snapshot, yield exactly that snapshot. */
  lemma LatestMarkPriceRoundTrip(s: Symbol, m: MarkSnapshot, requestTime: int)
    requires IsDecimalText(m.markPrice.text) && IsDecimalText(m.indexPrice.text) && IsDecimalText(m.fundingRate.text)
    ensures LatestMarkPrice(s, SuccessReply(MarkData(m), requestTime), SuccessReply(MarkTickerData(m), requestTime),
                            SuccessReply(FundingTimeData(m), requestTime)) == Ok(m)
  {
    MarkPartsFetched(s, m, requestTime);
    DecimalFieldRoundTrip(m.indexPrice);
    DecimalFieldRoundTrip(m.fundingRate);
    var t := MarkTickerData(m).fields;
    assert Get(t, "indexPrice") == JStr(m.indexPrice.text) && Get(t, "fundingRate") == JStr(m.fundingRate.text);
  }

  /** Each of the three replies yields its part: the mark price with the request
      time, the ticker data with the request time, and the funding time. */
  lemma MarkPartsFetched(s: Symbol, m: MarkSnapshot, requestTime: int)
    requires IsDecimalText(m.markPrice.text)
    ensures FetchMarkPrice(s, SuccessReply(MarkData(m), requestTime)) == Ok((m.markPrice, requestTime))
    ensures FetchTicker(s, SuccessReply(MarkTickerData(m), requestTime)) == Ok((MarkTickerData(m).fields, requestTime))
    ensures FetchNextFundingTime(s, SuccessReply(FundingTimeData(m), requestTime)) == Ok(m.nextFundingTime)
  {
    SuccessReplyAccepted(MARK_PRICE_ENDPOINT, MarkData(m), requestTime);
    SuccessReplyAccepted(TICKER_ENDPOINT, MarkTickerData(m), requestTime);
    SuccessReplyAccepted(FUNDING_TIME_ENDPOINT, FundingTimeData(m), requestTime);
    ToIntOfTimestamp(m.nextFundingTime);
    ToIntOfTimestamp(requestTime);
    DecimalFieldRoundTrip(m.markPrice);
    assert Get(MarkData(m).fields, "markPrice") == JStr(m.markPrice.text);
    assert Get(MarkData(m).fields, "timestamp") == JNull && Get(MarkTickerData(m).fields, "timestamp") == JNull;
    assert Get(FundingTimeData(m).fields, "fundingTime") == JStr(IntToString(m.nextFundingTime));
  }
}

=== FILE: bybit.dfy ===
/** The Bybit adapter (market_data_fetch/exchanges/bybit/usdt_perp.py). Every
    request is in the `linear` category and names the instrument by its plain pair;
    responses are `{retCode, retMsg, result: {list: [...]}}` envelopes. */
module Bybit {
  import opened Errors
  import opened Numbers
  import opened Json
  import opened Shared
  import opened Queries
  import opened Http
  import opened Records

  const CATEGORY: string := "linear"
  const PRICE_KLINES_ENDPOINT: string := "/v5/market/kline"
  const INDEX_PRICE_KLINES_ENDPOINT: string := "/v5/market/index-price-kline"
  const MARK_PRICE_KLINES_ENDPOINT: string := "/v5/market/mark-price-kline"
  const PREMIUM_INDEX_KLINES_ENDPOINT: string := "/v5/market/premium-index-price-kline"
  const FUNDING_HISTORY_ENDPOINT: string := "/v5/market/funding/history"
  const TICKERS_ENDPOINT: string := "/v5/market/tickers"
  const INSTRUMENTS_ENDPOINT: string := "/v5/market/instruments-info"
  const PRICE_KLINES_MAX_LIMIT: int := 1000
  const INDEX_KLINES_MAX_LIMIT: int := 1000
  const MARK_PRICE_KLINES_MAX_LIMIT: int := 1000
  const PREMIUM_INDEX_KLINES_MAX_LIMIT: int := 1000
  const FUNDING_RATE_MAX_LIMIT: int := 200

  // ------------------------------------------------------------------
  // Intervals and limits

  /** `_map_interval`: Bybit's table has no three-day interval. */
  function MapInterval(i: Interval): (r: Result<string>)
    ensures r.Err? <==> i == Day3
    ensures r.Err? ==> r.error == IntervalNotSupported("Interval " + i.Text() + " is not supported by Bybit")
  {
    match i
    case Minute1 => Ok("1")
    case Minute3 => Ok("3")
    case Minute5 => Ok("5")
    case Minute15 => Ok("15")
    case Minute30 => Ok("30")
    case Hour1 => Ok("60")
    case Hour2 => Ok("120")
    case Hour4 => Ok("240")
    case Hour6 => Ok("360")
    case Hour12 => Ok("720")
    case Day1 => Ok("D")
    case Day3 => Err(IntervalNotSupported("Interval " + i.Text() + " is not supported by Bybit"))
    case Week1 => Ok("W")
    case Month1 => Ok("M")
  }

  /** The reference rule behind the intraday codes: the interval's length in
      minutes, as decimal text. */
  lemma IntradayCodesAreMinutes(i: Interval)
    requires i.Minutes() < 1440
    ensures MapInterval(i) == Ok(NatToString(i.Minutes()))
  {
    IntradayMinuteTexts();
  }

  /** The decimal texts of the intraday interval lengths. */
  lemma IntradayMinuteTexts()
    ensures NatToString(1) == "1" && NatToString(3) == "3" && NatToString(5) == "5"
    ensures NatToString(15) == "15" && NatToString(30) == "30" && NatToString(60) == "60"
    ensures NatToString(120) == "120" && NatToString(240) == "240"
    ensures NatToString(360) == "360" && NatToString(720) == "720"
  {
    assert NatToString(15) == "15";
    assert NatToString(30) == "30";
    assert NatToString(60) == "60";
    assert NatToString(120) == "120" by { assert NatToString(12) == "12"; }
    assert NatToString(240) == "240" by { assert NatToString(24) == "24"; }
    assert NatToString(360) == "360" by { assert NatToString(36) == "36"; }
    assert NatToString(720) == "720" by { assert NatToString(72) == "72"; }
  }

  /** Exactly the three-day interval is unsupported, and distinct supported
      intervals get distinct codes. */
  lemma MapIntervalCoverage(a: Interval, b: Interval)
    ensures MapInterval(a).Err? <==> a == Day3
    ensures MapInterval(a).Ok? && MapInterval(a) == MapInterval(b) ==> a == b
  {
  }

  /** `_enforce_limit`: any request above the cap is rejected; there is no clamp. */
  function EnforceLimit(requested: int, maxLimit: int, endpointName: string): (r: Result<int>)
    ensures r.Ok? <==> requested <= maxLimit
    ensures r.Ok? ==> r.value == requested
    ensures r.Err? ==> r.error == ValueError("Bybit " + endpointName + " limit cannot exceed "
                                             + IntToString(maxLimit) + " entries")
  {
    if requested > maxLimit then
      Err(ValueError("Bybit " + endpointName + " limit cannot exceed " + IntToString(maxLimit) + " entries"))
    else Ok(requested)
  }

  // ------------------------------------------------------------------
  // Request parameters

  /** `_historical_params`: the interval is checked before the limit. */
  function HistoricalParams(q: HistoricalWindow, maxLimit: int, endpointName: string): (r: Result<Params>)
    ensures MapInterval(q.interval).Err? ==> r == Err(MapInterval(q.interval).error)
    ensures MapInterval(q.interval).Ok? ==> (r.Ok? <==> q.limit <= maxLimit)
    ensures MapInterval(q.interval).Ok? && r.Err? ==> r.error.ValueError?
    ensures r.Ok? ==> r.value.Keys == {"category", "symbol", "interval", "limit"}
                                      + (if q.startTime.Some? then {"start"} else {})
                                      + (if q.endTime.Some? then {"end"} else {})
    ensures r.Ok? ==> r.value["category"] == PStr(CATEGORY) && r.value["symbol"] == PStr(q.symbol.Pair())
                      && r.value["interval"] == PStr(MapInterval(q.interval).value) && r.value["limit"] == PInt(q.limit)
    ensures r.Ok? && q.startTime.Some? ==> r.value["start"] == PInt(q.startTime.value)
    ensures r.Ok? && q.endTime.Some? ==> r.value["end"] == PInt(q.endTime.value)
  {
    var interval :- MapInterval(q.interval);
    var limit :- EnforceLimit(q.limit, maxLimit, endpointName);
    var params := map["category" := PStr(CATEGORY), "symbol" := PStr(q.symbol.Pair()),
                      "interval" := PStr(interval), "limit" := PInt(limit)];
    Ok(WithTimeBounds(params, "start", "end", q.startTime, q.endTime))
  }

  /** `_funding_params`: like the candle parameters without an interval; the time
      bounds are passed on. */
  function FundingParams(q: FundingRateWindow, maxLimit: int): (r: Result<Params>)
    ensures r.Ok? <==> q.limit <= maxLimit
    ensures r.Err? ==> r.error.ValueError?
    ensures r.Ok? ==> r.value.Keys == {"category", "symbol", "limit"}
                                      + (if q.startTime.Some? then {"start"} else {})
                                      + (if q.endTime.Some? then {"end"} else {})
    ensures r.Ok? ==> r.value["category"] == PStr(CATEGORY) && r.value["symbol"] == PStr(q.symbol.Pair())
                      && r.value["limit"] == PInt(q.limit)
    ensures r.Ok? && q.startTime.Some? ==> r.value["start"] == PInt(q.startTime.value)
    ensures r.Ok? && q.endTime.Some? ==> r.value["end"] == PInt(q.endTime.value)
  {
    var limit :- EnforceLimit(q.limit, maxLimit, "funding history");
    var params := map["category" := PStr(CATEGORY), "symbol" := PStr(q.symbol.Pair()), "limit" := PInt(limit)];
    Ok(WithTimeBounds(params, "start", "end", q.startTime, q.endTime))
  }

  // ------------------------------------------------------------------
  // Classification

  /** `retCode not in (0, None)` uses equality, so `false` (equal to 0) passes too. */
  predicate RetCodeOk(code: Json) {
    code == JNull || code == JInt(0) || code == JBool(false)
  }

  /** `_extract_message`: `retMsg`, else `retExtInfo`, when that is a non-empty string. */
  function ExtractMessage(payload: Object): (r: Option<string>)
    ensures r.Some? ==> r.value != "" && JStr(r.value) == Or(Get(payload, "retMsg"), Get(payload, "retExtInfo"))
    ensures r.None? ==> !Or(Get(payload, "retMsg"), Get(payload, "retExtInfo")).JStr?
                        || Or(Get(payload, "retMsg"), Get(payload, "retExtInfo")) == JStr("")
  {
    var msg := Or(Get(payload, "retMsg"), Get(payload, "retExtInfo"));
    if msg.JStr? && msg.s != "" then Some(msg.s) else None
  }

  /** `_request` after the GET: 403 and 5xx are transient; the body must be a JSON
      object; another 4xx is an error with the body's message; a non-zero `retCode`
      is an error carrying `retMsg`. */
  function Request(path: string, reply: Reply): (r: Result<Object>)
    ensures reply.NetworkFailure? ==>
              r == Err(ExchangeTransient("Failed to call Bybit endpoint " + path + ": " + reply.detail))
    ensures reply.Response? && reply.status == 403 ==> r == Err(ExchangeTransient("Bybit denied the request with HTTP 403"))
    ensures reply.Response? && reply.status >= 500 ==>
              r == Err(ExchangeTransient("Bybit endpoint " + path + " unavailable (HTTP " + IntToString(reply.status) + ")"))
    ensures reply.Response? && reply.status != 403 && reply.status < 500 && reply.body.None? ==>
              r == Err(MarketDataError("Bybit returned a non-JSON payload"))
    ensures reply.Response? && reply.status != 403 && reply.status < 500 && reply.body.Some? && !reply.body.value.JObject? ==>
              r == Err(MarketDataError("Bybit returned an unexpected payload"))
    ensures reply.Response? && reply.status != 403 && 400 <= reply.status < 500 && reply.body.Some? && reply.body.value.JObject? ==>
              r.Err? && r.error.MarketDataError?
              && (ExtractMessage(reply.body.value.fields).Some? ==> r.error.message == ExtractMessage(reply.body.value.fields).value)
    ensures reply.Response? && reply.status < 400 && reply.body.Some? && reply.body.value.JObject? ==>
              var p := reply.body.value.fields;
              (r.Ok? <==> RetCodeOk(Get(p, "retCode")))
              && (r.Ok? ==> r.value == p)
              && (r.Err? && Truthy(Get(p, "retMsg")) ==> r == Err(MarketDataError(PyStr(Get(p, "retMsg")))))
    ensures r.Err? && IsRetryable(r.error) <==> reply.NetworkFailure? || reply.status == 403 || reply.status >= 500
  {
    match reply
    case NetworkFailure(detail) => Err(ExchangeTransient("Failed to call Bybit endpoint " + path + ": " + detail))
    case Response(status, body) =>
      if status == 403 then Err(ExchangeTransient("Bybit denied the request with HTTP 403"))
      else if status >= 500 then
        Err(ExchangeTransient("Bybit endpoint " + path + " unavailable (HTTP " + IntToString(status) + ")"))
      else if body.None? then Err(MarketDataError("Bybit returned a non-JSON payload"))
      else if !body.value.JObject? then Err(MarketDataError("Bybit returned an unexpected payload"))
      else
        var payload := body.value.fields;
        if status >= 400 then
          var message := ExtractMessage(payload);
          Err(MarketDataError(if message.Some? then message.value
                              else "Bybit endpoint " + path + " returned HTTP " + IntToString(status)))
        else
          var code := Get(payload, "retCode");
          if !RetCodeOk(code) then
            Err(MarketDataError(PyStr(Or(Get(payload, "retMsg"), JStr("Bybit error code " + PyStr(code))))))
          else Ok(payload)
  }

  /** `_extract_list`: `result` must be a JSON object whose `list` is truthy; that
      value is returned as is. */
  function ExtractList(payload: Object, endpointName: string): (r: Result<Json>)
    ensures !Get(payload, "result").JObject? ==> r == Err(MarketDataError("Bybit returned malformed " + endpointName + " payload"))
    ensures Get(payload, "result").JObject? ==>
              var entries := Get(Get(payload, "result").fields, "list");
              (Truthy(entries) ==> r == Ok(entries))
              && (!Truthy(entries) ==> r == Err(MarketDataError("Bybit returned empty " + endpointName + " payload")))
  {
    var result := Get(payload, "result");
    if !result.JObject? then Err(MarketDataError("Bybit returned malformed " + endpointName + " payload"))
    else
      var entries := Get(result.fields, "list");
      if !Truthy(entries) then Err(MarketDataError("Bybit returned empty " + endpointName + " payload"))
      else Ok(entries)
  }

  /** A list extracted from an envelope is never empty. */
  lemma ExtractedListNonEmpty(payload: Object, endpointName: string)
    requires ExtractList(payload, endpointName).Ok?
    ensures var v := ExtractList(payload, endpointName).value;
            v.JArray? ==> |v.items| > 0 && First(v) == Ok(v.items[0])
  {
  }

  // ------------------------------------------------------------------
  // Row parsing

  /** `_parse_kline`: at least five columns; volume is column 5 when present, else 0. */
  function ParseKline(raw: seq<Json>): (r: Result<Kline>)
    ensures |raw| < 5 ==> r == Err(MarketDataError("Unexpected Bybit kline payload structure"))
    ensures r.Ok? ==> |raw| >= 5 && ToInt(raw[0]) == Ok(r.value.openTime)
                      && ToDecimal(raw[1]) == Ok(r.value.open) && ToDecimal(raw[2]) == Ok(r.value.high)
                      && ToDecimal(raw[3]) == Ok(r.value.low) && ToDecimal(raw[4]) == Ok(r.value.close)
    ensures r.Ok? && |raw| > 5 ==> ToDecimal(raw[5]) == Ok(r.value.volume)
    ensures r.Ok? && |raw| == 5 ==> r.value.volume == Zero
  {
    if |raw| < 5 then Err(MarketDataError("Unexpected Bybit kline payload structure"))
    else ParseColumns(raw[0], raw[1], raw[2], raw[3], raw[4], if |raw| > 5 then raw[5] else JStr("0"))
  }

  /** The conversions `_parse_kline` applies to the six columns, in order. */
  function ParseColumns(time: Json, open: Json, high: Json, low: Json, close: Json, volume: Json): (r: Result<Kline>)
    ensures r.Ok? <==> ToInt(time).Ok? && ToDecimal(open).Ok? && ToDecimal(high).Ok?
                       && ToDecimal(low).Ok? && ToDecimal(close).Ok? && ToDecimal(volume).Ok?
    ensures r.Ok? ==> ToInt(time) == Ok(r.value.openTime)
                      && ToDecimal(open) == Ok(r.value.open) && ToDecimal(high) == Ok(r.value.high)
                      && ToDecimal(low) == Ok(r.value.low) && ToDecimal(close) == Ok(r.value.close)
                      && ToDecimal(volume) == Ok(r.value.volume)
  {
    var t :- ToInt(time);
    var o :- ToDecimal(open);
    var h :- ToDecimal(high);
    var l :- ToDecimal(low);
    var c :- ToDecimal(close);
    var v :- ToDecimal(volume);
    Ok(Kline(t, o, h, l, c, v))
  }

  /** The columns of a kline convert back to it. */
  lemma ColumnsRoundTrip(k: Kline)
    requires k.WellFormed()
    ensures ParseColumns(JInt(k.openTime), JStr(k.open.text), JStr(k.high.text), JStr(k.low.text),
                         JStr(k.close.text), JStr(k.volume.text)) == Ok(k)
  {
    ToIntOfTimestamp(k.openTime);
    DecimalFieldRoundTrip(k.open);
    DecimalFieldRoundTrip(k.high);
    DecimalFieldRoundTrip(k.low);
    DecimalFieldRoundTrip(k.close);
    DecimalFieldRoundTrip(k.volume);
  }

  /** A full row of known fields parses back to them. */
  lemma ParseKlineRoundTrip(k: Kline)
    requires k.WellFormed()
    ensures ParseKline(KlineRow(k)) == Ok(k)
  {
    var row := KlineRow(k);
    KlineRowColumns(k);
    assert ParseKline(row) == ParseColumns(row[0], row[1], row[2], row[3], row[4], row[5]);
    ColumnsRoundTrip(k);
  }

  /** Without its volume column a row still parses, with the volume read as zero. */
  lemma ParseShortKlineRoundTrip(k: Kline)
    requires k.WellFormed()
    ensures ParseKline(KlineRow(k)[..5]) == Ok(k.(volume := Zero))
  {
    assert KlineRow(k)[..5] == FiveColumns(k);
    ParseFiveColumns(k);
  }

  /** The first five columns of the row of `k`. */
  function FiveColumns(k: Kline): seq<Json> {
    [JInt(k.openTime), JStr(k.open.text), JStr(k.high.text), JStr(k.low.text), JStr(k.close.text)]
  }

  /** Five columns carrying the fields of `k` parse to `k` with a zero volume. */
  lemma ParseFiveColumns(k: Kline)
    requires k.WellFormed()
    ensures ParseKline(FiveColumns(k)) == Ok(k.(volume := Zero))
  {
    var row := FiveColumns(k);
    assert ParseKline(row) == ParseColumns(row[0], row[1], row[2], row[3], row[4], JStr("0"));
    ZeroIsDecimal();
    ColumnsRoundTrip(k.(volume := Zero));
  }

  /** A candle row as `_parse_kline` receives it: a list, or the characters of a
      string; a dict has a length but no key `0`. */
  function ParseKlineEntry(entry: Json): (r: Result<Kline>)
    ensures entry.JArray? ==> r == ParseKline(entry.items)
    ensures entry.JObject? && |entry.fields| < 5 ==> r == Err(MarketDataError("Unexpected Bybit kline payload structure"))
    ensures entry.JObject? && |entry.fields| >= 5 ==> r == Err(KeyError("0"))
    ensures !entry.JArray? && !entry.JStr? && !entry.JObject? ==> r.Err? && r.error.TypeError?
  {
    if entry.JObject? then
      if |entry.fields| < 5 then Err(MarketDataError("Unexpected Bybit kline payload structure")) else Err(KeyError("0"))
    else
      var row :- AsRow(entry);
      ParseKline(row)
  }

  /** `_parse_funding_point`: `fundingRateTimestamp`, else `timestamp`, else 0, and
      the rate. */
  function ParseFundingPoint(raw: Json): (r: Result<Point>)
    ensures !raw.JObject? ==> r.Err? && r.error.AttributeError?
    ensures r.Ok? ==> ToDecimal(Get(raw.fields, "fundingRate")) == Ok(r.value.value)
    ensures r.Ok? ==> ToInt(Or(Or(Get(raw.fields, "fundingRateTimestamp"), Get(raw.fields, "timestamp")), JInt(0)))
                      == Ok(r.value.timestamp)
  {
    var m :- AsObject(raw);
    var t :- ToInt(Or(Or(Get(m, "fundingRateTimestamp"), Get(m, "timestamp")), JInt(0)));
    var rate :- ToDecimal(Get(m, "fundingRate"));
    Ok(Point(t, rate))
  }

  /** A funding-history record as Bybit sends it. */
  function FundingEntry(p: Point): Json {
    JObject(map["fundingRateTimestamp" := JStr(IntToString(p.timestamp)), "fundingRate" := JStr(p.value.text)])
  }

  /** A funding record built from a point parses back to that point. */
  lemma ParseFundingPointRoundTrip(p: Point)
    requires IsDecimalText(p.value.text)
    ensures ParseFundingPoint(FundingEntry(p)) == Ok(p)
  {
    ToIntOfTimestamp(p.timestamp);
    DecimalFieldRoundTrip(p.value);
    assert Get(FundingEntry(p).fields, "fundingRateTimestamp") == JStr(IntToString(p.timestamp));
  }

  /** `str(raw.get(key) or "")`. */
  function TextField(m: Object, key: string): string {
    PyStr(Or(Get(m, key), JStr("")))
  }

  /** `raw.get(key) or {}` followed by `.get`: a missing filter reads as an empty one. */
  function Filter(m: Object, key: string): (r: Result<Object>)
    ensures !Truthy(Get(m, key)) ==> r == Ok(map[])
    ensures Get(m, key).JObject? ==> r == Ok(Get(m, key).fields)
  {
    AsObject(Or(Get(m, key), JObject(map[])))
  }

  /** `_parse_instrument`: strings default to "" and sizes to 0. */
  function ParseInstrument(raw: Json): (r: Result<Instrument>)
    ensures !raw.JObject? ==> r.Err? && r.error.AttributeError?
    ensures r.Ok? ==> r.value.symbol == TextField(raw.fields, "symbol")
                      && r.value.baseAsset == TextField(raw.fields, "baseCoin")
                      && r.value.quoteAsset == TextField(raw.fields, "quoteCoin")
                      && r.value.status == TextField(raw.fields, "status")
    ensures r.Ok? ==> Filter(raw.fields, "priceFilter").Ok? && Filter(raw.fields, "lotSizeFilter").Ok?
                      && var price := Filter(raw.fields, "priceFilter").value;
                      var lot := Filter(raw.fields, "lotSizeFilter").value;
                      ToDecimal(Get(price, "tickSize")) == Ok(r.value.tickSize)
                      && ToDecimal(Get(lot, "qtyStep")) == Ok(r.value.stepSize)
                      && ToDecimal(Get(lot, "minOrderQty")) == Ok(r.value.minQty)
                      && ToDecimal(Get(lot, "maxOrderQty")) == Ok(r.value.maxQty)
    ensures raw.JObject? && Truthy(Get(raw.fields, "priceFilter")) && !Get(raw.fields, "priceFilter").JObject? ==>
              r.Err? && r.error.AttributeError?
    ensures raw.JObject? && Filter(raw.fields, "priceFilter").Ok?
            && ToDecimal(Get(Filter(raw.fields, "priceFilter").value, "tickSize")).Ok?
            && Truthy(Get(raw.fields, "lotSizeFilter")) && !Get(raw.fields, "lotSizeFilter").JObject? ==>
              r.Err? && r.error.AttributeError?
    ensures raw.JObject? && !Truthy(Get(raw.fields, "priceFilter")) && !Truthy(Get(raw.fields, "lotSizeFilter")) ==>
              r.Ok? && r.value.tickSize == Zero && r.value.stepSize == Zero
              && r.value.minQty == Zero && r.value.maxQty == Zero
  {
    var m :- AsObject(raw);
    var priceFilter :- Filter(m, "priceFilter");
    var tick :- ToDecimal(Get(priceFilter, "tickSize"));
    var lotFilter :- Filter(m, "lotSizeFilter");
    var step :- ToDecimal(Get(lotFilter, "qtyStep"));
    var minQty :- ToDecimal(Get(lotFilter, "minOrderQty"));
    var maxQty :- ToDecimal(Get(lotFilter, "maxOrderQty"));
    Ok(Instrument(TextField(m, "symbol"), TextField(m, "baseCoin"), TextField(m, "quoteCoin"),
                  tick, step, minQty, maxQty, TextField(m, "status")))
  }

  /** An instrument entry with no fields at all still parses, to empty strings and
      zero sizes. */
  lemma EmptyInstrumentParses()
    ensures ParseInstrument(JObject(map[])) == Ok(Instrument("", "", "", Zero, Zero, Zero, Zero, ""))
  {
  }

  /** An instrument record as Bybit sends it, with both filters present. */
  function InstrumentEntry(i: Instrument): Json {
    JObject(map["symbol" := JStr(i.symbol), "baseCoin" := JStr(i.baseAsset), "quoteCoin" := JStr(i.quoteAsset),
                "status" := JStr(i.status),
                "priceFilter" := JObject(map["tickSize" := JStr(i.tickSize.text)]),
                "lotSizeFilter" := JObject(map["qtyStep" := JStr(i.stepSize.text), "minOrderQty" := JStr(i.minQty.text),
                                               "maxOrderQty" := JStr(i.maxQty.text)])])
  }

  /** What `.get` reads from a built instrument record and its filters. */
  lemma InstrumentEntryFields(i: Instrument)
    ensures var m := InstrumentEntry(i).fields;
            TextField(m, "symbol") == i.symbol && TextField(m, "baseCoin") == i.baseAsset
            && TextField(m, "quoteCoin") == i.quoteAsset && TextField(m, "status") == i.status
            && Filter(m, "priceFilter") == Ok(map["tickSize" := JStr(i.tickSize.text)])
            && Filter(m, "lotSizeFilter") == Ok(map["qtyStep" := JStr(i.stepSize.text), "minOrderQty" := JStr(i.minQty.text),
                                                    "maxOrderQty" := JStr(i.maxQty.text)])
  {
  }

  /** An instrument record built from an instrument whose sizes spell decimals
      parses back to it; the strings come back whatever they are. */
  lemma ParseInstrumentRoundTrip(i: Instrument)
    requires IsDecimalText(i.tickSize.text) && IsDecimalText(i.stepSize.text)
    requires IsDecimalText(i.minQty.text) && IsDecimalText(i.maxQty.text)
    ensures ParseInstrument(InstrumentEntry(i)) == Ok(i)
  {
    InstrumentEntryFields(i);
    var lot := map["qtyStep" := JStr(i.stepSize.text), "minOrderQty" := JStr(i.minQty.text),
                   "maxOrderQty" := JStr(i.maxQty.text)];
    assert Get(map["tickSize" := JStr(i.tickSize.text)], "tickSize") == JStr(i.tickSize.text);
    assert Get(lot, "qtyStep") == JStr(i.stepSize.text) && Get(lot, "minOrderQty") == JStr(i.minQty.text);
    assert Get(lot, "maxOrderQty") == JStr(i.maxQty.text);
    DecimalFieldRoundTrip(i.tickSize);
    DecimalFieldRoundTrip(i.stepSize);
    DecimalFieldRoundTrip(i.minQty);
    DecimalFieldRoundTrip(i.maxQty);
  }

  /** `_infer_timestamp`: the ticker's `timestamp`, else its `ts`, else a non-zero
      server time, else the clock. */
  function InferTimestamp(ticker: Object, serverTime: int, now: int): (r: Result<int>)
    ensures Truthy(Get(ticker, "timestamp")) ==> r == ToInt(Get(ticker, "timestamp"))
    ensures !Truthy(Get(ticker, "timestamp")) && Truthy(Get(ticker, "ts")) ==> r == ToInt(Get(ticker, "ts"))
    ensures !Truthy(Get(ticker, "timestamp")) && !Truthy(Get(ticker, "ts")) ==>
              r == Ok(if serverTime != 0 then serverTime else now)
  {
    var candidate := Or(Get(ticker, "timestamp"), Get(ticker, "ts"));
    if Truthy(candidate) then ToInt(candidate)
    else if serverTime != 0 then Ok(serverTime)
    else Ok(now)
  }

  // ------------------------------------------------------------------
  // Historical series

  function FeedEndpoint(feed: KlineFeed): string {
    match feed
    case PriceFeed => PRICE_KLINES_ENDPOINT
    case IndexFeed => INDEX_PRICE_KLINES_ENDPOINT
    case MarkFeed => MARK_PRICE_KLINES_ENDPOINT
    case PremiumFeed => PREMIUM_INDEX_KLINES_ENDPOINT
  }

  function FeedMaxLimit(feed: KlineFeed): int {
    match feed
    case PriceFeed => PRICE_KLINES_MAX_LIMIT
    case IndexFeed => INDEX_KLINES_MAX_LIMIT
    case MarkFeed => MARK_PRICE_KLINES_MAX_LIMIT
    case PremiumFeed => PREMIUM_INDEX_KLINES_MAX_LIMIT
  }

  function FeedEndpointName(feed: KlineFeed): string {
    match feed
    case PriceFeed => "price klines"
    case IndexFeed => "index price klines"
    case MarkFeed => "mark price klines"
    case PremiumFeed => "premium index klines"
  }

  /** `_fetch_kline_series`: parameters, request, then the envelope's list. */
  function FetchKlineSeries(endpoint: string, q: HistoricalWindow, maxLimit: int, endpointName: string, reply: Reply)
    : (r: Result<Json>)
    ensures HistoricalParams(q, maxLimit, endpointName).Err? ==> r == Err(HistoricalParams(q, maxLimit, endpointName).error)
    ensures HistoricalParams(q, maxLimit, endpointName).Ok? && Request(endpoint, reply).Err? ==>
              r == Err(Request(endpoint, reply).error)
    ensures HistoricalParams(q, maxLimit, endpointName).Ok? && Request(endpoint, reply).Ok? ==>
              r == ExtractList(Request(endpoint, reply).value, endpointName)
    ensures r.Ok? ==> Truthy(r.value)
  {
    var _ :- HistoricalParams(q, maxLimit, endpointName);
    var payload :- Request(endpoint, reply);
    ExtractList(payload, endpointName)
  }

  /** The four candle feeds: every row parsed, in the order Bybit sends them (newest
      first, by Bybit's convention); no sorting. */
  function Klines(q: HistoricalWindow, feed: KlineFeed, reply: Reply): (r: Result<seq<Kline>>)
    ensures q.interval == Day3 ==> r.Err? && r.error.IntervalNotSupported?
    ensures var rows := FetchKlineSeries(FeedEndpoint(feed), q, FeedMaxLimit(feed), FeedEndpointName(feed), reply);
            && (rows.Err? ==> r == Err(rows.error))
            && (rows.Ok? && rows.value.JArray? ==> r == MapAll(rows.value.items, ParseKlineEntry))
    ensures r.Ok? ==> |r.value| > 0
  {
    var entries :- FetchKlineSeries(FeedEndpoint(feed), q, FeedMaxLimit(feed), FeedEndpointName(feed), reply);
    var items :- Elements(entries);
    MapAll(items, ParseKlineEntry)
  }

  /** `get_funding_rate_history`. */
  function FundingRateHistory(q: FundingRateWindow, reply: Reply): (r: Result<seq<Point>>)
    ensures FundingParams(q, FUNDING_RATE_MAX_LIMIT).Err? ==> r == Err(FundingParams(q, FUNDING_RATE_MAX_LIMIT).error)
    ensures FundingParams(q, FUNDING_RATE_MAX_LIMIT).Ok? && Request(FUNDING_HISTORY_ENDPOINT, reply).Err? ==>
              r == Err(Request(FUNDING_HISTORY_ENDPOINT, reply).error)
    ensures FundingParams(q, FUNDING_RATE_MAX_LIMIT).Ok? && Request(FUNDING_HISTORY_ENDPOINT, reply).Ok? ==>
              var list := ExtractList(Request(FUNDING_HISTORY_ENDPOINT, reply).value, "funding history");
              (list.Err? ==> r == Err(list.error))
              && (list.Ok? && Elements(list.value).Err? ==> r == Err(Elements(list.value).error))
              && (list.Ok? && Elements(list.value).Ok? ==> r == MapAll(Elements(list.value).value, ParseFundingPoint))
    ensures r.Ok? ==> |r.value| > 0
  {
    var _ :- FundingParams(q, FUNDING_RATE_MAX_LIMIT);
    var payload :- Request(FUNDING_HISTORY_ENDPOINT, reply);
    var entries :- ExtractList(payload, "funding history");
    var items :- Elements(entries);
    MapAll(items, ParseFundingPoint)
  }

  // ------------------------------------------------------------------
  // Latest snapshots

  /** `_fetch_ticker`: the first list entry and the envelope's `time` (else 0). */
  function FetchTicker(s: Symbol, reply: Reply): (r: Result<(Json, int)>)
    ensures Request(TICKERS_ENDPOINT, reply).Err? ==> r == Err(Request(TICKERS_ENDPOINT, reply).error)
    ensures r.Ok? ==> Request(TICKERS_ENDPOINT, reply).Ok?
                      && var p := Request(TICKERS_ENDPOINT, reply).value;
                      ExtractList(p, "ticker").Ok? && First(ExtractList(p, "ticker").value) == Ok(r.value.0)
                      && ToInt(Or(Get(p, "time"), JInt(0))) == Ok(r.value.1)
  {
    var payload :- Request(TICKERS_ENDPOINT, reply);
    var entries :- ExtractList(payload, "ticker");
    var ticker :- First(entries);
    var serverTime :- ToInt(Or(Get(payload, "time"), JInt(0)));
    Ok((ticker, serverTime))
  }

  /** `get_latest_price`: `(timestamp, price)`. */
  function LatestPrice(s: Symbol, now: int, reply: Reply): (r: Result<Point>)
    ensures FetchTicker(s, reply).Err? ==> r == Err(FetchTicker(s, reply).error)
    ensures r.Ok? ==> FetchTicker(s, reply).Ok? && FetchTicker(s, reply).value.0.JObject?
                      && var t := FetchTicker(s, reply).value;
                      ToDecimal(Get(t.0.fields, "lastPrice")) == Ok(r.value.value)
                      && InferTimestamp(t.0.fields, t.1, now) == Ok(r.value.timestamp)
    ensures FetchTicker(s, reply).Ok? ==>
              var t := FetchTicker(s, reply).value;
              (!t.0.JObject? ==> r.Err? && r.error.AttributeError?)
              && (t.0.JObject? ==>
                    var price := ToDecimal(Get(t.0.fields, "lastPrice"));
                    var time := InferTimestamp(t.0.fields, t.1, now);
                    (price.Err? ==> r == Err(price.error))
                    && (price.Ok? && time.Err? ==> r == Err(time.error))
                    && (price.Ok? && time.Ok? ==> r == Ok(Point(time.value, price.value))))
  {
    var ticker :- FetchTicker(s, reply);
    var m :- AsObject(ticker.0);
    var price :- ToDecimal(Get(m, "lastPrice"));
    var timestamp :- InferTimestamp(m, ticker.1, now);
    Ok(Point(timestamp, price))
  }

  /** `get_latest_mark_price`: one ticker request; the next funding time defaults to 0. */
  function LatestMarkPrice(s: Symbol, reply: Reply): (r: Result<MarkSnapshot>)
    ensures FetchTicker(s, reply).Err? ==> r == Err(FetchTicker(s, reply).error)
    ensures r.Ok? ==> FetchTicker(s, reply).Ok? && FetchTicker(s, reply).value.0.JObject?
                      && var t := FetchTicker(s, reply).value.0.fields;
                      ToDecimal(Get(t, "markPrice")) == Ok(r.value.markPrice)
                      && ToDecimal(Get(t, "indexPrice")) == Ok(r.value.indexPrice)
                      && ToDecimal(Get(t, "fundingRate")) == Ok(r.value.fundingRate)
                      && ToInt(Or(Get(t, "nextFundingTime"), JInt(0))) == Ok(r.value.nextFundingTime)
  {
    var ticker :- FetchTicker(s, reply);
    var m :- AsObject(ticker.0);
    var markPrice :- ToDecimal(Get(m, "markPrice"));
    var indexPrice :- ToDecimal(Get(m, "indexPrice"));
    var fundingRate :- ToDecimal(Get(m, "fundingRate"));
    var nextFunding :- ToInt(Or(Get(m, "nextFundingTime"), JInt(0)));
    Ok(MarkSnapshot(markPrice, indexPrice, fundingRate, nextFunding))
  }

  /** `get_latest_index_price`: `(timestamp, index_price)`. */
  function LatestIndexPrice(s: Symbol, now: int, reply: Reply): (r: Result<Point>)
    ensures FetchTicker(s, reply).Err? ==> r == Err(FetchTicker(s, reply).error)
    ensures r.Ok? ==> FetchTicker(s, reply).Ok? && FetchTicker(s, reply).value.0.JObject?
                      && var t := FetchTicker(s, reply).value;
                      ToDecimal(Get(t.0.fields, "indexPrice")) == Ok(r.value.value)
                      && InferTimestamp(t.0.fields, t.1, now) == Ok(r.value.timestamp)
    ensures FetchTicker(s, reply).Ok? ==>
              var t := FetchTicker(s, reply).value;
              (!t.0.JObject? ==> r.Err? && r.error.AttributeError?)
              && (t.0.JObject? ==>
                    var price := ToDecimal(Get(t.0.fields, "indexPrice"));
                    var time := InferTimestamp(t.0.fields, t.1, now);
                    (price.Err? ==> r == Err(price.error))
                    && (price.Ok? && time.Err? ==> r == Err(time.error))
                    && (price.Ok? && time.Ok? ==> r == Ok(Point(time.value, price.value))))
  {
    var ticker :- FetchTicker(s, reply);
    var m :- AsObject(ticker.0);
    var indexPrice :- ToDecimal(Get(m, "indexPrice"));
    var timestamp :- InferTimestamp(m, ticker.1, now);
    Ok(Point(timestamp, indexPrice))
  }

  /** `get_latest_premium_index`: the first row of a one-candle premium request,
      as `(open_time, close)`. */
  function LatestPremiumIndex(s: Symbol, reply: Reply): (r: Result<Point>)
    ensures var rows := FetchKlineSeries(PREMIUM_INDEX_KLINES_ENDPOINT, HistoricalWindow(s, Minute1, None, None, 1),
                                         PREMIUM_INDEX_KLINES_MAX_LIMIT, "premium index klines", reply);
            && (rows.Err? ==> r == Err(rows.error))
            && (r.Ok? ==> rows.Ok? && First(rows.value).Ok? && ParseKlineEntry(First(rows.value).value).Ok?
                          && var k := ParseKlineEntry(First(rows.value).value).value;
                          r.value == Point(k.openTime, k.close))
    ensures var rows := FetchKlineSeries(PREMIUM_INDEX_KLINES_ENDPOINT, HistoricalWindow(s, Minute1, None, None, 1),
                                         PREMIUM_INDEX_KLINES_MAX_LIMIT, "premium index klines", reply);
            rows.Ok? ==>
              var first := First(rows.value);
              (first.Err? ==> r == Err(first.error))
              && (first.Ok? ==>
                    var k := ParseKlineEntry(first.value);
                    (k.Err? ==> r == Err(k.error))
                    && (k.Ok? ==> r == Ok(Point(k.value.openTime, k.value.close))))
  {
    // A one-row window without bounds always passes the window checks.
    var window := HistoricalWindow(s, Minute1, None, None, 1);
    var data :- FetchKlineSeries(PREMIUM_INDEX_KLINES_ENDPOINT, window, PREMIUM_INDEX_KLINES_MAX_LIMIT,
                                 "premium index klines", reply);
    var first :- First(data);
    var latest :- ParseKlineEntry(first);
    Ok(Point(latest.openTime, latest.close))
  }

  /** `get_latest_funding_rate`: the first point of a one-entry history. */
  function LatestFundingRate(s: Symbol, reply: Reply): (r: Result<Point>)
    ensures var h := FundingRateHistory(FundingRateWindow(s, None, None, 1), reply);
            && (h.Err? ==> r == Err(h.error))
            && (h.Ok? ==> r == Ok(h.value[0]))
  {
    var history :- FundingRateHistory(FundingRateWindow(s, None, None, 1), reply);
    if |history| == 0 then Err(MarketDataError("Bybit returned empty funding rate history"))
    else Ok(history[0])
  }

  /** `get_open_interest`: read from the ticker, valued in quote currency
      (`openInterestValue`) when present, else in contracts (`openInterest`). */
  function OpenInterest(s: Symbol, now: int, reply: Reply): (r: Result<Point>)
    ensures FetchTicker(s, reply).Err? ==> r == Err(FetchTicker(s, reply).error)
    ensures r.Ok? ==> FetchTicker(s, reply).Ok? && FetchTicker(s, reply).value.0.JObject?
                      && var t := FetchTicker(s, reply).value;
                      var m := t.0.fields;
                      InferTimestamp(m, t.1, now) == Ok(r.value.timestamp)
                      && (Truthy(Get(m, "openInterestValue")) ==> ToDecimal(Get(m, "openInterestValue")) == Ok(r.value.value))
                      && (!Truthy(Get(m, "openInterestValue")) ==> ToDecimal(Get(m, "openInterest")) == Ok(r.value.value))
    ensures FetchTicker(s, reply).Ok? ==>
              var t := FetchTicker(s, reply).value;
              (!t.0.JObject? ==> r.Err? && r.error.AttributeError?)
              && (t.0.JObject? ==>
                    var time := InferTimestamp(t.0.fields, t.1, now);
                    var value := ToDecimal(Or(Get(t.0.fields, "openInterestValue"), Get(t.0.fields, "openInterest")));
                    (time.Err? ==> r == Err(time.error))
                    && (time.Ok? && value.Err? ==> r == Err(value.error))
                    && (time.Ok? && value.Ok? ==> r == Ok(Point(time.value, value.value))))
  {
    var ticker :- FetchTicker(s, reply);
    var m :- AsObject(ticker.0);
    var timestamp :- InferTimestamp(m, ticker.1, now);
    var value :- ToDecimal(Or(Get(m, "openInterestValue"), Get(m, "openInterest")));
    Ok(Point(timestamp, value))
  }

  /** `get_instruments`: every listed entry, in order. */
  function Instruments(reply: Reply): (r: Result<seq<Instrument>>)
    ensures Request(INSTRUMENTS_ENDPOINT, reply).Err? ==> r == Err(Request(INSTRUMENTS_ENDPOINT, reply).error)
    ensures r.Ok? ==> |r.value| > 0
    ensures Request(INSTRUMENTS_ENDPOINT, reply).Ok? ==>
              var list := ExtractList(Request(INSTRUMENTS_ENDPOINT, reply).value, "instruments");
              list.Ok? && list.value.JArray? ==> r == MapAll(list.value.items, ParseInstrument)
  {
    var payload :- Request(INSTRUMENTS_ENDPOINT, reply);
    var entries :- ExtractList(payload, "instruments");
    var items :- Elements(entries);
    MapAll(items, ParseInstrument)
  }

  // ------------------------------------------------------------------
  // Round trips through a reply

  /** The body of a successful Bybit reply: retCode 0, the records under
      `result.list`, and the server time. */
  function SuccessBody(items: seq<Json>, serverTime: int): Object {
    map["retCode" := JInt(0), "retMsg" := JStr("OK"), "result" := JObject(map["list" := JArray(items)]),
        "time" := JInt(serverTime)]
  }

  function SuccessReply(items: seq<Json>, serverTime: int): Reply {
    Response(200, Some(JObject(SuccessBody(items, serverTime))))
  }

  /** A success envelope passes `_request` on any path, and its non-empty list is
      what `_extract_list` returns. */
  lemma SuccessReplyAccepted(path: string, items: seq<Json>, serverTime: int, endpointName: string)
    requires |items| > 0
    ensures Request(path, SuccessReply(items, serverTime)) == Ok(SuccessBody(items, serverTime))
    ensures ExtractList(SuccessBody(items, serverTime), endpointName) == Ok(JArray(items))
  {
    var p := SuccessBody(items, serverTime);
    assert Get(p, "retCode") == JInt(0);
    assert Get(p, "result") == JObject(map["list" := JArray(items)]);
  }

  /** `_fetch_ticker` on a success reply listing one ticker gives that ticker and
      the reply's server time. */
  lemma FetchTickerOfReply(s: Symbol, ticker: Json, serverTime: int)
    ensures FetchTicker(s, SuccessReply([ticker], serverTime)) == Ok((ticker, serverTime))
  {
    SuccessReplyAccepted(TICKERS_ENDPOINT, [ticker], serverTime, "ticker");
    assert Get(SuccessBody([ticker], serverTime), "time") == JInt(serverTime);
    ToIntOfTimestamp(serverTime);
  }

  /** A linear ticker as Bybit sends it, carrying the fields of a mark snapshot. */
  function MarkTicker(m: MarkSnapshot): Json {
    JObject(map["markPrice" := JStr(m.markPrice.text), "indexPrice" := JStr(m.indexPrice.text),
                "fundingRate" := JStr(m.fundingRate.text), "nextFundingTime" := JStr(IntToString(m.nextFundingTime))])
  }

  /** A ticker reply built from a mark snapshot yields that snapshot. */
  lemma LatestMarkPriceRoundTrip(s: Symbol, m: MarkSnapshot, serverTime: int)
    requires IsDecimalText(m.markPrice.text) && IsDecimalText(m.indexPrice.text) && IsDecimalText(m.fundingRate.text)
    ensures LatestMarkPrice(s, SuccessReply([MarkTicker(m)], serverTime)) == Ok(m)
  {
    FetchTickerOfReply(s, MarkTicker(m), serverTime);
    ToIntOfTimestamp(m.nextFundingTime);
    DecimalFieldRoundTrip(m.markPrice);
    DecimalFieldRoundTrip(m.indexPrice);
    DecimalFieldRoundTrip(m.fundingRate);
    var t := MarkTicker(m).fields;
    assert Get(t, "markPrice") == JStr(m.markPrice.text) && Get(t, "indexPrice") == JStr(m.indexPrice.text);
    assert Get(t, "fundingRate") == JStr(m.fundingRate.text);
    assert Get(t, "nextFundingTime") == JStr(IntToString(m.nextFundingTime));
  }

  /** The funding records of a series of points, in order. */
  function FundingEntries(ps: seq<Point>): (r: seq<Json>)
    ensures |r| == |ps| && forall i :: 0 <= i < |ps| ==> r[i] == FundingEntry(ps[i])
  {
    seq(|ps|, i requires 0 <= i < |ps| => FundingEntry(ps[i]))
  }

  /** A funding-history reply listing a series of points yields that series, in the
      order sent, whenever the window is accepted. */
  lemma FundingRateHistoryRoundTrip(q: FundingRateWindow, ps: seq<Point>, serverTime: int)
    requires |ps| > 0 && forall i :: 0 <= i < |ps| ==> IsDecimalText(ps[i].value.text)
    requires FundingParams(q, FUNDING_RATE_MAX_LIMIT).Ok?
    ensures FundingRateHistory(q, SuccessReply(FundingEntries(ps), serverTime)) == Ok(ps)
  {
    SuccessReplyAccepted(FUNDING_HISTORY_ENDPOINT, FundingEntries(ps), serverTime, "funding history");
    forall i | 0 <= i < |ps| ensures ParseFundingPoint(FundingEntries(ps)[i]) == Ok(ps[i]) {
      ParseFundingPointRoundTrip(ps[i]);
    }
    MapAllOk(FundingEntries(ps), ParseFundingPoint, ps);
  }

  /** The instrument records of a series of instruments, in order. */
  function InstrumentEntries(xs: seq<Instrument>): (r: seq<Json>)
    ensures |r| == |xs| && forall i :: 0 <= i < |xs| ==> r[i] == InstrumentEntry(xs[i])
  {
    seq(|xs|, i requires 0 <= i < |xs| => InstrumentEntry(xs[i]))
  }

  /** An instrument listing yields exactly the listed instruments, in order. */
  lemma InstrumentsRoundTrip(xs: seq<Instrument>, serverTime: int)
    requires |xs| > 0
    requires forall i :: 0 <= i < |xs| ==> IsDecimalText(xs[i].tickSize.text) && IsDecimalText(xs[i].stepSize.text)
                                           && IsDecimalText(xs[i].minQty.text) && IsDecimalText(xs[i].maxQty.text)
    ensures Instruments(SuccessReply(InstrumentEntries(xs), serverTime)) == Ok(xs)
  {
    SuccessReplyAccepted(INSTRUMENTS_ENDPOINT, InstrumentEntries(xs), serverTime, "instruments");
    forall i | 0 <= i < |xs| ensures ParseInstrument(InstrumentEntries(xs)[i]) == Ok(xs[i]) {
      ParseInstrumentRoundTrip(xs[i]);
    }
    MapAllOk(InstrumentEntries(xs), ParseInstrument, xs);
  }

  /** A linear ticker carrying a value under `field` and its own time. */
  function TimedTicker(field: string, p: Point): Json {
    JObject(map["timestamp" := JStr(IntToString(p.timestamp)), field := JStr(p.value.text)])
  }

  /** A ticker reply carrying a value under `field` with its time gives back that
      value and time, whatever the server time and the clock. */
  lemma TimedTickerFields(s: Symbol, field: string, p: Point, serverTime: int, now: int)
    requires IsDecimalText(p.value.text) && field != "timestamp"
    ensures FetchTicker(s, SuccessReply([TimedTicker(field, p)], serverTime)) == Ok((TimedTicker(field, p), serverTime))
    ensures ToDecimal(Get(TimedTicker(field, p).fields, field)) == Ok(p.value)
    ensures InferTimestamp(TimedTicker(field, p).fields, serverTime, now) == Ok(p.timestamp)
  {
    FetchTickerOfReply(s, TimedTicker(field, p), serverTime);
    ToIntOfTimestamp(p.timestamp);
    DecimalFieldRoundTrip(p.value);
    var m := TimedTicker(field, p).fields;
    assert Get(m, "timestamp") == JStr(IntToString(p.timestamp)) && Get(m, field) == JStr(p.value.text);
  }

  /** A ticker reply carrying a last price and its time yields exactly them. */
  lemma LatestPriceRoundTrip(s: Symbol, p: Point, serverTime: int, now: int)
    requires IsDecimalText(p.value.text)
    ensures LatestPrice(s, now, SuccessReply([TimedTicker("lastPrice", p)], serverTime)) == Ok(p)
  {
    TimedTickerFields(s, "lastPrice", p, serverTime, now);
  }

  /** A ticker reply carrying an index price and its time yields exactly them. */
  lemma LatestIndexPriceRoundTrip(s: Symbol, p: Point, serverTime: int, now: int)
    requires IsDecimalText(p.value.text)
    ensures LatestIndexPrice(s, now, SuccessReply([TimedTicker("indexPrice", p)], serverTime)) == Ok(p)
  {
    TimedTickerFields(s, "indexPrice", p, serverTime, now);
  }

  /** A ticker reply carrying an open-interest value and its time yields exactly them. */
  lemma OpenInterestRoundTrip(s: Symbol, p: Point, serverTime: int, now: int)
    requires IsDecimalText(p.value.text)
    ensures OpenInterest(s, now, SuccessReply([TimedTicker("openInterestValue", p)], serverTime)) == Ok(p)
  {
    TimedTickerFields(s, "openInterestValue", p, serverTime, now);
    DecimalTextNonEmpty(p.value.text);
  }

  /** A premium reply whose only row is a kline yields that kline's open time and close. */
  lemma LatestPremiumIndexRoundTrip(s: Symbol, k: Kline, serverTime: int)
    requires k.WellFormed()
    ensures LatestPremiumIndex(s, SuccessReply([JArray(KlineRow(k))], serverTime)) == Ok(Point(k.openTime, k.close))
  {
    PremiumRowFetched(s, JArray(KlineRow(k)), serverTime);
    ParseKlineRoundTrip(k);
    assert ParseKlineEntry(JArray(KlineRow(k))) == Ok(k);
  }

  /** The one-row premium request on a success reply listing one row yields that
      row as the whole list. */
  lemma PremiumRowFetched(s: Symbol, row: Json, serverTime: int)
    ensures FetchKlineSeries(PREMIUM_INDEX_KLINES_ENDPOINT, HistoricalWindow(s, Minute1, None, None, 1),
                             PREMIUM_INDEX_KLINES_MAX_LIMIT, "premium index klines", SuccessReply([row], serverTime))
            == Ok(JArray([row]))
  {
    SuccessReplyAccepted(PREMIUM_INDEX_KLINES_ENDPOINT, [row], serverTime, "premium index klines");
    assert HistoricalParams(HistoricalWindow(s, Minute1, None, None, 1), PREMIUM_INDEX_KLINES_MAX_LIMIT,
                            "premium index klines").Ok?;
  }
}

=== FILE: coordinator.dfy ===
/** The client's per-exchange source cache (market_data_fetch/core/coordinator.py).
    The resolver, by default the registry's `create`, may fail; a failure is not
    cached. A lookup returns the source together with the client's next state. */
module Coordinator {
  import opened Errors
  import opened Shared
  import Registry

  datatype Client<S> = Client(sources: map<Exchange, S>, resolver: Exchange -> Result<S>)

  /** The outcome of `_get_source` and the client after it. */
  datatype Lookup<S> = Lookup(source: Result<S>, client: Client<S>)

  /** `MarketDataClient(source_overrides=..., resolver=...)`: the overrides, when
      given, are in the cache from the start. */
  function NewClient<S>(overrides: Option<map<Exchange, S>>, resolver: Exchange -> Result<S>): (c: Client<S>)
    ensures overrides.Some? ==> c.sources == overrides.value
    ensures overrides.None? ==> c.sources == map[]
    ensures c.resolver == resolver
  {
    Client(if overrides.Some? then overrides.value else map[], resolver)
  }

  /** The default resolver: create a source from the registry. */
  function RegistryResolver<S>(reg: Registry.Registry<S>): Exchange -> Result<S> {
    e => Registry.Create(reg, e)
  }

  /** `_get_source`: a cached source is returned as is; otherwise the resolver is
      asked once and a source it produces is stored under that exchange only. */
  function GetSource<S>(c: Client<S>, exchange: Exchange): (r: Lookup<S>)
    ensures exchange in c.sources ==> r == Lookup(Ok(c.sources[exchange]), c)
    ensures exchange !in c.sources && c.resolver(exchange).Err? ==> r == Lookup(c.resolver(exchange), c)
    ensures exchange !in c.sources && c.resolver(exchange).Ok? ==>
              r.source == c.resolver(exchange)
              && r.client == c.(sources := c.sources[exchange := c.resolver(exchange).value])
    ensures r.client.resolver == c.resolver
    ensures r.client.sources.Keys == c.sources.Keys + (if r.source.Ok? then {exchange} else {})
    ensures forall e :: e in c.sources ==> e in r.client.sources && r.client.sources[e] == c.sources[e]
  {
    if exchange in c.sources then Lookup(Ok(c.sources[exchange]), c)
    else
      match c.resolver(exchange)
      case Err(error) => Lookup(Err(error), c)
      case Ok(source) => Lookup(Ok(source), c.(sources := c.sources[exchange := source]))
  }

  /** A hit does not consult the resolver: any other resolver gives the same answer. */
  lemma HitIgnoresResolver<S>(c: Client<S>, exchange: Exchange, other: Exchange -> Result<S>)
    requires exchange in c.sources
    ensures GetSource(c.(resolver := other), exchange).source == GetSource(c, exchange).source
  {
  }

  /** Memoisation: after a successful lookup, looking the same exchange up again
      returns the same source and leaves the client unchanged. */
  lemma LookupMemoised<S>(c: Client<S>, exchange: Exchange)
    requires GetSource(c, exchange).source.Ok?
    ensures var first := GetSource(c, exchange);
            GetSource(first.client, exchange) == Lookup(first.source, first.client)
  {
  }

  /** An override is served without resolving, even with a resolver that always
      fails. */
  lemma OverridesServed<S>(overrides: map<Exchange, S>, exchange: Exchange, resolver: Exchange -> Result<S>)
    requires exchange in overrides
    ensures GetSource(NewClient(Some(overrides), resolver), exchange).source == Ok(overrides[exchange])
  {
  }

  /** With the default resolver, an exchange missing from the registry fails with
      the registry's error and is not cached, so a later registration can still be
      picked up. */
  lemma DefaultResolverFailure<S>(reg: Registry.Registry<S>, exchange: Exchange)
    requires exchange !in reg.factories
    ensures var r := GetSource(NewClient(None, RegistryResolver(reg)), exchange);
            r.source == Err(ValueError("No USDT perp source registered for " + exchange.Id()))
            && r.client.sources == map[]
  {
  }
}

=== FILE: errors.dfy ===
/** The library's exception taxonomy (market_data_fetch/core/errors.py), the built-in
    Python exceptions that can escape an adapter, and the Result type every fallible
    operation of the model returns instead of raising. */
module Errors {

  /** An optional value; the model's stand-in for a Python value that may be `None`. */
  datatype Option<T> = None | Some(value: T)

  /** One variant per exception class an adapter call can end with.
      The first four are the library's own hierarchy: every one of them is a
      `MarketDataError` in Python (see IsMarketDataError). The remaining ones are
      built-in Python classes that escape from `int()`, `Decimal()`, `dict[...]`,
      `.get` on a non-dict, or from the library's own argument checks (ValueError). */
  datatype Error =
    | MarketDataError(message: string)
    | SymbolNotSupported(message: string)
    | IntervalNotSupported(message: string)
    | ExchangeTransient(message: string)
    | ValueError(message: string)
    | TypeError(message: string)
    | KeyError(message: string)
    | IndexError(message: string)
    | AttributeError(message: string)
    | InvalidOperation(message: string)

  /** True for the classes that derive from `MarketDataError` in the source. */
  predicate IsMarketDataError(e: Error) {
    e.MarketDataError? || e.SymbolNotSupported? || e.IntervalNotSupported? || e.ExchangeTransient?
  }

  /** The transient class: "safe to retry after backoff". */
  predicate IsRetryable(e: Error) {
    e.ExchangeTransient?
  }

  /** Either a value or the exception the source would raise. Usable with `:-`. */
  datatype Result<T> = Ok(value: T) | Err(error: Error) {
    predicate IsFailure() { Err? }

    function PropagateFailure<U>(): Result<U>
      requires Err?
    {
      Err(error)
    }

    function Extract(): T
      requires Ok?
    {
      value
    }
  }

  /** Python's `[f(x) for x in xs]`: the first element whose conversion raises
      aborts the whole list with that exception; otherwise every element is converted. */
  function MapAll<A, B>(xs: seq<A>, f: A -> Result<B>): (r: Result<seq<B>>)
    ensures r.Ok? <==> forall i :: 0 <= i < |xs| ==> f(xs[i]).Ok?
    ensures r.Ok? ==> |r.value| == |xs| && forall i :: 0 <= i < |xs| ==> r.value[i] == f(xs[i]).value
    ensures r.Err? ==> exists i :: 0 <= i < |xs| && f(xs[i]).Err? && r.error == f(xs[i]).error
                                   && forall j :: 0 <= j < i ==> f(xs[j]).Ok?
  {
    if |xs| == 0 then Ok([])
    else
      match f(xs[0])
      case Err(e) => Err(e)
      case Ok(y) =>
        match MapAll(xs[1..], f)
        case Err(e) =>
          assert forall j :: 0 <= j < |xs| - 1 ==> xs[1..][j] == xs[j + 1];
          Err(e)
        case Ok(ys) => Ok([y] + ys)
  }

  /** When every element converts to the matching element of `ys`, the whole list
      converts to `ys`. */
  lemma MapAllOk<A, B>(xs: seq<A>, f: A -> Result<B>, ys: seq<B>)
    requires |xs| == |ys| && forall i :: 0 <= i < |xs| ==> f(xs[i]) == Ok(ys[i])
    ensures MapAll(xs, f) == Ok(ys)
  {
    var r := MapAll(xs, f);
    assert r.Ok?;
    assert forall i :: 0 <= i < |ys| ==> r.value[i] == ys[i];
    assert r.value == ys;
  }

  /** Mapping over a sequence with a converting head is converting the head and
      then mapping over the rest. */
  lemma MapAllCons<A, B>(x: A, xs: seq<A>, f: A -> Result<B>)
    requires f(x).Ok?
    ensures MapAll([x] + xs, f) == if MapAll(xs, f).Ok? then Ok([f(x).value] + MapAll(xs, f).value) else MapAll(xs, f)
  {
    assert ([x] + xs)[0] == x;
    assert ([x] + xs)[1..] == xs;
  }
}

=== FILE: http.dfy ===
/** The HTTP boundary of every adapter. The session call itself is not modelled: an
    operation receives the outcome of its GET as a parameter, and builds the query
    parameters it would send. */
module Http {
  import opened Errors
  import opened Json

  /** The outcome of `session.get`: the call raised a `requests` exception, or a
      response arrived whose body either decodes as JSON or does not (None). */
  datatype Reply =
    | NetworkFailure(detail: string)
    | Response(status: int, body: Option<Json>)

  /** A query-string value as the adapter puts it in its params dict. */
  datatype Param = PStr(s: string) | PInt(i: int)

  type Params = map<string, Param>

  /** The optional-bound pattern Bybit and Binance share: each present bound is added
      as integer milliseconds under its key; an absent one adds nothing. */
  function WithTimeBounds(params: Params, startKey: string, endKey: string,
                          startTime: Option<int>, endTime: Option<int>): (r: Params)
    requires startKey != endKey
    ensures r.Keys == params.Keys + (if startTime.Some? then {startKey} else {})
                                  + (if endTime.Some? then {endKey} else {})
    ensures startTime.Some? ==> r[startKey] == PInt(startTime.value)
    ensures endTime.Some? ==> r[endKey] == PInt(endTime.value)
    ensures forall k :: k in params && k != startKey && k != endKey ==> r[k] == params[k]
  {
    var withStart := if startTime.Some? then params[startKey := PInt(startTime.value)] else params;
    if endTime.Some? then withStart[endKey := PInt(endTime.value)] else withStart
  }
}

=== FILE: json.dfy ===
/** A decoded JSON body and the handful of Python operations the adapters apply to it:
    `dict.get`, truthiness and `or`, `str()`, `int()`, `Decimal()`, `len`/indexing and
    iteration. Each operation that raises in Python returns the matching Error here. */
module Json {
  import opened Errors
  import opened Numbers

  /** What `response.json()` yields. JSON numbers with a fraction or exponent (Python
      floats) are not modelled: the exchanges send prices as strings. */
  datatype Json =
    | JNull
    | JBool(b: bool)
    | JInt(i: int)
    | JStr(s: string)
    | JArray(items: seq<Json>)
    | JObject(fields: map<string, Json>)

  type Object = map<string, Json>

  /** `d.get(key)`: a missing key reads as `None`. */
  function Get(d: Object, key: string): Json {
    if key in d then d[key] else JNull
  }

  /** Python truthiness of a decoded value. */
  predicate Truthy(v: Json) {
    match v
    case JNull => false
    case JBool(b) => b
    case JInt(i) => i != 0
    case JStr(s) => |s| > 0
    case JArray(xs) => |xs| > 0
    case JObject(m) => |m| > 0
  }

  /** Python's `a or b`. */
  function Or(a: Json, b: Json): Json {
    if Truthy(a) then a else b
  }

  /** The Python type name used in built-in exception messages. */
  function TypeName(v: Json): string {
    match v
    case JNull => "NoneType"
    case JBool(_) => "bool"
    case JInt(_) => "int"
    case JStr(_) => "str"
    case JArray(_) => "list"
    case JObject(_) => "dict"
  }

  /** Python's `str(v)`. A list or dict renders as a fixed placeholder that opens with
      the same bracket as Python's rendering. Like Python's text it is never decimal
      text, never a success code and never empty, but the text itself differs: an error
      message or a text field built from it, and a split of it on `-`, are not Python's. */
  function PyStr(v: Json): string {
    match v
    case JNull => "None"
    case JBool(b) => if b then "True" else "False"
    case JInt(i) => IntToString(i)
    case JStr(s) => s
    case JArray(_) => "[...]"
    case JObject(_) => "{...}"
  }

  /** Python's `int(v)`. */
  function ToInt(v: Json): (r: Result<int>)
    ensures v.JInt? ==> r == Ok(v.i)
    ensures v.JStr? ==> r == ParseInt(v.s)
    ensures v.JBool? ==> r == Ok(if v.b then 1 else 0)
    ensures v.JNull? || v.JArray? || v.JObject? ==> r.Err? && r.error.TypeError?
  {
    match v
    case JInt(i) => Ok(i)
    case JBool(b) => Ok(if b then 1 else 0)
    case JStr(s) => ParseInt(s)
    case _ => Err(TypeError("int() argument must be a string, a bytes-like object or a real number, not '"
                            + TypeName(v) + "'"))
  }

  /** The adapters' shared `_to_decimal`: `""` and `None` become `Decimal("0")`,
      everything else is `Decimal(str(v))`. The result depends on the text alone. */
  function ToDecimal(v: Json): (r: Result<Decimal>)
    ensures v == JNull || v == JStr("") ==> r == Ok(Zero)
    ensures v.JStr? && v.s != "" ==> (r.Ok? <==> IsDecimalText(v.s)) && (r.Ok? ==> r.value == Decimal(v.s))
    ensures v.JInt? ==> r == Ok(Decimal(IntToString(v.i)))
    ensures v.JBool? || v.JArray? || v.JObject? ==> r.Err? && r.error.InvalidOperation?
  {
    if v == JNull || v == JStr("") then Ok(Zero)
    else
      assert v.JInt? ==> IsDecimalText(PyStr(v)) by {
        if v.JInt? { IntTextIsDecimal(v.i); }
      }
      assert v.JBool? || v.JArray? || v.JObject? ==> !IsDecimalText(PyStr(v)) by {
        if v.JBool? || v.JArray? || v.JObject? { BadLeadNotDecimal(PyStr(v)); }
      }
      DecimalOf(PyStr(v))
  }

  /** Python's `Decimal(v)` applied to the decoded value itself (no `str()` first):
      strings are parsed, integers and booleans are exact, a list is read as a
      `(sign, digits, exponent)` tuple, and `None` or a dict is a TypeError. */
  function DecimalOfValue(v: Json): (r: Result<Decimal>)
    ensures v.JStr? ==> r == DecimalOf(v.s)
    ensures v.JInt? ==> r == Ok(Decimal(IntToString(v.i)))
    ensures v.JBool? ==> r == Ok(Decimal(if v.b then "1" else "0"))
    ensures v.JArray? && |v.items| != 3 ==> r == Err(ValueError("argument must be a sequence of length 3"))
    ensures v.JNull? || v.JObject? ==> r.Err? && r.error.TypeError?
  {
    match v
    case JStr(s) => DecimalOf(s)
    case JInt(i) => Ok(Decimal(IntToString(i)))
    case JBool(b) => Ok(Decimal(if b then "1" else "0"))
    case JArray(xs) =>
      if |xs| != 3 then Err(ValueError("argument must be a sequence of length 3"))
      else Err(ValueError("argument must be a well-formed (sign, digits, exponent) tuple"))
    case _ => Err(TypeError("conversion from " + TypeName(v) + " to Decimal is not supported"))
  }

  /** `.get` is only defined on a dict. */
  function AsObject(v: Json): (r: Result<Object>)
    ensures v.JObject? <==> r.Ok?
    ensures v.JObject? ==> r.value == v.fields
    ensures r.Err? ==> r.error.AttributeError?
  {
    match v
    case JObject(m) => Ok(m)
    case _ => Err(AttributeError("'" + TypeName(v) + "' object has no attribute 'get'"))
  }

  /** The one-character strings iterating a Python string yields. */
  function Chars(s: string): (r: seq<Json>)
    ensures |r| == |s| && forall i :: 0 <= i < |s| ==> r[i] == JStr([s[i]])
  {
    seq(|s|, i requires 0 <= i < |s| => JStr([s[i]]))
  }

  /** `for x in v`. A list yields its items and a string its characters. A non-empty
      dict yields its keys in insertion order, which a map does not keep, so that case
      is reported as a TypeError (see README, Left out). */
  function Elements(v: Json): (r: Result<seq<Json>>)
    ensures v.JArray? ==> r == Ok(v.items)
    ensures v.JNull? || v.JBool? || v.JInt? ==> r.Err? && r.error.TypeError?
  {
    match v
    case JArray(xs) => Ok(xs)
    case JStr(s) => Ok(Chars(s))
    case JObject(m) =>
      if |m| == 0 then Ok([])
      else Err(TypeError("iteration over the keys of a JSON object"))
    case _ => Err(TypeError("'" + TypeName(v) + "' object is not iterable"))
  }

  /** The positional view `len(raw)` / `raw[i]` of a kline row: a list, or the
      characters of a string. */
  function AsRow(v: Json): (r: Result<seq<Json>>)
    ensures v.JArray? ==> r == Ok(v.items)
    ensures v.JStr? ==> r == Ok(Chars(v.s))
    ensures !v.JArray? && !v.JStr? ==> r.Err? && r.error.TypeError?
  {
    match v
    case JArray(xs) => Ok(xs)
    case JStr(s) => Ok(Chars(s))
    case _ => Err(TypeError("object of type '" + TypeName(v) + "' has no len()"))
  }

  /** `v[0]`. */
  function First(v: Json): (r: Result<Json>)
    ensures v.JArray? && |v.items| > 0 ==> r == Ok(v.items[0])
    ensures v.JArray? && |v.items| == 0 ==> r.Err? && r.error.IndexError?
  {
    match v
    case JArray(xs) => if |xs| > 0 then Ok(xs[0]) else Err(IndexError("list index out of range"))
    case JStr(s) => if |s| > 0 then Ok(JStr([s[0]])) else Err(IndexError("string index out of range"))
    case JObject(_) => Err(KeyError("0"))
    case _ => Err(TypeError("'" + TypeName(v) + "' object is not subscriptable"))
  }

  /** `v[key]` with a string key. */
  function Subscript(v: Json, key: string): (r: Result<Json>)
    ensures v.JObject? && key in v.fields ==> r == Ok(v.fields[key])
    ensures v.JObject? && key !in v.fields ==> r == Err(KeyError(key))
    ensures !v.JObject? ==> r.Err? && r.error.TypeError?
  {
    match v
    case JObject(m) => if key in m then Ok(m[key]) else Err(KeyError(key))
    case JArray(_) => Err(TypeError("list indices must be integers or slices, not str"))
    case JStr(_) => Err(TypeError("string indices must be integers, not 'str'"))
    case _ => Err(TypeError("'" + TypeName(v) + "' object is not subscriptable"))
  }

  // ------------------------------------------------------------------
  // Facts about the conversions

  /** A timestamp sent as an integer or as its decimal text reads back unchanged. */
  lemma ToIntOfTimestamp(t: int)
    ensures ToInt(JInt(t)) == Ok(t)
    ensures ToInt(JStr(IntToString(t))) == Ok(t)
  {
    IntToStringRoundTrip(t);
  }

  /** A decimal literal sent as its text converts back to the same Decimal. */
  lemma DecimalFieldRoundTrip(d: Decimal)
    requires IsDecimalText(d.text)
    ensures ToDecimal(JStr(d.text)) == Ok(d)
  {
    DecimalTextNonEmpty(d.text);
  }

  /** The text "0" that stands in for a missing column converts to zero. */
  lemma ZeroTextIsZero()
    ensures ToDecimal(JStr("0")) == Ok(Zero)
  {
    ZeroIsDecimal();
  }

  /** A decimal sent as its text converts to exactly that text, and so does an integer. */
  lemma ToDecimalOfText(t: string, i: int)
    ensures IsDecimalText(t) && t != "" ==> ToDecimal(JStr(t)) == Ok(Decimal(t))
    ensures ToDecimal(JInt(i)) == Ok(Decimal(IntToString(i)))
  {
    IntTextIsDecimal(i);
  }
}

=== FILE: numbers.dfy ===
/** Integer and decimal text as the adapters handle it: Python's `str(int)`,
    `int(str)` and `decimal.Decimal(str)`.

    A Decimal is kept as the text it was built from: the adapters never do arithmetic
    on prices, so the only numerical promise is that a parsed value is determined by
    the exchange's string and nothing else (no binary floating point in between). */
module Numbers {
  import opened Errors

  predicate IsDigit(c: char) { '0' <= c <= '9' }

  predicate AllDigits(s: string) {
    forall i :: 0 <= i < |s| ==> IsDigit(s[i])
  }

  function DigitChar(d: nat): (c: char)
    requires d < 10
    ensures IsDigit(c) && c as int - '0' as int == d
  {
    ('0' as int + d) as char
  }

  /** The value of a string of decimal digits, most significant first. */
  function DigitsValue(s: string): nat
    requires AllDigits(s)
  {
    if |s| == 0 then 0
    else DigitsValue(s[..|s| - 1]) * 10 + (s[|s| - 1] as int - '0' as int)
  }

  /** Python's `str(n)` for a non-negative integer: no sign, no leading zeros. */
  function NatToString(n: nat): (s: string)
    ensures |s| > 0 && AllDigits(s)
    ensures |s| > 1 ==> s[0] != '0'
  {
    if n < 10 then [DigitChar(n)]
    else NatToString(n / 10) + [DigitChar(n % 10)]
  }

  /** Python's `str(i)` for any integer. */
  function IntToString(i: int): string {
    if i < 0 then "-" + NatToString(-i) else NatToString(i)
  }

  /** Python's `int(s)` on a string: an optional sign followed by decimal digits.
      Anything else raises ValueError. */
  function ParseInt(s: string): (r: Result<int>)
    ensures r.Ok? <==> (|s| > 0 && AllDigits(s))
                       || (|s| > 1 && (s[0] == '-' || s[0] == '+') && AllDigits(s[1..]))
    ensures r.Err? ==> r.error.ValueError?
  {
    if |s| > 1 && s[0] == '-' && AllDigits(s[1..]) then Ok(-(DigitsValue(s[1..]) as int))
    else if |s| > 1 && s[0] == '+' && AllDigits(s[1..]) then Ok(DigitsValue(s[1..]))
    else if |s| > 0 && AllDigits(s) then Ok(DigitsValue(s))
    else Err(ValueError("invalid literal for int() with base 10: '" + s + "'"))
  }

  lemma {:induction false} NatToStringValue(n: nat)
    ensures DigitsValue(NatToString(n)) == n
  {
    if n >= 10 {
      var s := NatToString(n);
      assert s[..|s| - 1] == NatToString(n / 10);
      NatToStringValue(n / 10);
    }
  }

  /** `int(str(i)) == i`: the decimal text the model produces for a timestamp reads
      back as that timestamp. */
  lemma IntToStringRoundTrip(i: int)
    ensures ParseInt(IntToString(i)) == Ok(i)
  {
    var s := IntToString(i);
    if i < 0 {
      assert s[0] == '-' && s[1..] == NatToString(-i);
      NatToStringValue(-i);
      assert ParseInt(s) == Ok(-(DigitsValue(s[1..]) as int));
    } else {
      assert s == NatToString(i) && IsDigit(s[0]);
      NatToStringValue(i);
      assert ParseInt(s) == Ok(DigitsValue(s));
    }
  }

  /** Distinct integers have distinct texts. */
  lemma IntToStringInjective(a: int, b: int)
    ensures IntToString(a) == IntToString(b) ==> a == b
  {
    IntToStringRoundTrip(a);
    IntToStringRoundTrip(b);
  }

  // ------------------------------------------------------------------
  // Decimal literals

  /** A decimal as its source text. Two Decimals built from the same text are equal;
      the model never rounds or re-encodes. */
  datatype Decimal = Decimal(text: string)

  /** `Decimal("0")`, the default for missing fields. */
  const Zero: Decimal := Decimal("0")

  function Lower(c: char): char {
    if 'A' <= c <= 'Z' then (c as int + 32) as char else c
  }

  function LowerAll(s: string): (r: string)
    ensures |r| == |s| && forall i :: 0 <= i < |s| ==> r[i] == Lower(s[i])
  {
    if |s| == 0 then "" else [Lower(s[0])] + LowerAll(s[1..])
  }

  /** Index of the first exponent marker `e`/`E`, or |s| when there is none. */
  function ExponentMarker(s: string): (k: nat)
    ensures k <= |s|
    ensures forall j :: 0 <= j < k ==> s[j] != 'e' && s[j] != 'E'
    ensures k < |s| ==> s[k] == 'e' || s[k] == 'E'
  {
    if |s| == 0 then 0
    else if s[0] == 'e' || s[0] == 'E' then 0
    else 1 + ExponentMarker(s[1..])
  }

  /** `digits '.' [digits] | ['.'] digits`. */
  predicate IsMantissa(m: string) {
    (|m| > 0 && AllDigits(m))
    || (|m| > 1 && exists p :: 0 <= p < |m| && m[p] == '.' && AllDigits(m[..p]) && AllDigits(m[p + 1..]))
  }

  /** `[sign] digits`. */
  predicate IsExponent(x: string) {
    (|x| > 0 && AllDigits(x)) || (|x| > 1 && (x[0] == '+' || x[0] == '-') && AllDigits(x[1..]))
  }

  predicate IsFiniteText(b: string) {
    var k := ExponentMarker(b);
    IsMantissa(b[..k]) && (k == |b| || IsExponent(b[k + 1..]))
  }

  /** Infinity and NaN spellings, compared case-insensitively. */
  predicate IsSpecialText(b: string) {
    var l := LowerAll(b);
    l == "inf" || l == "infinity"
    || (|l| >= 3 && l[..3] == "nan" && AllDigits(l[3..]))
    || (|l| >= 4 && l[..4] == "snan" && AllDigits(l[4..]))
  }

  /** Text Python's `Decimal(text)` accepts (surrounding whitespace and digit
      underscores excepted, which the model does not accept). */
  predicate IsDecimalText(s: string) {
    var body := if |s| > 0 && (s[0] == '+' || s[0] == '-') then s[1..] else s;
    IsFiniteText(body) || IsSpecialText(body)
  }

  /** `Decimal(text)`: the value is the text itself, or InvalidOperation. */
  function DecimalOf(text: string): (r: Result<Decimal>)
    ensures r.Ok? <==> IsDecimalText(text)
    ensures r.Ok? ==> r.value.text == text
    ensures r.Err? ==> r.error.InvalidOperation?
  {
    if IsDecimalText(text) then Ok(Decimal(text))
    else Err(InvalidOperation("[<class 'decimal.ConversionSyntax'>]"))
  }

  /** Every integer's text is a decimal literal, so `Decimal(str(i))` never raises. */
  lemma IntTextIsDecimal(i: int)
    ensures IsDecimalText(IntToString(i))
  {
    var s := IntToString(i);
    var body := if |s| > 0 && (s[0] == '+' || s[0] == '-') then s[1..] else s;
    var digits := NatToString(if i < 0 then -i else i);
    if i < 0 {
      assert s == "-" + digits;
      assert body == digits;
    } else {
      assert s == digits;
      assert body == digits;
    }
    assert forall j :: 0 <= j < |body| ==> body[j] != 'e' && body[j] != 'E';
    assert ExponentMarker(body) == |body|;
    assert body[..|body|] == body;
    assert IsMantissa(body);
  }

  /** An unsigned run of digits is a decimal literal. */
  lemma DigitsAreDecimal(t: string)
    requires |t| > 0 && AllDigits(t) && t[0] != '+' && t[0] != '-'
    ensures IsDecimalText(t)
  {
    assert ExponentMarker(t) == |t|;
    assert t[..|t|] == t;
  }

  /** `whole "." fraction` with digit parts is a decimal literal. */
  lemma FractionIsDecimal(whole: string, fraction: string)
    requires |whole| > 0 && AllDigits(whole) && AllDigits(fraction)
    ensures IsDecimalText(whole + "." + fraction)
  {
    var t := whole + "." + fraction;
    assert t[0] == whole[0];
    assert forall j :: 0 <= j < |t| ==> t[j] != 'e' && t[j] != 'E' by {
      forall j | 0 <= j < |t| ensures t[j] != 'e' && t[j] != 'E' {
        if j < |whole| { assert t[j] == whole[j]; }
        else if j > |whole| { assert t[j] == fraction[j - |whole| - 1]; }
      }
    }
    assert ExponentMarker(t) == |t|;
    assert t[..|t|] == t;
    var p := |whole|;
    assert t[p] == '.' && t[..p] == whole && t[p + 1..] == fraction;
  }

  /** The empty text is not a decimal literal. */
  lemma DecimalTextNonEmpty(t: string)
    requires IsDecimalText(t)
    ensures |t| > 0
  {
  }

  /** Text that opens with a character no decimal literal can open with (not a
      digit, sign or point, nor the first letter of an infinity or NaN spelling)
      is rejected by `Decimal(text)`. */
  lemma BadLeadNotDecimal(s: string)
    requires |s| > 0 && !IsDigit(s[0]) && s[0] != '.' && s[0] != '+' && s[0] != '-'
    requires Lower(s[0]) != 'i' && Lower(s[0]) != 'n' && Lower(s[0]) != 's'
    ensures !IsDecimalText(s)
  {
    BadLeadNotFinite(s);
    BadLeadNotSpecial(s);
  }

  lemma BadLeadNotFinite(s: string)
    requires |s| > 0 && !IsDigit(s[0]) && s[0] != '.'
    ensures !IsFiniteText(s)
  {
    var k := ExponentMarker(s);
    if k > 0 && IsMantissa(s[..k]) {
      MantissaLead(s[..k]);
      assert false;
    }
  }

  /** A mantissa opens with a digit or the decimal point. */
  lemma MantissaLead(m: string)
    requires IsMantissa(m)
    ensures |m| > 0 && (IsDigit(m[0]) || m[0] == '.')
  {
    if !AllDigits(m) {
      var p :| 0 <= p < |m| && m[p] == '.' && AllDigits(m[..p]) && AllDigits(m[p + 1..]);
      if p > 0 {
        assert m[..p][0] == m[0];
      }
    }
  }

  lemma BadLeadNotSpecial(s: string)
    requires |s| > 0 && Lower(s[0]) != 'i' && Lower(s[0]) != 'n' && Lower(s[0]) != 's'
    ensures !IsSpecialText(s)
  {
    var l := LowerAll(s);
    assert l[0] == Lower(s[0]);
    assert l != "inf" && l != "infinity" by {
      assert "inf"[0] == 'i' && "infinity"[0] == 'i';
    }
  }

  lemma ZeroIsDecimal()
    ensures DecimalOf("0") == Ok(Zero)
  {
    assert IntToString(0) == "0";
    IntTextIsDecimal(0);
  }
}

=== FILE: okx.dfy ===
/** The OKX adapter (market_data_fetch/exchanges/okx/usdt_perp.py): request
    parameters, response classification and normalisation. Every operation receives
    the outcome of its HTTP GET(s) as parameters. */
module Okx {
  import opened Errors
  import opened Numbers
  import opened Json
  import opened Shared
  import opened Queries
  import opened Http
  import opened Records

  const PRICE_KLINES_MAX_LIMIT: int := 300
  const INDEX_KLINES_MAX_LIMIT: int := 100
  const MARK_PRICE_KLINES_MAX_LIMIT: int := 100
  const PREMIUM_HISTORY_MAX_LIMIT: int := 100
  const FUNDING_HISTORY_MAX_LIMIT: int := 400

  const RATE_LIMIT_ERROR_CODES: set<string> := {"50011", "50012", "50013"}
  const SUCCESS_CODES: set<string> := {"0", "00000"}
  /** The HTTP statuses `_request` treats as transient; no other status is looked at. */
  const TRANSIENT_STATUSES: set<int> := {429, 500, 502, 503, 504}

  // ------------------------------------------------------------------
  // Intervals and limits

  /** `_map_interval` over OKX's table, which covers every interval: hours, days and
      weeks take an upper-case unit. */
  function MapInterval(i: Interval): (r: Result<string>)
    ensures r.Ok?
  {
    match i
    case Minute1 => Ok("1m")
    case Minute3 => Ok("3m")
    case Minute5 => Ok("5m")
    case Minute15 => Ok("15m")
    case Minute30 => Ok("30m")
    case Hour1 => Ok("1H")
    case Hour2 => Ok("2H")
    case Hour4 => Ok("4H")
    case Hour6 => Ok("6H")
    case Hour12 => Ok("12H")
    case Day1 => Ok("1D")
    case Day3 => Ok("3D")
    case Week1 => Ok("1W")
    case Month1 => Ok("1M")
  }

  /** The reference rule OKX's table follows: the canonical text with an hour, day
      or week unit upper-cased; minutes and months keep their letter. */
  function UnitUpper(t: string): string {
    if |t| == 0 then t
    else
      var u := t[|t| - 1];
      t[..|t| - 1] + [if u == 'h' || u == 'd' || u == 'w' then UpperChar(u) else u]
  }

  /** The table is total and agrees with the reference rule on all fourteen intervals. */
  lemma MapIntervalIsUnitUpper(i: Interval)
    ensures MapInterval(i) == Ok(UnitUpper(i.Text()))
  {
    match i
    case Minute1 => assert UnitUpper("1m") == "1m";
    case Minute3 => assert UnitUpper("3m") == "3m";
    case Minute5 => assert UnitUpper("5m") == "5m";
    case Minute15 => assert UnitUpper("15m") == "15m";
    case Minute30 => assert UnitUpper("30m") == "30m";
    case Hour1 => assert UnitUpper("1h") == "1H";
    case Hour2 => assert UnitUpper("2h") == "2H";
    case Hour4 => assert UnitUpper("4h") == "4H";
    case Hour6 => assert UnitUpper("6h") == "6H";
    case Hour12 => assert UnitUpper("12h") == "12H";
    case Day1 => assert UnitUpper("1d") == "1D";
    case Day3 => assert UnitUpper("3d") == "3D";
    case Week1 => assert UnitUpper("1w") == "1W";
    case Month1 => assert UnitUpper("1M") == "1M";
  }

  /** Distinct intervals get distinct bar codes. */
  lemma MapIntervalInjective(a: Interval, b: Interval)
    ensures MapInterval(a) == MapInterval(b) ==> a == b
  {
  }

  /** `_enforce_limit`: a limit above the endpoint's cap is an error, except the
      library default 500, which is silently clamped to the cap. */
  function EnforceLimit(requested: int, maxLimit: int, endpointName: string): (r: Result<int>)
    ensures requested <= maxLimit ==> r == Ok(requested)
    ensures requested > maxLimit && requested == DEFAULT_LIMIT ==> r == Ok(maxLimit)
    ensures requested > maxLimit && requested != DEFAULT_LIMIT ==>
              r == Err(ValueError("OKX " + endpointName + " limit cannot exceed " + IntToString(maxLimit) + " entries"))
    ensures r.Ok? ==> r.value <= maxLimit && r.value <= requested
  {
    if requested > maxLimit then
      if requested == DEFAULT_LIMIT then Ok(maxLimit)
      else Err(ValueError("OKX " + endpointName + " limit cannot exceed " + IntToString(maxLimit) + " entries"))
    else Ok(requested)
  }

  // ------------------------------------------------------------------
  // Time filters

  /** `_apply_time_filters`: OKX's `before` selects newer points and `after` older
      ones, so the window's start goes to `before` and its end to `after`, each as
      the decimal text of its epoch milliseconds. Nothing else is touched. */
  function ApplyTimeFilters(params: Params, startTime: Option<int>, endTime: Option<int>): (r: Params)
    ensures startTime.Some? ==> "before" in r && r["before"] == PStr(IntToString(startTime.value))
    ensures endTime.Some? ==> "after" in r && r["after"] == PStr(IntToString(endTime.value))
    ensures startTime.None? ==> ("before" in r <==> "before" in params)
                                && ("before" in params ==> r["before"] == params["before"])
    ensures endTime.None? ==> ("after" in r <==> "after" in params)
                              && ("after" in params ==> r["after"] == params["after"])
    ensures forall k :: k != "before" && k != "after" ==> (k in r <==> k in params)
    ensures forall k :: k in params && k != "before" && k != "after" ==> r[k] == params[k]
  {
    var withStart := if startTime.Some? then params["before" := PStr(IntToString(startTime.value))] else params;
    if endTime.Some? then withStart["after" := PStr(IntToString(endTime.value))] else withStart
  }

  // ------------------------------------------------------------------
  // Instrument identifiers

  /** `_index_inst_id`: `BASE-QUOTE`, upper-cased. */
  function IndexInstId(s: Symbol): string {
    Upper(s.base) + "-" + Upper(s.quote)
  }

  /** `_contract_inst_id`: the index id with the `-SWAP` marker. */
  function ContractInstId(s: Symbol): (r: string)
    ensures r == IndexInstId(s) + "-SWAP"
    ensures |r| == |s.base| + |s.quote| + 6
  {
    Upper(s.base) + "-" + Upper(s.quote) + "-SWAP"
  }

  /** Index of the first hyphen, or |s|. */
  function HyphenAt(s: string): (k: nat)
    ensures k <= |s|
    ensures forall j :: 0 <= j < k ==> s[j] != '-'
    ensures k < |s| ==> s[k] == '-'
  {
    if |s| == 0 || s[0] == '-' then 0 else 1 + HyphenAt(s[1..])
  }

  /** `_split_underlying`: the first two hyphen-separated parts, or the whole text
      and an empty quote when there is no hyphen. */
  function SplitUnderlying(u: string): (r: (string, string))
    ensures '-' !in u ==> r == (u, "")
    ensures '-' in u ==> '-' !in r.0 && '-' !in r.1
                         && |r.0| + 1 + |r.1| <= |u|
                         && u[..|r.0| + 1 + |r.1|] == r.0 + "-" + r.1
                         && (|r.0| + 1 + |r.1| == |u| || u[|r.0| + 1 + |r.1|] == '-')
  {
    var k := HyphenAt(u);
    if k == |u| then
      assert '-' !in u;
      (u, "")
    else
      var rest := u[k + 1..];
      var j := HyphenAt(rest);
      assert u[..k + 1 + j] == u[..k] + "-" + rest[..j];
      (u[..k], rest[..j])
  }

  /** The first hyphen of `a + tail` is the one that starts `tail` when `a` has none. */
  lemma {:induction false} HyphenAtJoin(a: string, tail: string)
    requires '-' !in a
    requires |tail| == 0 || tail[0] == '-'
    ensures HyphenAt(a + tail) == |a|
  {
    if |a| > 0 {
      assert (a + tail)[1..] == a[1..] + tail;
      HyphenAtJoin(a[1..], tail);
    }
  }

  /** Splitting a hyphen-joined pair gives the pair back. */
  lemma SplitJoin(a: string, b: string)
    requires '-' !in a && '-' !in b
    ensures SplitUnderlying(a + "-" + b) == (a, b)
  {
    var u := a + "-" + b;
    HyphenAtJoin(a, "-" + b);
    assert u == a + ("-" + b);
    assert u[|a| + 1..] == b;
    HyphenAtJoin(b, "");
    assert b + "" == b;
    assert u[..|a|] == a;
  }

  /** The underlying id of a hyphen-free symbol splits back into its upper-cased parts. */
  lemma SplitIndexInstId(s: Symbol)
    requires '-' !in s.base && '-' !in s.quote
    ensures SplitUnderlying(IndexInstId(s)) == (Upper(s.base), Upper(s.quote))
  {
    UpperKeepsHyphens(s.base);
    UpperKeepsHyphens(s.quote);
    SplitJoin(Upper(s.base), Upper(s.quote));
  }

  // ------------------------------------------------------------------
  // Row parsing

  /** `_parse_kline`: at least five columns. Volume is zero for index and mark feeds;
      otherwise column 6 (quote volume) when present and not empty, else column 5,
      else zero. */
  function ParseKline(raw: seq<Json>, zeroVolume: bool): (r: Result<Kline>)
    ensures |raw| < 5 ==> r == Err(MarketDataError("Unexpected OKX kline payload structure"))
    ensures r.Ok? ==> |raw| >= 5 && ToInt(raw[0]) == Ok(r.value.openTime)
                      && ToDecimal(raw[1]) == Ok(r.value.open) && ToDecimal(raw[2]) == Ok(r.value.high)
                      && ToDecimal(raw[3]) == Ok(r.value.low) && ToDecimal(raw[4]) == Ok(r.value.close)
    ensures r.Ok? && zeroVolume ==> r.value.volume == Zero
    ensures r.Ok? && !zeroVolume && |raw| > 6 && raw[6] != JNull && raw[6] != JStr("") ==>
              ToDecimal(raw[6]) == Ok(r.value.volume)
    ensures r.Ok? && !zeroVolume && |raw| > 5 && !(|raw| > 6 && raw[6] != JNull && raw[6] != JStr("")) ==>
              ToDecimal(raw[5]) == Ok(r.value.volume)
    ensures r.Ok? && !zeroVolume && |raw| == 5 ==> r.value.volume == Zero
    ensures |raw| >= 5 && ToInt(raw[0]).Ok? && ToDecimal(raw[1]).Ok? && ToDecimal(raw[2]).Ok?
            && ToDecimal(raw[3]).Ok? && ToDecimal(raw[4]).Ok? && (zeroVolume || |raw| == 5)
            ==> r.Ok?
  {
    if |raw| < 5 then Err(MarketDataError("Unexpected OKX kline payload structure"))
    else ParseColumns(raw[0], raw[1], raw[2], raw[3], raw[4], Volume(raw, zeroVolume))
  }

  /** The volume `_parse_kline` keeps: zero when asked, else the quote-currency
      volume when present and non-empty, else the base volume, else 0. */
  function Volume(raw: seq<Json>, zeroVolume: bool): Result<Decimal>
    requires |raw| >= 5
  {
    if zeroVolume then Ok(Zero)
    else if |raw| > 6 && raw[6] != JNull && raw[6] != JStr("") then ToDecimal(raw[6])
    else ToDecimal(if |raw| > 5 then raw[5] else JStr("0"))
  }

  /** The conversions `_parse_kline` applies, in order, the volume last. */
  function ParseColumns(time: Json, open: Json, high: Json, low: Json, close: Json, volume: Result<Decimal>)
    : (r: Result<Kline>)
    ensures r.Ok? <==> ToInt(time).Ok? && ToDecimal(open).Ok? && ToDecimal(high).Ok?
                       && ToDecimal(low).Ok? && ToDecimal(close).Ok? && volume.Ok?
    ensures r.Ok? ==> ToInt(time) == Ok(r.value.openTime)
                      && ToDecimal(open) == Ok(r.value.open) && ToDecimal(high) == Ok(r.value.high)
                      && ToDecimal(low) == Ok(r.value.low) && ToDecimal(close) == Ok(r.value.close)
                      && volume == Ok(r.value.volume)
  {
    var t :- ToInt(time);
    var o :- ToDecimal(open);
    var h :- ToDecimal(high);
    var l :- ToDecimal(low);
    var c :- ToDecimal(close);
    var v :- volume;
    Ok(Kline(t, o, h, l, c, v))
  }

  /** The price columns of a known kline convert back to its fields. */
  lemma ColumnsRoundTrip(k: Kline, volume: Decimal)
    requires k.WellFormed()
    ensures ParseColumns(JInt(k.openTime), JStr(k.open.text), JStr(k.high.text), JStr(k.low.text),
                         JStr(k.close.text), Ok(volume)) == Ok(k.(volume := volume))
  {
    ToIntOfTimestamp(k.openTime);
    DecimalFieldRoundTrip(k.open);
    DecimalFieldRoundTrip(k.high);
    DecimalFieldRoundTrip(k.low);
    DecimalFieldRoundTrip(k.close);
  }

  /** A kline row of known fields parses back to exactly those fields. */
  lemma ParseKlineRoundTrip(k: Kline)
    requires k.WellFormed()
    ensures ParseKline(KlineRow(k), false) == Ok(k)
    ensures ParseKline(KlineRow(k), true) == Ok(k.(volume := Zero))
  {
    ParseFullRowRoundTrip(k);
    ParseZeroVolumeRowRoundTrip(k);
  }

  /** The price and mark feeds keep the row's own volume. */
  lemma ParseFullRowRoundTrip(k: Kline)
    requires k.WellFormed()
    ensures ParseKline(KlineRow(k), false) == Ok(k)
  {
    KlineRowColumns(k);
    DecimalFieldRoundTrip(k.volume);
    assert Volume(KlineRow(k), false) == Ok(k.volume);
    ColumnsRoundTrip(k, k.volume);
  }

  /** The index and mark feeds zero the volume whatever the row says. */
  lemma ParseZeroVolumeRowRoundTrip(k: Kline)
    requires k.WellFormed()
    ensures ParseKline(KlineRow(k), true) == Ok(k.(volume := Zero))
  {
    KlineRowColumns(k);
    ColumnsRoundTrip(k, Zero);
  }

  /** A candle row as `_parse_kline` receives it: a list, or the characters of a
      string; a dict has a length but no key `0`. */
  function ParseKlineEntry(entry: Json, zeroVolume: bool): (r: Result<Kline>)
    ensures !entry.JArray? && !entry.JStr? && !entry.JObject? ==> r.Err? && r.error.TypeError?
    ensures entry.JObject? && |entry.fields| < 5 ==> r == Err(MarketDataError("Unexpected OKX kline payload structure"))
    ensures entry.JObject? && |entry.fields| >= 5 ==> r == Err(KeyError("0"))
    ensures entry.JArray? ==> r == ParseKline(entry.items, zeroVolume)
    ensures r.Ok? && zeroVolume ==> r.value.volume == Zero
  {
    if entry.JObject? then
      if |entry.fields| < 5 then Err(MarketDataError("Unexpected OKX kline payload structure")) else Err(KeyError("0"))
    else
      var row :- AsRow(entry);
      ParseKline(row, zeroVolume)
  }

  /** `_build_flat_kline`: a premium-history record as a kline whose four prices are
      the premium and whose volume is zero. */
  function BuildFlatKline(raw: Json): (r: Result<Kline>)
    ensures !raw.JObject? ==> r.Err? && r.error.AttributeError?
    ensures r.Ok? ==> r.value.open == r.value.high == r.value.low == r.value.close && r.value.volume == Zero
    ensures r.Ok? ==> ToDecimal(Get(raw.fields, "premium")) == Ok(r.value.close)
    ensures r.Ok? && !Truthy(Get(raw.fields, "ts")) ==> r.value.openTime == 0
    ensures r.Ok? && Truthy(Get(raw.fields, "ts")) ==> ToInt(Get(raw.fields, "ts")) == Ok(r.value.openTime)
  {
    var m :- AsObject(raw);
    var t :- ToInt(Or(Get(m, "ts"), JInt(0)));
    var v :- ToDecimal(Get(m, "premium"));
    Ok(Kline(t, v, v, v, v, Zero))
  }

  /** `_parse_funding_point`: the funding time (or `ts`, or 0) and the rate. */
  function ParseFundingPoint(raw: Json): (r: Result<Point>)
    ensures !raw.JObject? ==> r.Err? && r.error.AttributeError?
    ensures r.Ok? ==> ToDecimal(Get(raw.fields, "fundingRate")) == Ok(r.value.value)
    ensures r.Ok? && Truthy(Get(raw.fields, "fundingTime")) ==> ToInt(Get(raw.fields, "fundingTime")) == Ok(r.value.timestamp)
    ensures r.Ok? && !Truthy(Get(raw.fields, "fundingTime")) && Truthy(Get(raw.fields, "ts")) ==>
              ToInt(Get(raw.fields, "ts")) == Ok(r.value.timestamp)
    ensures r.Ok? && !Truthy(Get(raw.fields, "fundingTime")) && !Truthy(Get(raw.fields, "ts")) ==> r.value.timestamp == 0
    ensures raw.JObject? ==>
              (r.Ok? <==> ToInt(Or(Or(Get(raw.fields, "fundingTime"), Get(raw.fields, "ts")), JInt(0))).Ok?
                          && ToDecimal(Get(raw.fields, "fundingRate")).Ok?)
    ensures (raw.JObject? && Truthy(Get(raw.fields, "fundingTime")) && ToInt(Get(raw.fields, "fundingTime")).Ok?
             && ToDecimal(Get(raw.fields, "fundingRate")).Ok?) ==> r.Ok?
  {
    var m :- AsObject(raw);
    var t :- ToInt(Or(Or(Get(m, "fundingTime"), Get(m, "ts")), JInt(0)));
    var rate :- ToDecimal(Get(m, "fundingRate"));
    Ok(Point(t, rate))
  }

  /** `_parse_instrument`: base and quote come from the underlying; a missing quote
      defaults to USDT in both the quote and the symbol. */
  function ParseInstrument(raw: Json): (r: Result<Instrument>)
    ensures !raw.JObject? ==> r.Err? && r.error.AttributeError?
    ensures r.Ok? ==> r.value.symbol == r.value.baseAsset + r.value.quoteAsset && r.value.quoteAsset != ""
    ensures r.Ok? ==> var u := PyStr(Or(Get(raw.fields, "uly"), JStr("")));
                      r.value.baseAsset == SplitUnderlying(u).0
                      && ('-' !in u ==> r.value.baseAsset == u && r.value.quoteAsset == "USDT")
                      && (SplitUnderlying(u).1 != "" ==> r.value.quoteAsset == SplitUnderlying(u).1)
                      && (SplitUnderlying(u).1 == "" ==> r.value.quoteAsset == "USDT")
    ensures r.Ok? ==> ToDecimal(Get(raw.fields, "tickSz")) == Ok(r.value.tickSize)
                      && ToDecimal(Get(raw.fields, "lotSz")) == Ok(r.value.stepSize)
                      && ToDecimal(Get(raw.fields, "minSz")) == Ok(r.value.minQty)
    ensures r.Ok? && Truthy(Get(raw.fields, "maxLmtSz")) ==> ToDecimal(Get(raw.fields, "maxLmtSz")) == Ok(r.value.maxQty)
    ensures r.Ok? && !Truthy(Get(raw.fields, "maxLmtSz")) && Truthy(Get(raw.fields, "maxMktSz")) ==>
              ToDecimal(Get(raw.fields, "maxMktSz")) == Ok(r.value.maxQty)
    ensures r.Ok? && !Truthy(Get(raw.fields, "maxLmtSz")) && !Truthy(Get(raw.fields, "maxMktSz")) ==> r.value.maxQty == Zero
    ensures r.Ok? && Truthy(Get(raw.fields, "state")) ==> r.value.status == PyStr(Get(raw.fields, "state"))
    ensures r.Ok? && !Truthy(Get(raw.fields, "state")) ==> r.value.status == ""
  {
    var m :- AsObject(raw);
    var parts := SplitUnderlying(PyStr(Or(Get(m, "uly"), JStr(""))));
    var tick :- ToDecimal(Get(m, "tickSz"));
    var step :- ToDecimal(Get(m, "lotSz"));
    var minQty :- ToDecimal(Get(m, "minSz"));
    var maxQty :- ToDecimal(Or(Or(Get(m, "maxLmtSz"), Get(m, "maxMktSz")), JStr("0")));
    var quote := if parts.1 == "" then "USDT" else parts.1;
    Ok(Instrument(parts.0 + quote, parts.0, quote, tick, step, minQty, maxQty,
                  PyStr(Or(Get(m, "state"), JStr("")))))
  }

  /** A funding-history record as OKX sends it: the time as decimal text and the rate
      as its text. */
  function FundingEntry(p: Point): Json {
    JObject(map["fundingTime" := JStr(IntToString(p.timestamp)), "fundingRate" := JStr(p.value.text)])
  }

  /** A funding record built from a point parses back to that point. */
  lemma ParseFundingPointRoundTrip(p: Point)
    requires IsDecimalText(p.value.text)
    ensures ParseFundingPoint(FundingEntry(p)) == Ok(p)
  {
    ToIntOfTimestamp(p.timestamp);
    DecimalFieldRoundTrip(p.value);
  }

  /** The funding records of a series of points, in order. */
  function FundingEntries(ps: seq<Point>): (r: seq<Json>)
    ensures |r| == |ps|
  {
    if |ps| == 0 then [] else [FundingEntry(ps[0])] + FundingEntries(ps[1..])
  }

  /** Parsing the records of a series of points gives the series back. */
  lemma {:induction false} FundingEntriesRoundTrip(ps: seq<Point>)
    requires forall i :: 0 <= i < |ps| ==> IsDecimalText(ps[i].value.text)
    ensures MapAll(FundingEntries(ps), ParseFundingPoint) == Ok(ps)
  {
    if |ps| > 0 {
      ParseFundingPointRoundTrip(ps[0]);
      FundingEntriesRoundTrip(ps[1..]);
      MapAllCons(FundingEntry(ps[0]), FundingEntries(ps[1..]), ParseFundingPoint);
      assert [ps[0]] + ps[1..] == ps;
    }
  }

  /** An instrument record as OKX sends it: the underlying `BASE-QUOTE`, the four
      sizes as text (the order size cap under `maxLmtSz`) and the state. */
  function InstrumentEntry(i: Instrument): Json {
    JObject(map["uly" := JStr(i.baseAsset + "-" + i.quoteAsset),
                "settleCcy" := JStr("USDT"),
                "tickSz" := JStr(i.tickSize.text), "lotSz" := JStr(i.stepSize.text),
                "minSz" := JStr(i.minQty.text), "maxLmtSz" := JStr(i.maxQty.text),
                "state" := JStr(i.status)])
  }

  /** The instruments `_parse_instrument` can produce from a hyphenated underlying:
      the symbol joins base and quote, neither holds a hyphen, the quote is not empty
      and every size spells a decimal. */
  predicate InstrumentShape(i: Instrument) {
    i.symbol == i.baseAsset + i.quoteAsset && i.quoteAsset != ""
    && '-' !in i.baseAsset && '-' !in i.quoteAsset
    && IsDecimalText(i.tickSize.text) && IsDecimalText(i.stepSize.text)
    && IsDecimalText(i.minQty.text) && IsDecimalText(i.maxQty.text)
  }

  /** What `.get` reads from a built instrument record. */
  lemma InstrumentEntryFields(i: Instrument)
    ensures var m := InstrumentEntry(i).fields;
            PyStr(Or(Get(m, "uly"), JStr(""))) == i.baseAsset + "-" + i.quoteAsset
            && Get(m, "tickSz") == JStr(i.tickSize.text) && Get(m, "lotSz") == JStr(i.stepSize.text)
            && Get(m, "minSz") == JStr(i.minQty.text) && Get(m, "maxLmtSz") == JStr(i.maxQty.text)
            && PyStr(Or(Get(m, "state"), JStr(""))) == i.status
  {
  }

  /** An instrument record built from an instrument parses back to it. */
  lemma ParseInstrumentRoundTrip(i: Instrument)
    requires InstrumentShape(i)
    ensures ParseInstrument(InstrumentEntry(i)) == Ok(i)
  {
    InstrumentEntryFields(i);
    ParseInstrumentOfFields(InstrumentEntry(i).fields, i);
  }

  /** Any record whose fields read as those of a well-shaped instrument parses to it. */
  lemma ParseInstrumentOfFields(m: Object, i: Instrument)
    requires InstrumentShape(i)
    requires PyStr(Or(Get(m, "uly"), JStr(""))) == i.baseAsset + "-" + i.quoteAsset
    requires Get(m, "tickSz") == JStr(i.tickSize.text) && Get(m, "lotSz") == JStr(i.stepSize.text)
    requires Get(m, "minSz") == JStr(i.minQty.text) && Get(m, "maxLmtSz") == JStr(i.maxQty.text)
    requires PyStr(Or(Get(m, "state"), JStr(""))) == i.status
    ensures ParseInstrument(JObject(m)) == Ok(i)
  {
    SplitJoin(i.baseAsset, i.quoteAsset);
    DecimalTextNonEmpty(i.maxQty.text);
    assert Or(Or(Get(m, "maxLmtSz"), Get(m, "maxMktSz")), JStr("0")) == JStr(i.maxQty.text);
    DecimalFieldRoundTrip(i.tickSize);
    DecimalFieldRoundTrip(i.stepSize);
    DecimalFieldRoundTrip(i.minQty);
    DecimalFieldRoundTrip(i.maxQty);
  }

  // ------------------------------------------------------------------
  // Envelope and classification

  /** `_extract_sequence`: `data` must be a non-empty sequence (a list, or a string,
      which Python also counts as one). */
  function ExtractSequence(payload: Object, endpointName: string): (r: Result<seq<Json>>)
    ensures r.Ok? ==> |r.value| > 0
    ensures r.Ok? <==> (Get(payload, "data").JArray? || Get(payload, "data").JStr?) && Truthy(Get(payload, "data"))
    ensures Get(payload, "data").JArray? && r.Ok? ==> r.value == Get(payload, "data").items
    ensures r.Err? ==> r.error == MarketDataError("OKX returned empty " + endpointName + " payload")
  {
    match Get(payload, "data")
    case JArray(xs) => if |xs| > 0 then Ok(xs) else Err(MarketDataError("OKX returned empty " + endpointName + " payload"))
    case JStr(s) => if |s| > 0 then Ok(Chars(s)) else Err(MarketDataError("OKX returned empty " + endpointName + " payload"))
    case _ => Err(MarketDataError("OKX returned empty " + endpointName + " payload"))
  }

  /** `str(payload.get("code") or "0")`: a missing or falsy code counts as "0". */
  function ResponseCode(payload: Object): string {
    PyStr(Or(Get(payload, "code"), JStr("0")))
  }

  /** The message OKX error reports carry. */
  function ErrorMessage(payload: Object): string {
    PyStr(Or(Or(Get(payload, "msg"), Get(payload, "error_message")), JStr("unknown error")))
  }

  /** `_request` after the GET: 429/500/502/503/504 are transient; otherwise the body
      must be a JSON object whose code is a success code; rate-limit codes are
      transient, 51001 is an unknown symbol and every other code a generic error.
      Other HTTP statuses are not inspected. */
  function Request(reply: Reply): (r: Result<Object>)
    ensures reply.NetworkFailure? ==> r == Err(ExchangeTransient("OKX request failed"))
    ensures reply.Response? && reply.status in TRANSIENT_STATUSES ==>
              r == Err(ExchangeTransient("OKX temporary HTTP error: " + IntToString(reply.status)))
    ensures reply.Response? && reply.status !in TRANSIENT_STATUSES && reply.body.None? ==>
              r == Err(MarketDataError("OKX returned a non-JSON payload"))
    ensures reply.Response? && reply.status !in TRANSIENT_STATUSES && reply.body.Some? && !reply.body.value.JObject? ==>
              r.Err? && r.error.AttributeError?
    ensures reply.Response? && reply.status !in TRANSIENT_STATUSES && reply.body.Some? && reply.body.value.JObject? ==>
              var p := reply.body.value.fields;
              var code := ResponseCode(p);
              && (code in SUCCESS_CODES ==> r == Ok(p))
              && (code in RATE_LIMIT_ERROR_CODES ==> r == Err(ExchangeTransient("OKX rate limited the request: " + ErrorMessage(p))))
              && (code == "51001" ==> r == Err(SymbolNotSupported("OKX symbol error: " + ErrorMessage(p))))
              && (code !in SUCCESS_CODES && code !in RATE_LIMIT_ERROR_CODES && code != "51001" ==>
                    r == Err(MarketDataError("OKX error (" + code + "): " + ErrorMessage(p))))
    ensures r.Ok? ==> reply.Response? && reply.status !in TRANSIENT_STATUSES && reply.body == Some(JObject(r.value))
                      && ResponseCode(r.value) in SUCCESS_CODES
  {
    match reply
    case NetworkFailure(_) => Err(ExchangeTransient("OKX request failed"))
    case Response(status, body) =>
      if status in TRANSIENT_STATUSES then Err(ExchangeTransient("OKX temporary HTTP error: " + IntToString(status)))
      else if body.None? then Err(MarketDataError("OKX returned a non-JSON payload"))
      else
        var payload :- AsObject(body.value);
        var code := ResponseCode(payload);
        if code in SUCCESS_CODES then Ok(payload)
        else if code in RATE_LIMIT_ERROR_CODES then Err(ExchangeTransient("OKX rate limited the request: " + ErrorMessage(payload)))
        else if code == "51001" then Err(SymbolNotSupported("OKX symbol error: " + ErrorMessage(payload)))
        else Err(MarketDataError("OKX error (" + code + "): " + ErrorMessage(payload)))
  }

  /** A body without a code is a success, and so is a numeric code 0; the numeric
      code 51001 is an unknown symbol just like the string "51001". */
  lemma RequestCodeForms(status: int, p: Object)
    requires status !in TRANSIENT_STATUSES
    ensures "code" !in p ==> Request(Response(status, Some(JObject(p)))) == Ok(p)
    ensures Get(p, "code") == JInt(0) ==> Request(Response(status, Some(JObject(p)))) == Ok(p)
    ensures Get(p, "code") == JInt(51001) ==> Request(Response(status, Some(JObject(p)))).error.SymbolNotSupported?
  {
    assert IntToString(51001) == "51001";
  }

  // ------------------------------------------------------------------
  // Sorting

  /** Insert `k` after every element whose open time is not later than its own. */
  function InsertByOpenTime(sorted: seq<Kline>, k: Kline): (r: seq<Kline>)
    requires SortedByOpenTime(sorted)
    ensures SortedByOpenTime(r)
    ensures multiset(r) == multiset(sorted) + multiset{k}
    ensures |r| == |sorted| + 1
    ensures forall i :: 0 <= i < |r| ==> r[i] == k || r[i] in sorted
  {
    if |sorted| == 0 then [k]
    else if sorted[|sorted| - 1].openTime <= k.openTime then sorted + [k]
    else
      var last := sorted[|sorted| - 1];
      var front := sorted[..|sorted| - 1];
      assert sorted == front + [last];
      assert SortedByOpenTime(front);
      var inserted := InsertByOpenTime(front, k);
      InsertBeforeLast(front, last, k, inserted);
      inserted + [last]
  }

  /** Putting `last` back after the insertion into the front keeps the result sorted
      and holding the same klines. */
  lemma InsertBeforeLast(front: seq<Kline>, last: Kline, k: Kline, inserted: seq<Kline>)
    requires SortedByOpenTime(front + [last]) && k.openTime < last.openTime
    requires SortedByOpenTime(inserted) && multiset(inserted) == multiset(front) + multiset{k}
    requires forall i :: 0 <= i < |inserted| ==> inserted[i] == k || inserted[i] in front
    ensures SortedByOpenTime(inserted + [last])
    ensures multiset(inserted + [last]) == multiset(front + [last]) + multiset{k}
    ensures forall i :: 0 <= i < |inserted| + 1 ==> (inserted + [last])[i] == k || (inserted + [last])[i] in front + [last]
  {
    assert forall x :: x in front ==> x.openTime <= last.openTime by {
      forall x | x in front ensures x.openTime <= last.openTime {
        var j :| 0 <= j < |front| && front[j] == x;
        assert (front + [last])[j] == x && (front + [last])[|front|] == last;
      }
    }
    assert forall i :: 0 <= i < |inserted| ==> inserted[i].openTime <= last.openTime;
  }

  /** `_sort_klines`: a stable ascending sort on the open time. */
  function SortKlines(ks: seq<Kline>): (r: seq<Kline>)
    ensures SortedByOpenTime(r)
    ensures multiset(r) == multiset(ks)
    ensures |r| == |ks|
    ensures forall i :: 0 <= i < |r| ==> r[i] in ks
  {
    if |ks| == 0 then []
    else
      var front := ks[..|ks| - 1];
      assert ks == front + [ks[|ks| - 1]];
      var r := InsertByOpenTime(SortKlines(front), ks[|ks| - 1]);
      assert forall x :: x in front ==> x in ks;
      r
  }

  /** A kline no earlier than the last one is appended. */
  lemma InsertAtEnd(sorted: seq<Kline>, k: Kline)
    requires SortedByOpenTime(sorted)
    requires |sorted| == 0 || sorted[|sorted| - 1].openTime <= k.openTime
    ensures InsertByOpenTime(sorted, k) == sorted + [k]
  {
  }

  /** Dropping the last kline of a sorted sequence keeps it sorted, and the dropped
      kline opens no earlier than the new last one. */
  lemma SortedFront(ks: seq<Kline>)
    requires SortedByOpenTime(ks) && |ks| > 0
    ensures SortedByOpenTime(ks[..|ks| - 1])
    ensures |ks| > 1 ==> ks[..|ks| - 1][|ks| - 2].openTime <= ks[|ks| - 1].openTime
  {
    var front := ks[..|ks| - 1];
    assert forall i :: 0 <= i < |front| ==> front[i] == ks[i];
  }

  /** Sorting an already ordered list changes nothing. */
  lemma {:induction false} SortKlinesIdempotent(ks: seq<Kline>)
    requires SortedByOpenTime(ks)
    ensures SortKlines(ks) == ks
  {
    if |ks| > 0 {
      var front := ks[..|ks| - 1];
      var last := ks[|ks| - 1];
      SortedFront(ks);
      SortKlinesIdempotent(front);
      InsertAtEnd(front, last);
      assert ks == front + [last];
    }
  }

  // ------------------------------------------------------------------
  // Request parameters

  /** The parameters `_fetch_candles` sends: instrument, bar, the inverted time
      filters and the enforced limit as text. */
  function CandleParams(q: HistoricalWindow, instId: string, maxLimit: int, endpointName: string): (r: Result<Params>)
    ensures EnforceLimit(q.limit, maxLimit, endpointName).Err? <==> r.Err?
    ensures r.Err? ==> r.error == EnforceLimit(q.limit, maxLimit, endpointName).error
    ensures r.Ok? ==> r.value.Keys == {"instId", "bar", "limit"}
                                      + (if q.startTime.Some? then {"before"} else {})
                                      + (if q.endTime.Some? then {"after"} else {})
    ensures r.Ok? ==> r.value["instId"] == PStr(instId) && r.value["bar"] == PStr(MapInterval(q.interval).value)
                      && r.value["limit"] == PStr(IntToString(EnforceLimit(q.limit, maxLimit, endpointName).value))
    ensures r.Ok? && q.startTime.Some? ==> r.value["before"] == PStr(IntToString(q.startTime.value))
    ensures r.Ok? && q.endTime.Some? ==> r.value["after"] == PStr(IntToString(q.endTime.value))
  {
    var params := ApplyTimeFilters(map["instId" := PStr(instId), "bar" := PStr(MapInterval(q.interval).value)], q.startTime, q.endTime);
    var limit :- EnforceLimit(q.limit, maxLimit, endpointName);
    Ok(params["limit" := PStr(IntToString(limit))])
  }

  /** The parameters `_fetch_premium_history` sends. */
  function PremiumHistoryParams(q: HistoricalWindow): (r: Result<Params>)
    ensures r.Ok? <==> EnforceLimit(q.limit, PREMIUM_HISTORY_MAX_LIMIT, "premium index history").Ok?
    ensures r.Err? ==> r.error == EnforceLimit(q.limit, PREMIUM_HISTORY_MAX_LIMIT, "premium index history").error
    ensures r.Ok? ==> r.value.Keys == {"instId", "limit"}
                                      + (if q.startTime.Some? then {"before"} else {})
                                      + (if q.endTime.Some? then {"after"} else {})
    ensures r.Ok? ==> r.value["instId"] == PStr(ContractInstId(q.symbol))
                      && r.value["limit"] == PStr(IntToString(EnforceLimit(q.limit, PREMIUM_HISTORY_MAX_LIMIT, "premium index history").value))
    ensures r.Ok? && q.startTime.Some? ==> r.value["before"] == PStr(IntToString(q.startTime.value))
    ensures r.Ok? && q.endTime.Some? ==> r.value["after"] == PStr(IntToString(q.endTime.value))
  {
    var params := ApplyTimeFilters(map["instId" := PStr(ContractInstId(q.symbol))], q.startTime, q.endTime);
    var limit :- EnforceLimit(q.limit, PREMIUM_HISTORY_MAX_LIMIT, "premium index history");
    Ok(params["limit" := PStr(IntToString(limit))])
  }

  /** The parameters `get_funding_rate_history` sends: the window's time bounds are
      not passed on. */
  function FundingHistoryParams(q: FundingRateWindow): (r: Result<Params>)
    ensures r.Ok? <==> q.limit <= FUNDING_HISTORY_MAX_LIMIT || q.limit == DEFAULT_LIMIT
    ensures r.Err? ==> r.error == EnforceLimit(q.limit, FUNDING_HISTORY_MAX_LIMIT, "funding rate history").error
    ensures r.Ok? ==> r.value.Keys == {"instId", "limit"} && r.value["instId"] == PStr(ContractInstId(q.symbol))
                      && r.value["limit"] == PStr(IntToString(EnforceLimit(q.limit, FUNDING_HISTORY_MAX_LIMIT, "funding rate history").value))
  {
    var limit :- EnforceLimit(q.limit, FUNDING_HISTORY_MAX_LIMIT, "funding rate history");
    Ok(map["instId" := PStr(ContractInstId(q.symbol)), "limit" := PStr(IntToString(limit))])
  }

  /** For a window with both bounds, `before` reads back as the start and `after` as
      the end, so `before < after` even though OKX's names suggest the opposite. */
  lemma CandleFiltersInverted(q: HistoricalWindow, instId: string, maxLimit: int, endpointName: string)
    requires q.Valid() && q.startTime.Some? && q.endTime.Some?
    requires CandleParams(q, instId, maxLimit, endpointName).Ok?
    ensures var p := CandleParams(q, instId, maxLimit, endpointName).value;
            ParseInt(p["before"].s) == Ok(q.startTime.value) && ParseInt(p["after"].s) == Ok(q.endTime.value)
            && q.startTime.value < q.endTime.value
  {
    IntToStringRoundTrip(q.startTime.value);
    IntToStringRoundTrip(q.endTime.value);
  }

  /** The default limit against the 300-row price cap is clamped; an explicit 301 is
      rejected before any request is made. */
  lemma PriceLimitPolicy(q: HistoricalWindow)
    ensures q.limit == DEFAULT_LIMIT ==>
              CandleParams(q, ContractInstId(q.symbol), PRICE_KLINES_MAX_LIMIT, "price klines").value["limit"] == PStr("300")
    ensures q.limit == 301 ==> CandleParams(q, ContractInstId(q.symbol), PRICE_KLINES_MAX_LIMIT, "price klines").Err?
  {
    assert IntToString(300) == "300";
  }

  // ------------------------------------------------------------------
  // Historical series

  /** The raw candle rows `_fetch_candles` returns for one reply. */
  function FetchCandles(q: HistoricalWindow, instId: string, endpointName: string, maxLimit: int, reply: Reply)
    : (r: Result<seq<Json>>)
    ensures CandleParams(q, instId, maxLimit, endpointName).Err? ==> r == Err(CandleParams(q, instId, maxLimit, endpointName).error)
    ensures CandleParams(q, instId, maxLimit, endpointName).Ok? && Request(reply).Err? ==> r == Err(Request(reply).error)
    ensures CandleParams(q, instId, maxLimit, endpointName).Ok? && Request(reply).Ok? ==>
              r == ExtractSequence(Request(reply).value, endpointName)
    ensures r.Ok? ==> Request(reply).Ok? && |r.value| > 0
  {
    var _ :- CandleParams(q, instId, maxLimit, endpointName);
    var payload :- Request(reply);
    ExtractSequence(payload, endpointName)
  }

  /** Parse every row of a candle payload, in payload order. */
  function ParseKlineEntries(entries: seq<Json>, zeroVolume: bool): (r: Result<seq<Kline>>)
    ensures r.Ok? <==> forall i :: 0 <= i < |entries| ==> ParseKlineEntry(entries[i], zeroVolume).Ok?
    ensures r.Ok? ==> |r.value| == |entries|
                      && forall i :: 0 <= i < |entries| ==> ParseKlineEntry(entries[i], zeroVolume) == Ok(r.value[i])
    ensures r.Ok? && zeroVolume ==> forall i :: 0 <= i < |r.value| ==> r.value[i].volume == Zero
  {
    MapAll(entries, (e: Json) => ParseKlineEntry(e, zeroVolume))
  }

  /** Parse every row of a candle payload, then sort by open time. */
  function CandleSeries(entries: seq<Json>, zeroVolume: bool): (r: Result<seq<Kline>>)
    ensures r.Err? <==> ParseKlineEntries(entries, zeroVolume).Err?
    ensures r.Ok? ==> SortedByOpenTime(r.value) && |r.value| == |entries|
    ensures r.Ok? ==> multiset(r.value) == multiset(ParseKlineEntries(entries, zeroVolume).value)
    ensures r.Ok? && zeroVolume ==> forall i :: 0 <= i < |r.value| ==> r.value[i].volume == Zero
  {
    var ks :- ParseKlineEntries(entries, zeroVolume);
    Ok(SortKlines(ks))
  }

  /** `get_price_klines`: contract instrument, 300-row cap, quote volume preferred. */
  function PriceKlines(q: HistoricalWindow, reply: Reply): (r: Result<seq<Kline>>)
    ensures var p := CandleParams(q, ContractInstId(q.symbol), PRICE_KLINES_MAX_LIMIT, "price klines");
            p.Err? ==> r == Err(p.error)
    ensures r.Ok? ==> |r.value| > 0 && SortedByOpenTime(r.value)
    ensures var rows := FetchCandles(q, ContractInstId(q.symbol), "price klines", PRICE_KLINES_MAX_LIMIT, reply);
            (rows.Err? ==> r == Err(rows.error)) && (rows.Ok? ==> r == CandleSeries(rows.value, false))
  {
    var entries :- FetchCandles(q, ContractInstId(q.symbol), "price klines", PRICE_KLINES_MAX_LIMIT, reply);
    CandleSeries(entries, false)
  }

  /** `get_index_price_klines`: index instrument, 100-row cap, zero volume. */
  function IndexPriceKlines(q: HistoricalWindow, reply: Reply): (r: Result<seq<Kline>>)
    ensures var p := CandleParams(q, IndexInstId(q.symbol), INDEX_KLINES_MAX_LIMIT, "index price klines");
            p.Err? ==> r == Err(p.error)
    ensures r.Ok? ==> |r.value| > 0 && SortedByOpenTime(r.value)
    ensures r.Ok? ==> forall i :: 0 <= i < |r.value| ==> r.value[i].volume == Zero
    ensures var rows := FetchCandles(q, IndexInstId(q.symbol), "index price klines", INDEX_KLINES_MAX_LIMIT, reply);
            (rows.Err? ==> r == Err(rows.error)) && (rows.Ok? ==> r == CandleSeries(rows.value, true))
  {
    var entries :- FetchCandles(q, IndexInstId(q.symbol), "index price klines", INDEX_KLINES_MAX_LIMIT, reply);
    CandleSeries(entries, true)
  }

  /** `get_mark_price_klines`: contract instrument, 100-row cap, zero volume. */
  function MarkPriceKlines(q: HistoricalWindow, reply: Reply): (r: Result<seq<Kline>>)
    ensures var p := CandleParams(q, ContractInstId(q.symbol), MARK_PRICE_KLINES_MAX_LIMIT, "mark price klines");
            p.Err? ==> r == Err(p.error)
    ensures r.Ok? ==> |r.value| > 0 && SortedByOpenTime(r.value)
    ensures r.Ok? ==> forall i :: 0 <= i < |r.value| ==> r.value[i].volume == Zero
    ensures var rows := FetchCandles(q, ContractInstId(q.symbol), "mark price klines", MARK_PRICE_KLINES_MAX_LIMIT, reply);
            (rows.Err? ==> r == Err(rows.error)) && (rows.Ok? ==> r == CandleSeries(rows.value, true))
  {
    var entries :- FetchCandles(q, ContractInstId(q.symbol), "mark price klines", MARK_PRICE_KLINES_MAX_LIMIT, reply);
    CandleSeries(entries, true)
  }

  /** `_fetch_premium_history` for one reply. */
  function FetchPremiumHistory(q: HistoricalWindow, reply: Reply): (r: Result<seq<Json>>)
    ensures PremiumHistoryParams(q).Err? ==> r == Err(PremiumHistoryParams(q).error)
    ensures PremiumHistoryParams(q).Ok? && Request(reply).Err? ==> r == Err(Request(reply).error)
    ensures PremiumHistoryParams(q).Ok? && Request(reply).Ok? ==>
              r == ExtractSequence(Request(reply).value, "premium index history")
    ensures r.Ok? ==> Request(reply).Ok? && |r.value| > 0
  {
    var _ :- PremiumHistoryParams(q);
    var payload :- Request(reply);
    ExtractSequence(payload, "premium index history")
  }

  /** `get_premium_index_klines`: flat klines from the premium history, sorted. */
  function PremiumIndexKlines(q: HistoricalWindow, reply: Reply): (r: Result<seq<Kline>>)
    ensures PremiumHistoryParams(q).Err? ==> r == Err(PremiumHistoryParams(q).error)
    ensures r.Ok? ==> |r.value| > 0 && SortedByOpenTime(r.value)
    ensures r.Ok? ==> forall i :: 0 <= i < |r.value| ==> IsFlat(r.value[i])
    ensures var entries := FetchPremiumHistory(q, reply);
            entries.Err? ==> r == Err(entries.error)
    ensures var entries := FetchPremiumHistory(q, reply);
            entries.Ok? ==> var ks := MapAll(entries.value, BuildFlatKline);
                            (ks.Err? ==> r == Err(ks.error)) && (ks.Ok? ==> r == Ok(SortKlines(ks.value)))
    ensures r.Ok? ==> var entries := FetchPremiumHistory(q, reply);
                      entries.Ok? && MapAll(entries.value, BuildFlatKline).Ok?
                      && multiset(r.value) == multiset(MapAll(entries.value, BuildFlatKline).value)
  {
    var entries :- FetchPremiumHistory(q, reply);
    var ks :- MapAll(entries, BuildFlatKline);
    assert forall i :: 0 <= i < |ks| ==> IsFlat(ks[i]) by {
      forall i | 0 <= i < |ks| ensures IsFlat(ks[i]) {
        assert BuildFlatKline(entries[i]) == Ok(ks[i]);
      }
    }
    var sorted := SortKlines(ks);
    FlatKept(ks, sorted);
    Ok(sorted)
  }

  /** Four equal prices and zero volume: a kline built from a single premium value. */
  predicate IsFlat(k: Kline) {
    k.open == k.high == k.low == k.close && k.volume == Zero
  }

  /** Reordering flat klines leaves them flat. */
  lemma FlatKept(ks: seq<Kline>, sorted: seq<Kline>)
    requires forall i :: 0 <= i < |ks| ==> IsFlat(ks[i])
    requires forall i :: 0 <= i < |sorted| ==> sorted[i] in ks
    ensures forall i :: 0 <= i < |sorted| ==> IsFlat(sorted[i])
  {
    forall i | 0 <= i < |sorted| ensures IsFlat(sorted[i]) {
      var j :| 0 <= j < |ks| && ks[j] == sorted[i];
    }
  }

  /** `get_funding_rate_history`: points in the order OKX sends them. */
  function FundingRateHistory(q: FundingRateWindow, reply: Reply): (r: Result<seq<Point>>)
    ensures FundingHistoryParams(q).Err? ==> r == Err(FundingHistoryParams(q).error)
    ensures FundingHistoryParams(q).Ok? && Request(reply).Err? ==> r == Err(Request(reply).error)
    ensures FundingHistoryParams(q).Ok? && Request(reply).Ok? ==>
              var entries := ExtractSequence(Request(reply).value, "funding rate history");
              (entries.Err? ==> r == Err(entries.error))
              && (entries.Ok? ==> r == MapAll(entries.value, ParseFundingPoint))
    ensures r.Ok? ==> |r.value| > 0
  {
    var _ :- FundingHistoryParams(q);
    var payload :- Request(reply);
    var entries :- ExtractSequence(payload, "funding rate history");
    MapAll(entries, ParseFundingPoint)
  }

  // ------------------------------------------------------------------
  // Latest snapshots

  /** Every entry before position `k` is a dict whose `instId` is not `instId`: the
      generator of `next(...)` passes over all of them without raising. */
  predicate NoMatchBefore(entries: seq<Json>, k: int, instId: string)
    requires 0 <= k <= |entries|
  {
    forall j :: 0 <= j < k ==> entries[j].JObject? && Get(entries[j].fields, "instId") != JStr(instId)
  }

  /** `next((item for item in entries if item.get("instId") == inst_id), None)`:
      items are inspected in order. The result is the first matching dict; None when
      every item is a dict without that id; and the AttributeError of `.get` when a
      non-dict comes before any match. */
  function FindByInstId(entries: seq<Json>, instId: string): (r: Result<Option<Object>>)
    ensures r.Ok? && r.value.Some? ==>
              Get(r.value.value, "instId") == JStr(instId)
              && exists k :: 0 <= k < |entries| && entries[k] == JObject(r.value.value) && NoMatchBefore(entries, k, instId)
    ensures r.Ok? && r.value.None? ==> NoMatchBefore(entries, |entries|, instId)
    ensures r.Err? ==> r.error.AttributeError?
                       && exists k :: 0 <= k < |entries| && !entries[k].JObject? && NoMatchBefore(entries, k, instId)
  {
    if |entries| == 0 then Ok(None)
    else if !entries[0].JObject? then
      assert NoMatchBefore(entries, 0, instId);
      Err(AttributeError("'" + TypeName(entries[0]) + "' object has no attribute 'get'"))
    else if Get(entries[0].fields, "instId") == JStr(instId) then
      assert NoMatchBefore(entries, 0, instId);
      Ok(Some(entries[0].fields))
    else
      var rest := FindByInstId(entries[1..], instId);
      assert NoMatchBefore(entries, |entries|, instId) <== NoMatchBefore(entries[1..], |entries| - 1, instId) by {
        if NoMatchBefore(entries[1..], |entries| - 1, instId) {
          NoMatchShift(entries, |entries| - 1, instId);
        }
      }
      assert rest.Ok? && rest.value.Some? ==>
               exists k :: 0 <= k < |entries| && entries[k] == JObject(rest.value.value) && NoMatchBefore(entries, k, instId) by {
        if rest.Ok? && rest.value.Some? {
          var k :| 0 <= k < |entries| - 1 && entries[1..][k] == JObject(rest.value.value) && NoMatchBefore(entries[1..], k, instId);
          NoMatchShift(entries, k, instId);
        }
      }
      assert rest.Err? ==> exists k :: 0 <= k < |entries| && !entries[k].JObject? && NoMatchBefore(entries, k, instId) by {
        if rest.Err? {
          var k :| 0 <= k < |entries| - 1 && !entries[1..][k].JObject? && NoMatchBefore(entries[1..], k, instId);
          NoMatchShift(entries, k, instId);
        }
      }
      rest
  }

  /** Passing over a non-matching dict at the head moves every prefix fact one place on. */
  lemma NoMatchShift(entries: seq<Json>, k: nat, instId: string)
    requires |entries| > 0 && k < |entries| && NoMatchBefore(entries[1..], k, instId)
    requires entries[0].JObject? && Get(entries[0].fields, "instId") != JStr(instId)
    ensures NoMatchBefore(entries, k + 1, instId)
    ensures k + 1 < |entries| ==> entries[k + 1] == entries[1..][k]
  {
    assert forall j :: 1 <= j <= k ==> entries[j] == entries[1..][j - 1];
  }

  /** `_fetch_ticker`: the swap ticker whose id is the contract id. */
  function FetchTicker(s: Symbol, reply: Reply): (r: Result<Object>)
    ensures r.Ok? ==> Get(r.value, "instId") == JStr(ContractInstId(s))
    ensures Request(reply).Err? ==> r == Err(Request(reply).error)
    ensures Request(reply).Ok? ==>
              var entries := ExtractSequence(Request(reply).value, "tickers");
              (entries.Err? ==> r == Err(entries.error))
              && (entries.Ok? ==>
                    var found := FindByInstId(entries.value, ContractInstId(s));
                    (found.Err? ==> r == Err(found.error))
                    && (found == Ok(None) ==> r == Err(MarketDataError("OKX ticker payload missing " + ContractInstId(s))))
                    && (found.Ok? && found.value.Some? ==> r == Ok(found.value.value)))
  {
    var payload :- Request(reply);
    var entries :- ExtractSequence(payload, "tickers");
    var found :- FindByInstId(entries, ContractInstId(s));
    if found.None? then Err(MarketDataError("OKX ticker payload missing " + ContractInstId(s))) else Ok(found.value)
  }

  /** `_fetch_index_ticker`: the index ticker whose id is the index id. */
  function FetchIndexTicker(s: Symbol, reply: Reply): (r: Result<Object>)
    ensures r.Ok? ==> Get(r.value, "instId") == JStr(IndexInstId(s))
    ensures Request(reply).Err? ==> r == Err(Request(reply).error)
    ensures Request(reply).Ok? ==>
              var entries := ExtractSequence(Request(reply).value, "index tickers");
              (entries.Err? ==> r == Err(entries.error))
              && (entries.Ok? ==>
                    var found := FindByInstId(entries.value, IndexInstId(s));
                    (found.Err? ==> r == Err(found.error))
                    && (found == Ok(None) ==> r == Err(MarketDataError("OKX index ticker payload missing " + IndexInstId(s))))
                    && (found.Ok? && found.value.Some? ==> r == Ok(found.value.value)))
  {
    var payload :- Request(reply);
    var entries :- ExtractSequence(payload, "index tickers");
    var found :- FindByInstId(entries, IndexInstId(s));
    if found.None? then Err(MarketDataError("OKX index ticker payload missing " + IndexInstId(s))) else Ok(found.value)
  }

  /** `_fetch_mark_snapshot`: the entry for the contract id, or else the first one. */
  function FetchMarkSnapshot(s: Symbol, reply: Reply): (r: Result<Json>)
    ensures Request(reply).Err? ==> r == Err(Request(reply).error)
    ensures r.Ok? ==> Request(reply).Ok? && ExtractSequence(Request(reply).value, "mark price snapshot").Ok?
                      && var entries := ExtractSequence(Request(reply).value, "mark price snapshot").value;
                         r.value in entries
                         && (r.value != entries[0] ==> r.value.JObject? && Get(r.value.fields, "instId") == JStr(ContractInstId(s)))
    ensures Request(reply).Ok? && ExtractSequence(Request(reply).value, "mark price snapshot").Ok? ==>
              var entries := ExtractSequence(Request(reply).value, "mark price snapshot").value;
              var found := FindByInstId(entries, ContractInstId(s));
              (found.Err? ==> r == Err(found.error))
              && (found.Ok? && found.value.Some? ==> r == Ok(JObject(found.value.value)))
              && (found == Ok(None) ==> r == Ok(entries[0]))
  {
    var payload :- Request(reply);
    var entries :- ExtractSequence(payload, "mark price snapshot");
    var found :- FindByInstId(entries, ContractInstId(s));
    if found.Some? then Ok(JObject(found.value)) else Ok(entries[0])
  }

  /** `ticker.get("ts") or index_ticker.get("ts") or mark_entry.get("ts") or 0`:
      the mark entry is only read when both tickers lack a time. */
  function TickerTimestamp(ticker: Object, index: Object, markEntry: Json): (r: Result<Json>)
    ensures Truthy(Get(ticker, "ts")) ==> r == Ok(Get(ticker, "ts"))
    ensures !Truthy(Get(ticker, "ts")) && Truthy(Get(index, "ts")) ==> r == Ok(Get(index, "ts"))
    ensures !Truthy(Get(ticker, "ts")) && !Truthy(Get(index, "ts")) ==>
              (r.Ok? <==> markEntry.JObject?)
              && (r.Ok? ==> r.value == Or(Get(markEntry.fields, "ts"), JInt(0)))
  {
    if Truthy(Get(ticker, "ts")) then Ok(Get(ticker, "ts"))
    else if Truthy(Get(index, "ts")) then Ok(Get(index, "ts"))
    else
      var m :- AsObject(markEntry);
      Ok(Or(Get(m, "ts"), JInt(0)))
  }

  /** `get_latest_ticker`: three requests. The timestamp is the first truthy `ts` of
      the ticker, the index ticker and the mark entry, else 0. */
  function LatestTicker(s: Symbol, tickerReply: Reply, indexReply: Reply, markReply: Reply): (r: Result<Ticker>)
    ensures FetchTicker(s, tickerReply).Err? ==> r == Err(FetchTicker(s, tickerReply).error)
    ensures r.Ok? ==> var t := FetchTicker(s, tickerReply).value;
                      ToDecimal(Get(t, "last")) == Ok(r.value.lastPrice)
                      && (Truthy(Get(t, "ts")) ==> ToInt(Get(t, "ts")) == Ok(r.value.timestamp))
    ensures r.Ok? ==> FetchIndexTicker(s, indexReply).Ok?
                      && ToDecimal(Get(FetchIndexTicker(s, indexReply).value, "idxPx")) == Ok(r.value.indexPrice)
    ensures r.Ok? ==> FetchMarkSnapshot(s, markReply).Ok? && FetchMarkSnapshot(s, markReply).value.JObject?
                      && ToDecimal(Get(FetchMarkSnapshot(s, markReply).value.fields, "markPx")) == Ok(r.value.markPrice)
    ensures r.Ok? ==> var ts := TickerTimestamp(FetchTicker(s, tickerReply).value, FetchIndexTicker(s, indexReply).value,
                                                FetchMarkSnapshot(s, markReply).value);
                      ts.Ok? && ToInt(ts.value) == Ok(r.value.timestamp)
    ensures FetchTicker(s, tickerReply).Ok? && FetchIndexTicker(s, indexReply).Err? ==>
              r == Err(FetchIndexTicker(s, indexReply).error)
    ensures FetchTicker(s, tickerReply).Ok? && FetchIndexTicker(s, indexReply).Ok? && FetchMarkSnapshot(s, markReply).Err? ==>
              r == Err(FetchMarkSnapshot(s, markReply).error)
    ensures FetchTicker(s, tickerReply).Ok? && FetchIndexTicker(s, indexReply).Ok? && FetchMarkSnapshot(s, markReply).Ok? ==>
              var t := FetchTicker(s, tickerReply).value;
              var i := FetchIndexTicker(s, indexReply).value;
              var e := FetchMarkSnapshot(s, markReply).value;
              var ts := TickerTimestamp(t, i, e);
              (ts.Err? ==> r == Err(ts.error))
              && (r.Ok? <==> ts.Ok? && ToInt(ts.value).Ok? && ToDecimal(Get(t, "last")).Ok?
                             && ToDecimal(Get(i, "idxPx")).Ok? && e.JObject? && ToDecimal(Get(e.fields, "markPx")).Ok?)
  {
    var ticker :- FetchTicker(s, tickerReply);
    var index :- FetchIndexTicker(s, indexReply);
    var markEntry :- FetchMarkSnapshot(s, markReply);
    var tsValue :- TickerTimestamp(ticker, index, markEntry);
    var ts :- ToInt(tsValue);
    var last :- ToDecimal(Get(ticker, "last"));
    var indexPrice :- ToDecimal(Get(index, "idxPx"));
    var mark :- AsObject(markEntry);
    var markPrice :- ToDecimal(Get(mark, "markPx"));
    Ok(Ticker(ts, last, indexPrice, markPrice))
  }

  /** `get_latest_mark_price`: `(timestamp, mark_price)`. */
  function LatestMarkPrice(s: Symbol, reply: Reply): (r: Result<Point>)
    ensures r.Ok? ==> FetchMarkSnapshot(s, reply).Ok? && var e := FetchMarkSnapshot(s, reply).value;
                      e.JObject? && ToDecimal(Get(e.fields, "markPx")) == Ok(r.value.value)
                      && (Truthy(Get(e.fields, "ts")) ==> ToInt(Get(e.fields, "ts")) == Ok(r.value.timestamp))
                      && (!Truthy(Get(e.fields, "ts")) ==> r.value.timestamp == 0)
    ensures FetchMarkSnapshot(s, reply).Err? ==> r == Err(FetchMarkSnapshot(s, reply).error)
  {
    var entry :- FetchMarkSnapshot(s, reply);
    var m :- AsObject(entry);
    var markPrice :- ToDecimal(Get(m, "markPx"));
    var ts :- ToInt(Or(Get(m, "ts"), JInt(0)));
    Ok(Point(ts, markPrice))
  }

  /** `get_latest_index_price`: `(timestamp, index_price)`. */
  function LatestIndexPrice(s: Symbol, reply: Reply): (r: Result<Point>)
    ensures FetchIndexTicker(s, reply).Err? ==> r == Err(FetchIndexTicker(s, reply).error)
    ensures r.Ok? ==> var e := FetchIndexTicker(s, reply).value;
                      ToDecimal(Get(e, "idxPx")) == Ok(r.value.value)
                      && (Truthy(Get(e, "ts")) ==> ToInt(Get(e, "ts")) == Ok(r.value.timestamp))
                      && (!Truthy(Get(e, "ts")) ==> r.value.timestamp == 0)
    ensures FetchIndexTicker(s, reply).Ok? ==>
              var e := FetchIndexTicker(s, reply).value;
              var value := ToDecimal(Get(e, "idxPx"));
              var ts := ToInt(Or(Get(e, "ts"), JInt(0)));
              (value.Err? ==> r == Err(value.error))
              && (value.Ok? && ts.Err? ==> r == Err(ts.error))
              && (value.Ok? && ts.Ok? ==> r == Ok(Point(ts.value, value.value)))
  {
    var entry :- FetchIndexTicker(s, reply);
    var value :- ToDecimal(Get(entry, "idxPx"));
    var ts :- ToInt(Or(Get(entry, "ts"), JInt(0)));
    Ok(Point(ts, value))
  }

  /** `get_latest_premium_index`: a one-row premium history; the first record's time
      and premium. */
  function LatestPremiumIndex(s: Symbol, reply: Reply): (r: Result<Point>)
    ensures r.Ok? ==> var entries := FetchPremiumHistory(HistoricalWindow(s, Minute1, None, None, 1), reply);
                      entries.Ok? && BuildFlatKline(entries.value[0]).Ok?
                      && r.value == Point(BuildFlatKline(entries.value[0]).value.openTime,
                                          BuildFlatKline(entries.value[0]).value.close)
    ensures Request(reply).Err? ==> r == Err(Request(reply).error)
    ensures var entries := FetchPremiumHistory(HistoricalWindow(s, Minute1, None, None, 1), reply);
            && (entries.Err? ==> r == Err(entries.error))
            && (entries.Ok? ==>
                  var k := BuildFlatKline(entries.value[0]);
                  (k.Err? ==> r == Err(k.error))
                  && (k.Ok? ==> r == Ok(Point(k.value.openTime, k.value.close))))
  {
    // A one-row window without bounds always passes the window checks.
    var window := HistoricalWindow(s, Minute1, None, None, 1);
    var entries :- FetchPremiumHistory(window, reply);
    var k :- BuildFlatKline(entries[0]);
    Ok(Point(k.openTime, k.close))
  }

  /** `get_latest_funding_rate`: the first entry's rate (`fundingRate`, else
      `nextFundingRate`) and time (`fundingTime`, `nextFundingTime`, `ts`, else 0). */
  function LatestFundingRate(s: Symbol, reply: Reply): (r: Result<FundingForecast>)
    ensures Request(reply).Err? ==> r == Err(Request(reply).error)
    ensures r.Ok? ==> Request(reply).Ok? && ExtractSequence(Request(reply).value, "latest funding rate").Ok?
                      && var e := ExtractSequence(Request(reply).value, "latest funding rate").value[0];
                      e.JObject?
                      && ToDecimal(Or(Get(e.fields, "fundingRate"), Get(e.fields, "nextFundingRate"))) == Ok(r.value.fundingRate)
                      && ToInt(Or(Or(Or(Get(e.fields, "fundingTime"), Get(e.fields, "nextFundingTime")), Get(e.fields, "ts")), JInt(0)))
                           == Ok(r.value.nextFundingTime)
                      && ((!Truthy(Get(e.fields, "fundingTime")) && !Truthy(Get(e.fields, "nextFundingTime"))
                           && !Truthy(Get(e.fields, "ts"))) ==> r.value.nextFundingTime == 0)
    ensures Request(reply).Ok? ==>
              var entries := ExtractSequence(Request(reply).value, "latest funding rate");
              (entries.Err? ==> r == Err(entries.error))
              && (entries.Ok? && !entries.value[0].JObject? ==> r.Err? && r.error.AttributeError?)
              && (entries.Ok? && entries.value[0].JObject? ==>
                    var e := entries.value[0].fields;
                    var rate := ToDecimal(Or(Get(e, "fundingRate"), Get(e, "nextFundingRate")));
                    var next := ToInt(Or(Or(Or(Get(e, "fundingTime"), Get(e, "nextFundingTime")), Get(e, "ts")), JInt(0)));
                    (rate.Err? ==> r == Err(rate.error))
                    && (rate.Ok? && next.Err? ==> r == Err(next.error))
                    && (rate.Ok? && next.Ok? ==> r == Ok(FundingForecast(rate.value, next.value))))
  {
    var payload :- Request(reply);
    var entries :- ExtractSequence(payload, "latest funding rate");
    var m :- AsObject(entries[0]);
    var rate :- ToDecimal(Or(Get(m, "fundingRate"), Get(m, "nextFundingRate")));
    var next :- ToInt(Or(Or(Or(Get(m, "fundingTime"), Get(m, "nextFundingTime")), Get(m, "ts")), JInt(0)));
    Ok(FundingForecast(rate, next))
  }

  /** `get_open_interest`: the first entry, valued in USD (`oiUsd`) when present,
      else in contracts (`oi`). */
  function OpenInterest(s: Symbol, reply: Reply): (r: Result<Point>)
    ensures Request(reply).Err? ==> r == Err(Request(reply).error)
    ensures r.Ok? ==> Request(reply).Ok? && ExtractSequence(Request(reply).value, "open interest").Ok?
                      && var e := ExtractSequence(Request(reply).value, "open interest").value[0];
                      e.JObject?
                      && (Truthy(Get(e.fields, "oiUsd")) ==> ToDecimal(Get(e.fields, "oiUsd")) == Ok(r.value.value))
                      && (!Truthy(Get(e.fields, "oiUsd")) ==> ToDecimal(Get(e.fields, "oi")) == Ok(r.value.value))
                      && (Truthy(Get(e.fields, "ts")) ==> ToInt(Get(e.fields, "ts")) == Ok(r.value.timestamp))
                      && (!Truthy(Get(e.fields, "ts")) ==> r.value.timestamp == 0)
  {
    var payload :- Request(reply);
    var entries :- ExtractSequence(payload, "open interest");
    var m :- AsObject(entries[0]);
    var ts :- ToInt(Or(Get(m, "ts"), JInt(0)));
    var value :- ToDecimal(Or(Get(m, "oiUsd"), Get(m, "oi")));
    Ok(Point(ts, value))
  }

  /** The entries `get_instruments` keeps: those settled in USDT. */
  function UsdtEntries(entries: seq<Json>): seq<Json> {
    if |entries| == 0 then []
    else if entries[0].JObject? && Get(entries[0].fields, "settleCcy") == JStr("USDT") then
      [entries[0]] + UsdtEntries(entries[1..])
    else UsdtEntries(entries[1..])
  }

  /** The filtering loop of `get_instruments`: non-USDT entries are skipped, the
      others parsed in order; a successful loop is parsing exactly the USDT entries. */
  function UsdtInstruments(entries: seq<Json>): (r: Result<seq<Instrument>>)
    ensures r.Ok? ==> forall i :: 0 <= i < |entries| ==> entries[i].JObject?
    ensures r.Ok? ==> MapAll(UsdtEntries(entries), ParseInstrument) == r
  {
    if |entries| == 0 then Ok([])
    else
      var m :- AsObject(entries[0]);
      if Get(m, "settleCcy") != JStr("USDT") then
        var rest :- UsdtInstruments(entries[1..]);
        assert forall i :: 1 <= i < |entries| ==> entries[i] == entries[1..][i - 1];
        Ok(rest)
      else
        var first :- ParseInstrument(entries[0]);
        var rest :- UsdtInstruments(entries[1..]);
        assert forall i :: 1 <= i < |entries| ==> entries[i] == entries[1..][i - 1];
        MapAllCons(entries[0], UsdtEntries(entries[1..]), ParseInstrument);
        Ok([first] + rest)
  }

  /** `get_instruments`: at least one USDT-settled swap, or an error. */
  function Instruments(reply: Reply): (r: Result<seq<Instrument>>)
    ensures Request(reply).Err? ==> r == Err(Request(reply).error)
    ensures r.Ok? ==> |r.value| > 0 && forall i :: 0 <= i < |r.value| ==> r.value[i].quoteAsset != ""
    ensures r.Ok? ==> Request(reply).Ok? && ExtractSequence(Request(reply).value, "instruments").Ok?
                      && |r.value| == |UsdtEntries(ExtractSequence(Request(reply).value, "instruments").value)|
                      && r == UsdtInstruments(ExtractSequence(Request(reply).value, "instruments").value)
    ensures Request(reply).Ok? && ExtractSequence(Request(reply).value, "instruments").Ok?
            && UsdtInstruments(ExtractSequence(Request(reply).value, "instruments").value) == Ok([]) ==>
              r == Err(MarketDataError("OKX did not return any USDT perpetual instruments"))
  {
    var payload :- Request(reply);
    var entries :- ExtractSequence(payload, "instruments");
    var instruments :- UsdtInstruments(entries);
    if |instruments| == 0 then Err(MarketDataError("OKX did not return any USDT perpetual instruments"))
    else Ok(instruments)
  }

  // ------------------------------------------------------------------
  // Round trips through a reply

  /** The body of a successful OKX reply: code "0" and the records under `data`. */
  function SuccessBody(data: seq<Json>): Object {
    map["code" := JStr("0"), "msg" := JStr(""), "data" := JArray(data)]
  }

  /** A 200 reply carrying `data` in a success envelope. */
  function SuccessReply(data: seq<Json>): Reply {
    Response(200, Some(JObject(SuccessBody(data))))
  }

  /** A success envelope passes `_request`, and a non-empty `data` list is what
      `_extract_sequence` returns. */
  lemma SuccessReplyAccepted(data: seq<Json>, endpointName: string)
    requires |data| > 0
    ensures Request(SuccessReply(data)) == Ok(SuccessBody(data))
    ensures ExtractSequence(SuccessBody(data), endpointName) == Ok(data)
  {
    var p := SuccessBody(data);
    assert Get(p, "code") == JStr("0");
    assert ResponseCode(p) == "0";
    assert Get(p, "data") == JArray(data);
  }

  /** A funding-history reply listing a series of points yields that series, in the
      order sent, whenever the window's limit is accepted. */
  lemma FundingRateHistoryRoundTrip(q: FundingRateWindow, ps: seq<Point>)
    requires |ps| > 0 && forall i :: 0 <= i < |ps| ==> IsDecimalText(ps[i].value.text)
    requires FundingHistoryParams(q).Ok?
    ensures FundingRateHistory(q, SuccessReply(FundingEntries(ps))) == Ok(ps)
  {
    SuccessReplyAccepted(FundingEntries(ps), "funding rate history");
    FundingEntriesRoundTrip(ps);
  }

  /** The candle rows of a series of klines, in order. */
  function KlineRows(ks: seq<Kline>): (r: seq<Json>)
    ensures |r| == |ks| && forall i :: 0 <= i < |ks| ==> r[i] == JArray(KlineRow(ks[i]))
  {
    seq(|ks|, i requires 0 <= i < |ks| => JArray(KlineRow(ks[i])))
  }

  /** The klines a candle feed reports for `ks`: the index and mark feeds drop the
      volume. */
  function Reported(ks: seq<Kline>, zeroVolume: bool): (r: seq<Kline>)
    ensures |r| == |ks|
    ensures forall i :: 0 <= i < |ks| ==> r[i] == if zeroVolume then ks[i].(volume := Zero) else ks[i]
    ensures !zeroVolume ==> r == ks
  {
    seq(|ks|, i requires 0 <= i < |ks| => if zeroVolume then ks[i].(volume := Zero) else ks[i])
  }

  /** The candle rows of well-formed klines parse back to those klines (less the volume
      on the zero-volume feeds), sorted by open time. */
  lemma CandleSeriesRoundTrip(ks: seq<Kline>, zeroVolume: bool)
    requires forall i :: 0 <= i < |ks| ==> ks[i].WellFormed()
    ensures CandleSeries(KlineRows(ks), zeroVolume) == Ok(SortKlines(Reported(ks, zeroVolume)))
  {
    var rows := KlineRows(ks);
    var want := Reported(ks, zeroVolume);
    forall i | 0 <= i < |ks| ensures ParseKlineEntry(rows[i], zeroVolume) == Ok(want[i]) {
      ParseKlineRoundTrip(ks[i]);
    }
    var parsed := ParseKlineEntries(rows, zeroVolume);
    assert parsed.Ok?;
    assert parsed.value == want;
  }

  /** A price-kline reply listing well-formed klines yields them sorted by open time
      whenever the window's limit is accepted; klines already in order come back
      unchanged. */
  lemma PriceKlinesRoundTrip(q: HistoricalWindow, ks: seq<Kline>)
    requires |ks| > 0 && forall i :: 0 <= i < |ks| ==> ks[i].WellFormed()
    requires CandleParams(q, ContractInstId(q.symbol), PRICE_KLINES_MAX_LIMIT, "price klines").Ok?
    ensures PriceKlines(q, SuccessReply(KlineRows(ks))) == Ok(SortKlines(ks))
    ensures SortedByOpenTime(ks) ==> PriceKlines(q, SuccessReply(KlineRows(ks))) == Ok(ks)
  {
    SuccessReplyAccepted(KlineRows(ks), "price klines");
    CandleSeriesRoundTrip(ks, false);
    if SortedByOpenTime(ks) {
      SortKlinesIdempotent(ks);
    }
  }

  /** An index-kline reply listing well-formed klines yields them with zero volume,
      sorted by open time, whenever the window's limit is accepted. */
  lemma IndexPriceKlinesRoundTrip(q: HistoricalWindow, ks: seq<Kline>)
    requires |ks| > 0 && forall i :: 0 <= i < |ks| ==> ks[i].WellFormed()
    requires CandleParams(q, IndexInstId(q.symbol), INDEX_KLINES_MAX_LIMIT, "index price klines").Ok?
    ensures IndexPriceKlines(q, SuccessReply(KlineRows(ks))) == Ok(SortKlines(Reported(ks, true)))
    ensures SortedByOpenTime(ks) && (forall i :: 0 <= i < |ks| ==> ks[i].volume == Zero) ==>
              IndexPriceKlines(q, SuccessReply(KlineRows(ks))) == Ok(ks)
  {
    SuccessReplyAccepted(KlineRows(ks), "index price klines");
    CandleSeriesRoundTrip(ks, true);
    ZeroVolumeUnchanged(ks);
  }

  /** A mark-kline reply listing well-formed klines yields them with zero volume,
      sorted by open time, whenever the window's limit is accepted. */
  lemma MarkPriceKlinesRoundTrip(q: HistoricalWindow, ks: seq<Kline>)
    requires |ks| > 0 && forall i :: 0 <= i < |ks| ==> ks[i].WellFormed()
    requires CandleParams(q, ContractInstId(q.symbol), MARK_PRICE_KLINES_MAX_LIMIT, "mark price klines").Ok?
    ensures MarkPriceKlines(q, SuccessReply(KlineRows(ks))) == Ok(SortKlines(Reported(ks, true)))
    ensures SortedByOpenTime(ks) && (forall i :: 0 <= i < |ks| ==> ks[i].volume == Zero) ==>
              MarkPriceKlines(q, SuccessReply(KlineRows(ks))) == Ok(ks)
  {
    SuccessReplyAccepted(KlineRows(ks), "mark price klines");
    CandleSeriesRoundTrip(ks, true);
    ZeroVolumeUnchanged(ks);
  }

  /** Klines that already carry zero volume and are in time order come back unchanged
      from a zero-volume feed. */
  lemma ZeroVolumeUnchanged(ks: seq<Kline>)
    ensures SortedByOpenTime(ks) && (forall i :: 0 <= i < |ks| ==> ks[i].volume == Zero) ==>
              SortKlines(Reported(ks, true)) == ks
  {
    if SortedByOpenTime(ks) && forall i :: 0 <= i < |ks| ==> ks[i].volume == Zero {
      assert Reported(ks, true) == ks;
      SortKlinesIdempotent(ks);
    }
  }

  /** An open-interest record as OKX sends it, valued in USD. */
  function OpenInterestEntry(p: Point): Json {
    JObject(map["ts" := JStr(IntToString(p.timestamp)), "oiUsd" := JStr(p.value.text)])
  }

  /** A reply carrying a point's open-interest record yields exactly that point. */
  lemma OpenInterestRoundTrip(s: Symbol, p: Point)
    requires IsDecimalText(p.value.text)
    ensures OpenInterest(s, SuccessReply([OpenInterestEntry(p)])) == Ok(p)
  {
    SuccessReplyAccepted([OpenInterestEntry(p)], "open interest");
    ToIntOfTimestamp(p.timestamp);
    DecimalFieldRoundTrip(p.value);
    var m := OpenInterestEntry(p).fields;
    assert Get(m, "ts") == JStr(IntToString(p.timestamp)) && Get(m, "oiUsd") == JStr(p.value.text);
  }

  /** A mark-price record for the symbol's contract, as OKX sends it. */
  function MarkEntry(s: Symbol, p: Point): Json {
    JObject(map["instId" := JStr(ContractInstId(s)), "ts" := JStr(IntToString(p.timestamp)),
                "markPx" := JStr(p.value.text)])
  }

  /** The symbol's own mark record is picked out of a reply that lists another
      contract first, and it yields exactly the point it was built from. */
  lemma LatestMarkPriceRoundTrip(s: Symbol, other: Point, p: Point)
    requires IsDecimalText(p.value.text)
    requires ContractInstId(s) != "OTHER-USDT-SWAP"
    ensures var first := JObject(map["instId" := JStr("OTHER-USDT-SWAP"), "markPx" := JStr(other.value.text)]);
            LatestMarkPrice(s, SuccessReply([first, MarkEntry(s, p)])) == Ok(p)
  {
    var first := JObject(map["instId" := JStr("OTHER-USDT-SWAP"), "markPx" := JStr(other.value.text)]);
    var entries := [first, MarkEntry(s, p)];
    SuccessReplyAccepted(entries, "mark price snapshot");
    assert Get(first.fields, "instId") != JStr(ContractInstId(s));
    assert entries[1..] == [MarkEntry(s, p)];
    assert FindByInstId(entries[1..], ContractInstId(s)) == Ok(Some(MarkEntry(s, p).fields));
    assert FindByInstId(entries, ContractInstId(s)) == Ok(Some(MarkEntry(s, p).fields));
    ToIntOfTimestamp(p.timestamp);
    DecimalFieldRoundTrip(p.value);
    var m := MarkEntry(s, p).fields;
    assert Get(m, "ts") == JStr(IntToString(p.timestamp)) && Get(m, "markPx") == JStr(p.value.text);
  }

  /** A listing whose only record carries the wanted id yields that record. */
  lemma FindOnlyRecord(m: Object, instId: string)
    requires Get(m, "instId") == JStr(instId)
    ensures FindByInstId([JObject(m)], instId) == Ok(Some(m))
  {
  }

  /** An index-ticker record for the symbol, as OKX sends it. */
  function IndexEntry(s: Symbol, p: Point): Json {
    JObject(map["instId" := JStr(IndexInstId(s)), "ts" := JStr(IntToString(p.timestamp)),
                "idxPx" := JStr(p.value.text)])
  }

  /** A reply carrying the symbol's index ticker yields exactly its point. */
  lemma LatestIndexPriceRoundTrip(s: Symbol, p: Point)
    requires IsDecimalText(p.value.text)
    ensures LatestIndexPrice(s, SuccessReply([IndexEntry(s, p)])) == Ok(p)
  {
    var m := IndexEntry(s, p).fields;
    SuccessReplyAccepted([IndexEntry(s, p)], "index tickers");
    FindOnlyRecord(m, IndexInstId(s));
    ToIntOfTimestamp(p.timestamp);
    DecimalFieldRoundTrip(p.value);
    assert Get(m, "ts") == JStr(IntToString(p.timestamp)) && Get(m, "idxPx") == JStr(p.value.text);
  }

  /** A swap-ticker record for the symbol, as OKX sends it. */
  function TickerEntry(s: Symbol, t: Ticker): Json {
    JObject(map["instId" := JStr(ContractInstId(s)), "ts" := JStr(IntToString(t.timestamp)),
                "last" := JStr(t.lastPrice.text)])
  }

  /** The three replies of a ticker request, each carrying one record built from the
      same ticker, yield exactly that ticker. */
  lemma LatestTickerRoundTrip(s: Symbol, t: Ticker)
    requires IsDecimalText(t.lastPrice.text) && IsDecimalText(t.indexPrice.text) && IsDecimalText(t.markPrice.text)
    ensures LatestTicker(s, SuccessReply([TickerEntry(s, t)]), SuccessReply([IndexEntry(s, Point(t.timestamp, t.indexPrice))]),
                         SuccessReply([MarkEntry(s, Point(t.timestamp, t.markPrice))])) == Ok(t)
  {
    var tm := TickerEntry(s, t).fields;
    var im := IndexEntry(s, Point(t.timestamp, t.indexPrice)).fields;
    var mm := MarkEntry(s, Point(t.timestamp, t.markPrice)).fields;
    TickerRecordsFetched(s, t);
    ToIntOfTimestamp(t.timestamp);
    DecimalFieldRoundTrip(t.lastPrice);
    DecimalFieldRoundTrip(t.indexPrice);
    DecimalFieldRoundTrip(t.markPrice);
    assert Get(tm, "ts") == JStr(IntToString(t.timestamp)) && Get(tm, "last") == JStr(t.lastPrice.text);
    assert Get(im, "idxPx") == JStr(t.indexPrice.text) && Get(mm, "markPx") == JStr(t.markPrice.text);
  }

  /** Each of the three replies of a ticker request yields the record it carries. */
  lemma TickerRecordsFetched(s: Symbol, t: Ticker)
    ensures FetchTicker(s, SuccessReply([TickerEntry(s, t)])) == Ok(TickerEntry(s, t).fields)
    ensures FetchIndexTicker(s, SuccessReply([IndexEntry(s, Point(t.timestamp, t.indexPrice))]))
            == Ok(IndexEntry(s, Point(t.timestamp, t.indexPrice)).fields)
    ensures FetchMarkSnapshot(s, SuccessReply([MarkEntry(s, Point(t.timestamp, t.markPrice))]))
            == Ok(MarkEntry(s, Point(t.timestamp, t.markPrice)))
  {
    SuccessReplyAccepted([TickerEntry(s, t)], "tickers");
    SuccessReplyAccepted([IndexEntry(s, Point(t.timestamp, t.indexPrice))], "index tickers");
    SuccessReplyAccepted([MarkEntry(s, Point(t.timestamp, t.markPrice))], "mark price snapshot");
    FindOnlyRecord(TickerEntry(s, t).fields, ContractInstId(s));
    FindOnlyRecord(IndexEntry(s, Point(t.timestamp, t.indexPrice)).fields, IndexInstId(s));
    FindOnlyRecord(MarkEntry(s, Point(t.timestamp, t.markPrice)).fields, ContractInstId(s));
  }

  /** A premium-history record, as OKX sends it. */
  function PremiumEntry(p: Point): Json {
    JObject(map["ts" := JStr(IntToString(p.timestamp)), "premium" := JStr(p.value.text)])
  }

  /** A reply carrying one premium record yields exactly its point. */
  lemma LatestPremiumIndexRoundTrip(s: Symbol, p: Point)
    requires IsDecimalText(p.value.text)
    ensures LatestPremiumIndex(s, SuccessReply([PremiumEntry(p)])) == Ok(p)
  {
    var m := PremiumEntry(p).fields;
    SuccessReplyAccepted([PremiumEntry(p)], "premium index history");
    ToIntOfTimestamp(p.timestamp);
    DecimalFieldRoundTrip(p.value);
    assert Get(m, "ts") == JStr(IntToString(p.timestamp)) && Get(m, "premium") == JStr(p.value.text);
  }

  /** The premium records of a series of points, in order. */
  function PremiumEntries(ps: seq<Point>): (r: seq<Json>)
    ensures |r| == |ps| && forall i :: 0 <= i < |ps| ==> r[i] == PremiumEntry(ps[i])
  {
    seq(|ps|, i requires 0 <= i < |ps| => PremiumEntry(ps[i]))
  }

  /** The flat kline a premium point stands for. */
  function FlatKline(p: Point): Kline {
    Kline(p.timestamp, p.value, p.value, p.value, p.value, Zero)
  }

  /** A premium record of a known point builds exactly that point's flat kline. */
  lemma BuildFlatKlineRoundTrip(p: Point)
    requires IsDecimalText(p.value.text)
    ensures BuildFlatKline(PremiumEntry(p)) == Ok(FlatKline(p))
  {
    var m := PremiumEntry(p).fields;
    ToIntOfTimestamp(p.timestamp);
    DecimalFieldRoundTrip(p.value);
    assert Get(m, "ts") == JStr(IntToString(p.timestamp)) && Get(m, "premium") == JStr(p.value.text);
  }

  /** A premium-history reply listing a series of points yields their flat klines,
      sorted by open time, whenever the window's limit is accepted; a series already in
      time order comes back unchanged. */
  lemma PremiumIndexKlinesRoundTrip(q: HistoricalWindow, ps: seq<Point>)
    requires |ps| > 0 && forall i :: 0 <= i < |ps| ==> IsDecimalText(ps[i].value.text)
    requires PremiumHistoryParams(q).Ok?
    ensures var flat := seq(|ps|, i requires 0 <= i < |ps| => FlatKline(ps[i]));
            PremiumIndexKlines(q, SuccessReply(PremiumEntries(ps))) == Ok(SortKlines(flat))
            && (SortedByOpenTime(flat) ==> PremiumIndexKlines(q, SuccessReply(PremiumEntries(ps))) == Ok(flat))
  {
    var entries := PremiumEntries(ps);
    var flat := seq(|ps|, i requires 0 <= i < |ps| => FlatKline(ps[i]));
    SuccessReplyAccepted(entries, "premium index history");
    forall i | 0 <= i < |ps| ensures BuildFlatKline(entries[i]) == Ok(flat[i]) {
      BuildFlatKlineRoundTrip(ps[i]);
    }
    MapAllOk(entries, BuildFlatKline, flat);
    if SortedByOpenTime(flat) {
      SortKlinesIdempotent(flat);
    }
  }

  /** A funding-rate record announcing the next settlement, as OKX sends it. */
  function ForecastEntry(f: FundingForecast): Json {
    JObject(map["fundingRate" := JStr(f.fundingRate.text), "fundingTime" := JStr(IntToString(f.nextFundingTime))])
  }

  /** A reply carrying one funding-rate record yields exactly its forecast. */
  lemma LatestFundingRateRoundTrip(s: Symbol, f: FundingForecast)
    requires IsDecimalText(f.fundingRate.text)
    ensures LatestFundingRate(s, SuccessReply([ForecastEntry(f)])) == Ok(f)
  {
    var m := ForecastEntry(f).fields;
    SuccessReplyAccepted([ForecastEntry(f)], "latest funding rate");
    ToIntOfTimestamp(f.nextFundingTime);
    DecimalFieldRoundTrip(f.fundingRate);
    DecimalTextNonEmpty(f.fundingRate.text);
    assert Get(m, "fundingRate") == JStr(f.fundingRate.text);
    assert Get(m, "fundingTime") == JStr(IntToString(f.nextFundingTime));
  }

  /** The instrument records of a series of instruments, in order. */
  function InstrumentEntries(xs: seq<Instrument>): (r: seq<Json>)
    ensures |r| == |xs| && forall i :: 0 <= i < |xs| ==> r[i] == InstrumentEntry(xs[i])
  {
    seq(|xs|, i requires 0 <= i < |xs| => InstrumentEntry(xs[i]))
  }

  /** Each record is a USDT-settled dict that parses to the instrument at the same
      position. */
  predicate AllUsdtParse(entries: seq<Json>, xs: seq<Instrument>)
    decreases |entries|
  {
    |entries| == |xs|
    && (|entries| > 0 ==>
          entries[0].JObject? && Get(entries[0].fields, "settleCcy") == JStr("USDT")
          && ParseInstrument(entries[0]) == Ok(xs[0])
          && AllUsdtParse(entries[1..], xs[1..]))
  }

  /** When every record is USDT-settled, the filtering loop keeps all of them and
      parses each in place. */
  lemma {:induction false} UsdtInstrumentsKeepsAll(entries: seq<Json>, xs: seq<Instrument>)
    requires AllUsdtParse(entries, xs)
    ensures UsdtInstruments(entries) == Ok(xs)
    decreases |entries|
  {
    if |entries| > 0 {
      UsdtInstrumentsKeepsAll(entries[1..], xs[1..]);
      UsdtInstrumentsStep(entries);
      HeadTail(xs);
    }
  }

  /** A non-empty sequence is its head followed by its tail. */
  lemma HeadTail<T>(xs: seq<T>)
    requires |xs| > 0
    ensures [xs[0]] + xs[1..] == xs
  {
  }

  /** One turn of the loop on a USDT-settled head record that parses. */
  lemma UsdtInstrumentsStep(entries: seq<Json>)
    requires |entries| > 0 && entries[0].JObject? && Get(entries[0].fields, "settleCcy") == JStr("USDT")
    requires ParseInstrument(entries[0]).Ok? && UsdtInstruments(entries[1..]).Ok?
    ensures UsdtInstruments(entries) == Ok([ParseInstrument(entries[0]).value] + UsdtInstruments(entries[1..]).value)
  {
  }

  /** Records built from well-shaped instruments are USDT-settled and parse back to
      them, position by position. */
  lemma {:induction false} InstrumentEntriesParse(entries: seq<Json>, xs: seq<Instrument>)
    requires |entries| == |xs|
    requires forall i :: 0 <= i < |xs| ==> entries[i] == InstrumentEntry(xs[i]) && InstrumentShape(xs[i])
    ensures AllUsdtParse(entries, xs)
    decreases |entries|
  {
    if |entries| > 0 {
      InstrumentSettled(xs[0]);
      ParseInstrumentRoundTrip(xs[0]);
      InstrumentEntriesParse(entries[1..], xs[1..]);
    }
  }

  lemma InstrumentSettled(x: Instrument)
    ensures Get(InstrumentEntry(x).fields, "settleCcy") == JStr("USDT")
  {
  }

  /** An instrument listing of USDT swaps yields exactly those instruments, in order. */
  lemma InstrumentsRoundTrip(xs: seq<Instrument>)
    requires |xs| > 0 && forall i :: 0 <= i < |xs| ==> InstrumentShape(xs[i])
    ensures Instruments(SuccessReply(InstrumentEntries(xs))) == Ok(xs)
  {
    SuccessReplyAccepted(InstrumentEntries(xs), "instruments");
    InstrumentEntriesParse(InstrumentEntries(xs), xs);
    UsdtInstrumentsKeepsAll(InstrumentEntries(xs), xs);
  }

  /** A transport failure or a rate-limited reply makes the candle feeds fail with
      the transient error, whenever the window's limit is acceptable. */
  lemma CandlesTransient(q: HistoricalWindow, reply: Reply)
    requires q.limit <= PRICE_KLINES_MAX_LIMIT
    requires reply.NetworkFailure? || (reply.Response? && reply.status == 429)
    ensures PriceKlines(q, reply).Err? && PriceKlines(q, reply).error.ExchangeTransient?
  {
  }
}

=== FILE: queries.dfy ===
/** Query value objects (market_data_fetch/core/queries.py). Times are epoch
    milliseconds; `None` is an absent bound. */
module Queries {
  import opened Errors
  import opened Shared

  /** The library-wide default page size. */
  const DEFAULT_LIMIT: int := 500

  /** An OHLCV query. */
  datatype HistoricalWindow = HistoricalWindow(
    symbol: Symbol,
    interval: Interval,
    startTime: Option<int>,
    endTime: Option<int>,
    limit: int)
  {
    /** What construction guarantees of every window the adapters receive. */
    predicate Valid() {
      ValidBounds(startTime, endTime, limit)
    }
  }

  /** A funding-rate history query. */
  datatype FundingRateWindow = FundingRateWindow(
    symbol: Symbol,
    startTime: Option<int>,
    endTime: Option<int>,
    limit: int)
  {
    predicate Valid() {
      ValidBounds(startTime, endTime, limit)
    }
  }

  /** The shared invariant of both window kinds: a positive limit and, when both
      bounds are present, a start strictly before the end. */
  predicate ValidBounds(startTime: Option<int>, endTime: Option<int>, limit: int) {
    limit > 0 && (startTime.Some? && endTime.Some? ==> startTime.value < endTime.value)
  }

  /** The checks both `__post_init__` methods run, in their order: the limit first,
      then the bounds. */
  function CheckBounds(startTime: Option<int>, endTime: Option<int>, limit: int): (r: Result<()>)
    ensures r.Ok? <==> ValidBounds(startTime, endTime, limit)
    ensures limit <= 0 ==> r == Err(ValueError("limit must be a positive integer"))
    ensures limit > 0 && r.Err? ==> r == Err(ValueError("start_time must be earlier than end_time"))
  {
    if limit <= 0 then Err(ValueError("limit must be a positive integer"))
    else if startTime.Some? && endTime.Some? && startTime.value >= endTime.value then
      Err(ValueError("start_time must be earlier than end_time"))
    else Ok(())
  }

  /** `HistoricalWindow(symbol, interval, start_time, end_time, limit)`. */
  function NewHistoricalWindow(symbol: Symbol, interval: Interval, startTime: Option<int> := None,
                               endTime: Option<int> := None, limit: int := DEFAULT_LIMIT)
    : (r: Result<HistoricalWindow>)
    ensures r.Ok? <==> ValidBounds(startTime, endTime, limit)
    ensures r.Ok? ==> r.value == HistoricalWindow(symbol, interval, startTime, endTime, limit) && r.value.Valid()
    ensures r.Err? ==> r.error.ValueError?
  {
    var _ :- CheckBounds(startTime, endTime, limit);
    Ok(HistoricalWindow(symbol, interval, startTime, endTime, limit))
  }

  /** `FundingRateWindow(symbol, start_time, end_time, limit)`. */
  function NewFundingRateWindow(symbol: Symbol, startTime: Option<int> := None,
                                endTime: Option<int> := None, limit: int := DEFAULT_LIMIT)
    : (r: Result<FundingRateWindow>)
    ensures r.Ok? <==> ValidBounds(startTime, endTime, limit)
    ensures r.Ok? ==> r.value == FundingRateWindow(symbol, startTime, endTime, limit) && r.value.Valid()
    ensures r.Err? ==> r.error.ValueError?
  {
    var _ :- CheckBounds(startTime, endTime, limit);
    Ok(FundingRateWindow(symbol, startTime, endTime, limit))
  }

  /** A window built with only the required arguments is accepted and carries the
      default limit of 500 and no bounds. */
  lemma DefaultWindows(symbol: Symbol, interval: Interval)
    ensures NewHistoricalWindow(symbol, interval) == Ok(HistoricalWindow(symbol, interval, None, None, 500))
    ensures NewFundingRateWindow(symbol) == Ok(FundingRateWindow(symbol, None, None, 500))
  {
  }

  /** A non-positive limit is rejected for both kinds, whatever the bounds. */
  lemma NonPositiveLimitRejected(symbol: Symbol, interval: Interval, s: Option<int>, e: Option<int>, limit: int)
    requires limit <= 0
    ensures NewHistoricalWindow(symbol, interval, s, e, limit) == Err(ValueError("limit must be a positive integer"))
    ensures NewFundingRateWindow(symbol, s, e, limit) == Err(ValueError("limit must be a positive integer"))
  {
  }

  /** With a positive limit, the bounds are rejected exactly when both are present
      and out of order (an empty interval included). */
  lemma BoundsRejected(symbol: Symbol, interval: Interval, s: Option<int>, e: Option<int>, limit: int)
    requires limit > 0
    ensures NewHistoricalWindow(symbol, interval, s, e, limit).Err?
            <==> s.Some? && e.Some? && s.value >= e.value
    ensures NewFundingRateWindow(symbol, s, e, limit).Err?
            <==> s.Some? && e.Some? && s.value >= e.value
  {
  }

  /** One bound, or none, never makes construction fail. */
  lemma OneSidedWindowsAccepted(symbol: Symbol, interval: Interval, s: Option<int>, e: Option<int>, limit: int)
    requires limit > 0 && (s.None? || e.None?)
    ensures NewHistoricalWindow(symbol, interval, s, e, limit).Ok?
    ensures NewFundingRateWindow(symbol, s, e, limit).Ok?
  {
  }
}

=== FILE: records.dfy ===
/** The result shapes the adapters build: fixed-position tuples and dicts, given
    field names here. Which shape an operation returns, and in which field order,
    differs per exchange and is stated at each operation. */
module Records {
  import opened Numbers
  import opened Json

  /** `(open_time_ms, open, high, low, close, volume)`. */
  datatype Kline = Kline(openTime: int, open: Decimal, high: Decimal, low: Decimal, close: Decimal, volume: Decimal) {
    /** Every price field spells a decimal literal. */
    predicate WellFormed() {
      IsDecimalText(open.text) && IsDecimalText(high.text) && IsDecimalText(low.text)
      && IsDecimalText(close.text) && IsDecimalText(volume.text)
    }
  }

  /** The four candle feeds of the canonical interface: traded price, index price,
      mark price and premium index. */
  datatype KlineFeed = PriceFeed | IndexFeed | MarkFeed | PremiumFeed

  /** Ascending by open time, the order the canonical interface promises. */
  predicate SortedByOpenTime(ks: seq<Kline>) {
    forall i, j :: 0 <= i < j < |ks| ==> ks[i].openTime <= ks[j].openTime
  }

  /** A six-column vendor kline row carrying exactly the fields of `k`: the open time
      as a JSON integer and each decimal as its text. */
  function KlineRow(k: Kline): seq<Json> {
    [JInt(k.openTime), JStr(k.open.text), JStr(k.high.text), JStr(k.low.text), JStr(k.close.text),
     JStr(k.volume.text)]
  }

  /** The positional columns of an encoded kline row. */
  lemma KlineRowColumns(k: Kline)
    ensures var row := KlineRow(k);
            |row| == 6 && row[0] == JInt(k.openTime) && row[1] == JStr(k.open.text) && row[2] == JStr(k.high.text)
            && row[3] == JStr(k.low.text) && row[4] == JStr(k.close.text) && row[5] == JStr(k.volume.text)
  {
  }

  /** `(timestamp_ms, value)`: funding points and index, premium, open-interest and
      mark-price snapshots that put the time first. */
  datatype Point = Point(timestamp: int, value: Decimal)

  /** `(value, timestamp_ms)`: the snapshots Binance and Bitget build price-first. */
  datatype PriceFirst = PriceFirst(value: Decimal, timestamp: int)

  /** `(mark_price, index_price, funding_rate, next_funding_time_ms)`. */
  datatype MarkSnapshot = MarkSnapshot(markPrice: Decimal, indexPrice: Decimal, fundingRate: Decimal, nextFundingTime: int)

  /** OKX's ticker dict. */
  datatype Ticker = Ticker(timestamp: int, lastPrice: Decimal, indexPrice: Decimal, markPrice: Decimal)

  /** OKX's latest funding dict. */
  datatype FundingForecast = FundingForecast(fundingRate: Decimal, nextFundingTime: int)

  /** The instrument dict OKX and Bybit build. */
  datatype Instrument = Instrument(
    symbol: string, baseAsset: string, quoteAsset: string,
    tickSize: Decimal, stepSize: Decimal, minQty: Decimal, maxQty: Decimal,
    status: string)
}

=== FILE: registry.dfy ===
/** The exchange-to-factory registry (market_data_fetch/core/registry.py), as a
    value: each operation takes a registry and returns the next one. A factory is a
    function of no arguments producing a source of type `S`. */
module Registry {
  import opened Errors
  import opened Shared

  datatype Registry<S> = Registry(factories: map<Exchange, () -> S>)

  /** A registry with no factories. */
  function Empty<S>(): (r: Registry<S>)
    ensures r.factories.Keys == {}
  {
    Registry(map[])
  }

  /** `register(exchange, factory, replace=...)`: refuses an already registered
      exchange unless `replace`; otherwise sets exactly that entry. */
  function Register<S>(reg: Registry<S>, exchange: Exchange, factory: () -> S, replace: bool): (r: Result<Registry<S>>)
    ensures r.Err? <==> !replace && exchange in reg.factories
    ensures r.Err? ==> r.error == ValueError("USDT perp source for " + exchange.Id() + " already registered")
    ensures r.Ok? ==> r.value.factories.Keys == reg.factories.Keys + {exchange}
                      && r.value.factories[exchange] == factory
                      && forall e :: e in reg.factories && e != exchange ==> r.value.factories[e] == reg.factories[e]
  {
    if !replace && exchange in reg.factories then
      Err(ValueError("USDT perp source for " + exchange.Id() + " already registered"))
    else Ok(Registry(reg.factories[exchange := factory]))
  }

  /** `create(exchange)`: invokes the registered factory, or fails for an unknown
      exchange. */
  function Create<S>(reg: Registry<S>, exchange: Exchange): (r: Result<S>)
    ensures r.Ok? <==> exchange in reg.factories
    ensures r.Ok? ==> r.value == reg.factories[exchange]()
    ensures r.Err? ==> r.error == ValueError("No USDT perp source registered for " + exchange.Id())
  {
    if exchange !in reg.factories then Err(ValueError("No USDT perp source registered for " + exchange.Id()))
    else Ok(reg.factories[exchange]())
  }

  /** `snapshot()`: a copy of the factory map. Later registrations build a new
      registry, so a snapshot never changes afterwards. */
  function Snapshot<S>(reg: Registry<S>): (r: map<Exchange, () -> S>)
    ensures r.Keys == reg.factories.Keys
    ensures forall e :: e in r ==> r[e] == reg.factories[e]
  {
    reg.factories
  }

  /** A refused registration leaves every entry as it was, so the registry the
      caller keeps is the one before the call. */
  lemma RefusedRegisterKeepsEntries<S>(reg: Registry<S>, exchange: Exchange, factory: () -> S)
    requires exchange in reg.factories
    ensures Register(reg, exchange, factory, false).Err?
    ensures Register(reg, exchange, factory, true).Ok?
    ensures Snapshot(Register(reg, exchange, factory, true).value)
            == Snapshot(reg)[exchange := factory]
  {
  }

  /** After a successful registration, `create` for that exchange runs the new
      factory, and `create` for every other exchange behaves as before. */
  lemma RegisterThenCreate<S>(reg: Registry<S>, exchange: Exchange, factory: () -> S, replace: bool, other: Exchange)
    requires Register(reg, exchange, factory, replace).Ok?
    ensures Create(Register(reg, exchange, factory, replace).value, exchange) == Ok(factory())
    ensures other != exchange ==> Create(Register(reg, exchange, factory, replace).value, other) == Create(reg, other)
  {
  }

  /** The same exchange registered a second time is refused without `replace` and
      accepted with it. */
  lemma RegisterTwiceRefused<S>(reg: Registry<S>, exchange: Exchange, f: () -> S, g: () -> S)
    requires exchange !in reg.factories
    ensures Register(reg, exchange, f, false).Ok?
    ensures Register(Register(reg, exchange, f, false).value, exchange, g, false).Err?
    ensures Register(Register(reg, exchange, f, false).value, exchange, g, true).Ok?
  {
  }
}

=== FILE: shared.dfy ===
/** Shared domain values (market_data_fetch/models/shared.py): the exchanges, the
    canonical candle intervals and the contract symbol. */
module Shared {
  import opened Errors

  /** The supported exchanges, by their string value. */
  datatype Exchange = Binance | Okx | Bybit | Bitget {
    function Id(): string {
      match this
      case Binance => "binance"
      case Okx => "okx"
      case Bybit => "bybit"
      case Bitget => "bitget"
    }
  }

  /** The closed set of canonical candle granularities. */
  datatype Interval =
    | Minute1 | Minute3 | Minute5 | Minute15 | Minute30
    | Hour1 | Hour2 | Hour4 | Hour6 | Hour12
    | Day1 | Day3 | Week1 | Month1
  {
    /** The enumeration's string value. */
    function Text(): string {
      match this
      case Minute1 => "1m"
      case Minute3 => "3m"
      case Minute5 => "5m"
      case Minute15 => "15m"
      case Minute30 => "30m"
      case Hour1 => "1h"
      case Hour2 => "2h"
      case Hour4 => "4h"
      case Hour6 => "6h"
      case Hour12 => "12h"
      case Day1 => "1d"
      case Day3 => "3d"
      case Week1 => "1w"
      case Month1 => "1M"
    }

    /** The length of one candle in minutes; a month counts as 30 days. */
    function Minutes(): nat {
      match this
      case Minute1 => 1
      case Minute3 => 3
      case Minute5 => 5
      case Minute15 => 15
      case Minute30 => 30
      case Hour1 => 60
      case Hour2 => 120
      case Hour4 => 240
      case Hour6 => 360
      case Hour12 => 720
      case Day1 => 1440
      case Day3 => 4320
      case Week1 => 10080
      case Month1 => 43200
    }
  }

  /** Every member of the enumeration, in declaration order. */
  const AllIntervals: seq<Interval> :=
    [Minute1, Minute3, Minute5, Minute15, Minute30, Hour1, Hour2, Hour4, Hour6, Hour12,
     Day1, Day3, Week1, Month1]

  /** `Interval(text)`: look a member up by its string value. */
  function ParseInterval(text: string): (r: Result<Interval>)
    ensures r.Ok? ==> r.value.Text() == text
    ensures r.Err? ==> r.error.ValueError? && forall i :: 0 <= i < |AllIntervals| ==> AllIntervals[i].Text() != text
  {
    if text == "1m" then Ok(Minute1)
    else if text == "3m" then Ok(Minute3)
    else if text == "5m" then Ok(Minute5)
    else if text == "15m" then Ok(Minute15)
    else if text == "30m" then Ok(Minute30)
    else if text == "1h" then Ok(Hour1)
    else if text == "2h" then Ok(Hour2)
    else if text == "4h" then Ok(Hour4)
    else if text == "6h" then Ok(Hour6)
    else if text == "12h" then Ok(Hour12)
    else if text == "1d" then Ok(Day1)
    else if text == "3d" then Ok(Day3)
    else if text == "1w" then Ok(Week1)
    else if text == "1M" then Ok(Month1)
    else Err(ValueError("'" + text + "' is not a valid Interval"))
  }

  /** The enumeration has exactly fourteen members, with distinct string values,
      and every interval is one of them. */
  lemma IntervalsClosed(i: Interval)
    ensures |AllIntervals| == 14
    ensures i in AllIntervals
    ensures forall a, b :: 0 <= a < b < |AllIntervals| ==> AllIntervals[a].Text() != AllIntervals[b].Text()
    ensures AllIntervals[0] == Minute1 && AllIntervals[13] == Month1
  {
  }

  /** Looking an interval up by its own value gives it back, so the string values
      identify the members. */
  lemma ParseIntervalRoundTrip(i: Interval)
    ensures ParseInterval(i.Text()) == Ok(i)
  {
  }

  lemma IntervalTextInjective(a: Interval, b: Interval)
    ensures a.Text() == b.Text() ==> a == b
  {
    ParseIntervalRoundTrip(a);
    ParseIntervalRoundTrip(b);
  }

  // ------------------------------------------------------------------
  // Symbols

  /** The only contract type the library knows. */
  datatype ContractType = Perpetual

  /** A derivative contract symbol. */
  datatype Symbol = Symbol(base: string, quote: string, contractType: ContractType) {
    /** The invariant construction establishes. */
    predicate Valid() {
      |base| > 0 && |quote| > 0
    }

    /** The canonical concatenated pair, e.g. `BTCUSDT`. */
    function Pair(): string {
      base + quote
    }
  }

  /** `Symbol(base, quote)`: both parts must be non-empty; the contract type is the
      default `"perpetual"`. */
  function NewSymbol(base: string, quote: string): (r: Result<Symbol>)
    ensures r.Ok? <==> |base| > 0 && |quote| > 0
    ensures r.Ok? ==> r.value.base == base && r.value.quote == quote
                      && r.value.contractType == Perpetual && r.value.Valid()
    ensures r.Err? ==> r.error == ValueError("Symbol base and quote must be non-empty strings.")
  {
    if |base| == 0 || |quote| == 0 then Err(ValueError("Symbol base and quote must be non-empty strings."))
    else Ok(Symbol(base, quote, Perpetual))
  }

  /** The pair starts with the base, ends with the quote and is exactly as long as
      both; for a valid symbol it is longer than either part. */
  lemma PairShape(s: Symbol)
    ensures |s.Pair()| == |s.base| + |s.quote|
    ensures s.Pair()[..|s.base|] == s.base
    ensures s.Pair()[|s.base|..] == s.quote
    ensures s.Valid() ==> |s.Pair()| > |s.base| && |s.Pair()| > |s.quote|
  {
  }

  /** Knowing where the base ends, the pair gives back both parts. */
  lemma PairDeterminesParts(s: Symbol, t: Symbol)
    requires s.Pair() == t.Pair() && |s.base| == |t.base|
    ensures s.base == t.base && s.quote == t.quote
  {
    PairShape(s);
    PairShape(t);
  }

  // ------------------------------------------------------------------
  // Case mapping

  /** `str.upper()` on one character, for ASCII letters; other characters are kept. */
  function UpperChar(c: char): char {
    if 'a' <= c <= 'z' then (c as int - 32) as char else c
  }

  /** `str.upper()` restricted to ASCII. */
  function Upper(s: string): (r: string)
    ensures |r| == |s|
    ensures forall i :: 0 <= i < |s| ==> r[i] == UpperChar(s[i])
  {
    if |s| == 0 then "" else [UpperChar(s[0])] + Upper(s[1..])
  }

  /** Upper-casing keeps a hyphen-free text hyphen-free, and is idempotent. */
  lemma UpperKeepsHyphens(s: string)
    ensures '-' in Upper(s) <==> '-' in s
    ensures Upper(Upper(s)) == Upper(s)
  {
    var u := Upper(s);
    if '-' in u {
      var k :| 0 <= k < |u| && u[k] == '-';
      assert s[k] == '-';
    }
    if '-' in s {
      var k :| 0 <= k < |s| && s[k] == '-';
      assert u[k] == '-';
    }
  }
}
